=== FILE: README.md ===
# Todo app: a Dafny model of its task and account logic

This project models the task-management and account logic of the todo
application. The application has two Python backends and one React frontend.

- **In-memory console backend** (`backend/app/storage.py` and the agents under `backend/app/agents/`):
  - a dictionary task store that keeps insertion order;
  - the add, update, delete, mark-complete, view and auth agents, with their
    validation and their success and failure messages.
- **In-memory user directory** (`backend/app/auth/`): sign-up, login and bearer-token
  authentication over a directory keyed by email and by id.
- **FastAPI layer of the first backend** (`backend/app/api.py`, `backend/app/auth.py`,
  `backend/app/models/user.py`):
  - its status codes;
  - the JWT lifetime rules;
  - the bcrypt 72-byte password limit.
- **SQL backend** (`backend/src/`):
  - the pydantic task schemas;
  - the task service: filter, sort, paginate, create, update, delete and statistics;
  - the registration and login service;
  - the task routes, including bulk update.
- **Chat backend's task service** (`backend/app/services/task_service.py`): the SQLModel
  service and its MCP tool functions.
- **Frontend** (`frontend/contexts/TodoContext.tsx`, `frontend/pages/dashboard.js`):
  - the todo reducer;
  - the dashboard's filter, sort, pagination and statistics.

Modules follow the source files, with these exceptions:

- `TaskStore`, `AddTaskAgent`, `UpdateTaskAgent`, `DeleteTaskAgent`, `MarkCompleteAgent`,
  `ViewTasksAgent`, `AuthAgent`, `UserDirectory`, `AuthService`, `Api`, `UserModel`,
  `AuthRoutes`, `SrcTaskSchemas`, `SrcTaskService`, `SrcTaskRoutes`, `TodoReducer` and
  `Dashboard` each model one source file: storage.py, the five task agents and the auth
  agent, auth/models.py, auth/service.py, api.py, models/user.py, auth.py,
  src/schemas/task.py, src/services/task_service.py, src/api/routes/tasks.py,
  TodoContext.tsx and dashboard.js.
- `SrcAuthService` models both `backend/src/services/auth_service.py` and the two
  routes of `backend/src/api/routes/auth.py` that call it.
- `AppTaskService` models `backend/app/services/task_service.py` together with the
  `Task` table of `backend/app/models/chat_models.py`.
- `AgentsAsWritten` models the update, delete and mark-complete agents as they are
  written, side by side with their corrected modules (see Findings).
- `Common` (Python truthiness, `strip()`, decimal rendering), `Seqs` (filter, count,
  stable sort, slicing), `Http` (status codes and responses) and `AgentReply` (the
  agents' reply dictionary) are shared vocabulary and model no single file.

The two in-memory stores are modelled differently:

- The task store is a pair `(order, tasks)`, so the dictionary's insertion order is
  part of the state.
- SQL tables are sequences of rows, and each lookup takes the first matching row.

Every operation is a pure function from the old state to a new state and a
reply. The following are parameters of the functions:

- clocks, ids, uuids and salts;
- password hashing, JWT encoding and decoding;
- the database's string collation.

HTTP answers use `Http.Response`: a body, or a status code with a detail.

Where the code and the documented behaviour disagree, the model follows the code:

- `POST /api/signup` in `backend/app/api.py` ignores `confirm_password`. Only the auth
  agent compares it (`Api.ConfirmationIgnored`).
- Creating a task through `backend/app/api.py` with an explicit `"priority": null` stores
  no priority. The `"medium"` default applies only when the key is absent.
- `create_access_token` treats a zero `timedelta` as absent, because it is falsy, and
  falls back to 15 minutes.
- In `POST /tasks/`, `PUT /tasks/{id}` and `PATCH /tasks/{id}/status`, the route's own
  check that answers 400 for a bad status can never fire, because the pydantic schema
  rejects such a status first with 422. The model keeps the checks, and the contracts
  state that those three routes never answer 400. `GET /tasks/` is different: its
  `status` query parameter passes through no schema, so its 400 does fire
  (`SrcTaskRoutes.GetTasks`).
- In the bulk update, the "Invalid status value" branch is also dead. The invalid payload
  makes `TaskUpdate(**updates)` raise, which is a 500 (see Findings).

## Model

| member | source | states |
|---|---|---|
| Common.NatToString | backend/app/agents/view_tasks_agent.py:32 | a count renders as a non-empty string of decimal digits, a single digit exactly below 10 |
| Common.Strip | backend/app/agents/add_task_agent.py:59 | `strip()` never lengthens a string and leaves no whitespace at either end |
| Common.NatToStringValue | backend/app/agents/view_tasks_agent.py:32 | the decimal rendering of a count denotes that count and has no leading zero |
| Common.BlankIffAllSpace | backend/app/agents/add_task_agent.py:32-33 | a title is blank after `strip()` exactly when every character is Python whitespace |
| Common.StripIdempotent | backend/app/agents/add_task_agent.py:59-60 | stripping an already stripped title changes nothing |
| Seqs.SortStable | frontend/pages/dashboard.js:32-61 | the sort keeps elements that compare equal in their input order |
| Seqs.FilterPartition | frontend/pages/dashboard.js:67-71 | a predicate and its negation split a list into two parts whose lengths add up to the whole |
| Seqs.Page | backend/src/services/task_service.py:66 | a page holds min(limit, remaining) elements, and its i-th element is the list's (offset+i)-th |
| TaskStore.EmptyValid | backend/app/storage.py:43-44 | the fresh store satisfies the store invariant: ids distinct, and the order and the dictionary agree |
| TaskStore.GetTask | backend/app/storage.py:50-52 | a lookup finds a task exactly when the id is stored, and returns the task stored under that id |
| TaskStore.GetAllTasks | backend/app/storage.py:46-48 | the i-th task is the one stored under the i-th id in insertion order, so every stored task appears exactly once |
| TaskStore.GetTasksByUser | backend/app/storage.py:54-60 | the listing holds exactly the stored tasks of that user |
| TaskStore.Put | backend/app/storage.py:62-72 | writing keeps the invariant; an existing id keeps its place in the order, a new id goes to the end |
| TaskStore.PriorityOf | backend/app/storage.py:69 | a missing priority key defaults to "medium"; an explicit None is kept |
| TaskStore.CreateTask | backend/app/storage.py:62-72 | the new task carries the given fields, is not completed, has both timestamps at `now`, and is stored under its id |
| TaskStore.ApplyPatch | backend/app/storage.py:82-101 | an update never changes id, owner or creation time, and sets `updated_at` |
| TaskStore.UpdateTask | backend/app/storage.py:82-101 | an unknown id changes nothing and returns None; otherwise only that task is rewritten and the order is unchanged |
| TaskStore.RemoveId | backend/app/storage.py:74-80 | the order loses exactly the removed id and stays duplicate-free |
| TaskStore.DeleteTask | backend/app/storage.py:74-80 | deletion returns the removed task and drops exactly that id; an unknown id changes nothing |
| TaskStore.MarkComplete | backend/app/storage.py:103-110 | only the completed flag and `updated_at` of that task change; an unknown id changes nothing |
| TaskStore.CreateThenGet | backend/app/storage.py:62-72 | a created task can be read back, is incomplete, and has priority "medium" unless one was given |
| TaskStore.CreateAppends | backend/app/storage.py:46-48 | creating under a fresh id appends the task to the full listing |
| TaskStore.CreateIsolatesUsers | backend/app/storage.py:54-60 | creating a task appends it to its owner's listing and leaves every other user's listing unchanged |
| TaskStore.UpdateNeverClears | backend/app/storage.py:88-97 | None fields are skipped: an update never clears a date, note or priority, and a fully-None update changes no content |
| TaskStore.UpdateOnlyTouchesId | backend/app/storage.py:82-101 | updating one id leaves every other task unchanged |
| TaskStore.DeleteTwice | backend/app/storage.py:74-80 | a second delete of the same id finds nothing and changes nothing; other tasks survive the first |
| TaskStore.MarkCompleteOnlyFlag | backend/app/storage.py:103-110 | after marking, the flag is as requested and the content is otherwise the same |
| AddTaskAgent.ValidateInput | backend/app/agents/add_task_agent.py:23-36 | a title is valid exactly when it is not blank and at most 255 characters; each failure has its own message |
| AddTaskAgent.OwnerOf | backend/app/agents/add_task_agent.py:66-70 | a falsy user id files the task under "console_user" |
| AddTaskAgent.Execute | backend/app/agents/add_task_agent.py:38-79 | succeeds exactly on a valid title; on success it stores the stripped title, drops falsy date and note, and sets priority "medium"; on failure the store is unchanged |
| AddTaskAgent.TitleLengthBoundary | backend/app/agents/add_task_agent.py:34-36 | 255 characters are accepted; 256 are rejected, even when the last is a space |
| AddTaskAgent.AddGrowsByOne | backend/app/agents/add_task_agent.py:73-79 | a successful add appends exactly the returned task to the listing |
| UpdateTaskAgent.ValidateInput | backend/app/agents/update_task_agent.py:23-37 | an absent title is valid; a present one must be non-blank and at most 255 characters |
| UpdateTaskAgent.Join | backend/app/agents/update_task_agent.py:109 | `", ".join`: empty for no parts, the part itself for one |
| UpdateTaskAgent.JoinChangedFields | backend/app/agents/update_task_agent.py:99-109 | the change list joins as "title, date, note", or just the one field given |
| UpdateTaskAgent.ChangedFields | backend/app/agents/update_task_agent.py:99-105 | the change list names exactly the fields that were given |
| UpdateTaskAgent.PatchOf | backend/app/agents/update_task_agent.py:84-90 | the patch carries the stripped title, the date and the note, and never status or priority |
| UpdateTaskAgent.Execute | backend/app/agents/update_task_agent.py:39-116 | errors in source order: not found, not owner, bad title, and "No update provided" when no field is given; success writes only the given fields and names them, under the task's new title |
| UpdateTaskAgent.UpdateKeepsStatusAndOwner | backend/app/agents/update_task_agent.py:84-90 | no update changes any task's set of ids, completed flag, priority or owner |
| UpdateTaskAgent.ForeignCallerChangesNothing | backend/app/agents/update_task_agent.py:61-65 | a caller who does not own the task cannot change the store |
| DeleteTaskAgent.GetTaskForConfirmation | backend/app/agents/delete_task_agent.py:23-54 | a confirmation is asked exactly for an existing task of the caller, naming its title |
| DeleteTaskAgent.Execute | backend/app/agents/delete_task_agent.py:56-101 | the store changes exactly when the task exists, belongs to the caller and deletion is confirmed; only that task is removed |
| DeleteTaskAgent.AskThenConfirm | backend/app/agents/delete_task_agent.py:83-96 | asking changes nothing; confirming deletes; a second confirmation reports not found |
| MarkCompleteAgent.StatusText | backend/app/agents/mark_complete_agent.py:50 | the flag reads as "completed" or "incomplete" |
| MarkCompleteAgent.Execute | backend/app/agents/mark_complete_agent.py:22-77 | succeeds exactly for an owned existing task; a task already in the requested state is left alone |
| MarkCompleteAgent.Toggle | backend/app/agents/mark_complete_agent.py:79-105 | an owned task's flag is inverted and nothing else in the store changes |
| MarkCompleteAgent.ToggleTwiceRestores | backend/app/agents/mark_complete_agent.py:79-105 | toggling twice restores the task except for `updated_at`; other tasks are untouched |
| MarkCompleteAgent.MarkIdempotent | backend/app/agents/mark_complete_agent.py:48-72 | marking the same state twice leaves the store as after the first |
| ViewTasksAgent.ListAll | backend/app/agents/view_tasks_agent.py:22-35 | lists every stored task, and the count and message match the list |
| ViewTasksAgent.ListByUser | backend/app/agents/view_tasks_agent.py:37-53 | lists exactly that user's tasks |
| ViewTasksAgent.GetById | backend/app/agents/view_tasks_agent.py:55-76 | finds exactly the stored id |
| ViewTasksAgent.Scope | backend/app/agents/view_tasks_agent.py:139-146 | a truthy user id restricts the listing to that user; otherwise every task is listed |
| ViewTasksAgent.ListPending | backend/app/agents/view_tasks_agent.py:78-99 | lists exactly the incomplete tasks in scope |
| ViewTasksAgent.ListCompleted | backend/app/agents/view_tasks_agent.py:101-122 | lists exactly the completed tasks in scope |
| ViewTasksAgent.Execute | backend/app/agents/view_tasks_agent.py:124-155 | a task id wins over the filters; "pending" and "completed" give exactly the pending or completed listing of the user's tasks; any other filter lists the whole scope |
| ViewTasksAgent.PendingPlusCompleted | backend/app/agents/view_tasks_agent.py:78-122 | the pending and completed counts add up to the tasks in scope |
| ViewTasksAgent.LookupIgnoresOwner | backend/app/agents/view_tasks_agent.py:135-137 | a lookup by id returns the task whoever asks |
| AgentsAsWritten.UpdateAsWritten | backend/app/agents/update_task_agent.py:61-111 | with a user id the update raises before writing; without one it writes and then raises building the message |
| AgentsAsWritten.DeleteAsWritten | backend/app/agents/delete_task_agent.py:67-96 | an existing task always makes the agent raise, and nothing is deleted |
| AgentsAsWritten.MarkAsWritten | backend/app/agents/mark_complete_agent.py:33-55 | an existing task always makes the agent raise, and nothing changes |
| AgentsAsWritten.UpdateRaisesWhereCorrectSucceeds | backend/app/agents/update_task_agent.py:61-111 | every update the record-based agent accepts raises as written |
| AgentsAsWritten.DeleteNeverDeletes | backend/app/agents/delete_task_agent.py:87 | a confirmed delete by the owner leaves the task in the store as written |
| AgentsAsWritten.MarkRaisesWhereCorrectSucceeds | backend/app/agents/mark_complete_agent.py:49 | marking raises as written where the record-based agent succeeds |
| AgentsAsWritten.RenameRaisesAfterWriting | backend/app/agents/update_task_agent.py:93-109 | a console rename with a valid title raises TypeError, yet the store it leaves already holds the new stripped title |
| UserDirectory.NewUser | backend/app/auth/models.py:10-24 | a new user stores sha256(password + salt) and both timestamps at `now` |
| UserDirectory.VerifyPassword | backend/app/auth/models.py:26-29 | a password verifies when its salted digest equals the stored one (see `OnlyOwnPasswordVerifies`) |
| UserDirectory.ToDict | backend/app/auth/models.py:31-42 | the hash and salt appear exactly when requested |
| UserDirectory.GetByEmail | backend/app/auth/models.py:52-54 | finds exactly the registered emails |
| UserDirectory.GetById | backend/app/auth/models.py:56-58 | finds exactly the registered ids |
| UserDirectory.AddUser | backend/app/auth/models.py:60-64 | the user is filed under its email and its id; other entries are unchanged |
| UserDirectory.UpdateUser | backend/app/auth/models.py:66-73 | an unknown email changes nothing; otherwise the user is re-filed with a new `updated_at` |
| UserDirectory.AddThenLookup | backend/app/auth/models.py:52-64 | an added user can be found by email and by id, and a fresh user keeps the directory consistent |
| UserDirectory.AddOverwritesEmail | backend/app/auth/models.py:60-64 | a second user with the same email replaces the first in the email index but not in the id index |
| UserDirectory.OnlyOwnPasswordVerifies | backend/app/auth/models.py:26-29 | the user's own password verifies; with an injective hash, no other password does |
| AuthService.PlausibleEmail | backend/app/auth/service.py:24 | an email is accepted when it contains both "@" and "." |
| AuthService.Refusal | backend/app/auth/service.py:15-37 | a refusal carries its message and no token or user |
| AuthService.Signup | backend/app/auth/service.py:11-51 | refusals in source order: duplicate email, bad email, short password; success registers the user and returns its token and public view |
| AuthService.Login | backend/app/auth/service.py:53-80 | succeeds exactly when the email is known and the password verifies; every failure is the same refusal |
| AuthService.StripBearer | backend/app/auth/service.py:85-90 | a "Bearer " prefix is removed once; other tokens pass unchanged |
| AuthService.AuthenticateRequest | backend/app/auth/service.py:82-106 | no token gives no result; otherwise authenticated exactly when the decoded id is registered |
| AuthService.SignupThenLogin | backend/app/auth/service.py:40-70 | after a successful sign-up, logging in with the same password returns the same user and token |
| AuthService.SignupTokenAuthenticates | backend/app/auth/service.py:82-106 | the sign-up token authenticates its user, with or without the Bearer prefix |
| AuthService.LoginFailuresIndistinguishable | backend/app/auth/service.py:56-70 | an unknown email and a wrong password give identical replies |
| AuthAgent.Signup | backend/app/agents/auth_agent.py:20-30 | a truthy confirmation that differs is refused with the directory unchanged; otherwise the service decides |
| AuthAgent.AuthenticateRequest | backend/app/agents/auth_agent.py:41-53 | strips "Bearer " and then delegates, so the service may strip again |
| AuthAgent.DoubleBearerAccepted | backend/app/agents/auth_agent.py:44-53 | a header with the prefix twice authenticates like the bare token |
| AuthAgent.MatchingConfirmationDelegates | backend/app/agents/auth_agent.py:22-28 | an equal or empty confirmation behaves like the service's sign-up |
| UserModel.NewDbUser | backend/app/models/user.py:10-18 | a new account is active and carries the given fields |
| UserModel.Utf8Length | backend/app/models/user.py:27-32 | the UTF-8 byte length lies between one and four bytes per character |
| UserModel.ValidatePasswordLength | backend/app/models/user.py:27-32 | a password is accepted exactly when its UTF-8 encoding has at most 72 bytes |
| UserModel.ByteLimitNotCharacterLimit | backend/app/models/user.py:27-32 | 72 ASCII characters pass and 73 fail; 24 three-byte characters pass and 25 fail |
| AuthRoutes.FindByEmail | backend/app/auth.py:36-41 | finds the first user with that email, or reports that none has it |
| AuthRoutes.AuthenticateUser | backend/app/auth.py:36-41 | succeeds exactly when the email is found and the password verifies |
| AuthRoutes.CreateAccessToken | backend/app/auth.py:43-52 | the token encodes the subject with expiry `now + delta` for a nonzero delta, and `now + 900` otherwise |
| AuthRoutes.ExpiryOf | backend/app/auth.py:43-52 | a nonzero delta sets the expiry; an absent or zero one gives 15 minutes |
| AuthRoutes.GetCurrentUser | backend/app/auth.py:54-74 | succeeds exactly when the token decodes to a subject that is a stored email; otherwise 401 |
| AuthRoutes.IssueToken | backend/app/auth.py:26 | issued tokens are bearer tokens for the email that live 24 hours |
| AuthRoutes.Signup | backend/app/auth.py:84-123 | a registered email gives 400 with no change; otherwise an active user is appended and a token issued |
| AuthRoutes.Login | backend/app/auth.py:125-148 | 401 exactly when authentication fails; otherwise the token response issued for the authenticated user |
| AuthRoutes.TokenLifetimes | backend/app/auth.py:26-148 | a token from login or signup is for the given email and expires 86400 seconds after issue; a zero delta falls back to 900 seconds |
| AuthRoutes.FindAppendMiss | backend/app/auth.py:36-41 | appending a user makes only that user's email findable |
| AuthRoutes.SignupThenAuthenticate | backend/app/auth.py:54-123 | when the decoder accepts the one token sign-up issues (fresh, so not expired), that token identifies the new user; a second sign-up with the email fails |
| Api.GetCurrentUser | backend/app/api.py:84-105 | a missing header and a bad token both give 401; success returns a registered user |
| Api.GetTasks | backend/app/api.py:144-153 | lists exactly the caller's tasks |
| Api.RequestPriority | backend/app/api.py:159-167 | a missing priority key gives "medium"; an explicit null stays null |
| Api.CreateTask | backend/app/api.py:156-173 | the new task belongs to the caller, has no date or note, and is not completed |
| Api.PatchOf | backend/app/api.py:180-185 | a null or absent field is not written; date and note never are |
| Api.UpdateTask | backend/app/api.py:176-195 | 404 with no change unless the caller owns the task; otherwise only that task is patched |
| Api.DeleteTask | backend/app/api.py:198-216 | 404 with no change unless the caller owns the task; otherwise only that task is removed |
| Api.OthersUntouched | backend/app/api.py:176-216 | updates and deletes never change another user's task |
| Api.NullIsNoChange | backend/app/api.py:180-185 | an update with every field null keeps the task's content |
| Api.SignupEndpoint | backend/app/api.py:108-123 | a service refusal becomes 400 with its message; success returns the service's reply |
| Api.LoginEndpoint | backend/app/api.py:126-141 | 401 exactly when the credentials do not verify |
| Api.ConfirmationIgnored | backend/app/api.py:108-123 | the endpoint accepts a mismatched confirmation that the auth agent refuses |
| SrcTaskSchemas.TitleCheck | backend/src/schemas/task.py:8-19 | a title must have 1 to 255 characters and must not be all whitespace; each violation has its own error |
| SrcTaskSchemas.ChoiceCheck | backend/src/schemas/task.py:21-31 | a present value must be one of the allowed choices |
| SrcTaskSchemas.ReportsJoin | backend/src/schemas/task.py:7-31 | the errors are empty exactly when every field passes, and each field reports its own error |
| SrcTaskSchemas.WithDefault | backend/src/schemas/task.py:10-11 | an absent field takes its default; an explicit null stays null |
| SrcTaskSchemas.ValidateCreate | backend/src/schemas/task.py:7-31 | the payload is valid exactly when title, status and priority pass; status defaults to "incomplete" and priority to "medium" |
| SrcTaskSchemas.ValidateUpdate | backend/src/schemas/task.py:34-58 | each present field obeys the creation rules; a valid update passes unchanged |
| SrcTaskSchemas.ValidateStatusUpdate | backend/src/schemas/task.py:74-81 | the status is required and must be "complete" or "incomplete" |
| SrcTaskSchemas.TitleAcceptsShortest | backend/src/schemas/task.py:8-19 | a one-character title that is not whitespace is accepted |
| SrcTaskSchemas.TitleAcceptsLongest | backend/src/schemas/task.py:8-19 | a 255-character title is accepted |
| SrcTaskSchemas.TitleAcceptsPadded | backend/src/schemas/task.py:15-19 | a title padded with spaces around a non-space character is accepted as sent |
| SrcTaskSchemas.TitleRejectsBoundaries | backend/src/schemas/task.py:8-19 | the empty, the all-space and the 256-character title are each rejected |
| SrcTaskService.SortFieldOf | backend/src/services/task_service.py:44-54 | each known sort name picks its column; anything else sorts by creation time |
| SrcTaskService.Matching | backend/src/services/task_service.py:37-41 | the user's rows, restricted by status when the filter is truthy |
| SrcTaskService.Comparator | backend/src/services/task_service.py:44-60 | the column's order, ascending only for "asc" (stated by `ComparatorMeaning`) |
| SrcTaskService.ComparatorMeaning | backend/src/services/task_service.py:44-60 | only "asc" sorts ascending, any other order reverses it, and an unknown `sort_by` orders by creation time |
| SrcTaskService.Ordered | backend/src/services/task_service.py:44-60 | a permutation of the matching rows, sorted whenever the comparator is a total preorder |
| SrcTaskService.GetTasks | backend/src/services/task_service.py:14-68 | the total counts every match; the page is the offset window of the ordered matches |
| SrcTaskService.RowIndex | backend/src/services/task_service.py:81-84 | the first row with that id and owner, or -1 when there is none |
| SrcTaskService.GetTask | backend/src/services/task_service.py:70-84 | finds a row exactly when one has that id and owner |
| SrcTaskService.CreateTask | backend/src/services/task_service.py:86-110 | appends a row owned by the user; a falsy status becomes "incomplete" and a falsy priority "medium"; the reminder is never set |
| SrcTaskService.Apply | backend/src/services/task_service.py:132-143 | fields given as non-null are written; id, owner, creation time and reminder are kept |
| SrcTaskService.UpdateTask | backend/src/services/task_service.py:112-148 | a missing or foreign row changes nothing; otherwise only that row is rewritten in place |
| SrcTaskService.DeleteTask | backend/src/services/task_service.py:150-171 | deletes exactly when the row exists, removing that one row |
| SrcTaskService.UpdateTaskStatus | backend/src/services/task_service.py:173-198 | only the status and `updated_at` of the found row change |
| SrcTaskService.GetUserStats | backend/src/services/task_service.py:200-233 | totals, completed and incomplete counts over the user's rows; a priority key's value counts its rows, except that a falsy key gets 0 |
| SrcTaskService.StatsPartition | backend/src/services/task_service.py:210-214 | the incomplete count is never negative, and it equals the "incomplete" rows when every status is valid |
| SrcTaskService.UpdateThenGet | backend/src/services/task_service.py:112-148 | after an update, a lookup returns the updated row |
| SrcTaskService.WritesStayWithOwner | backend/src/services/task_service.py:124-141 | updates never change another user's row or any reminder |
| SrcTaskService.CreateThenGet | backend/src/services/task_service.py:70-110 | a task created under a fresh id is what the next lookup by id and owner returns; other users cannot fetch it |
| SrcTaskService.DeleteThenGet | backend/src/services/task_service.py:150-171 | with unique ids, a deleted task is gone and every other task stays |
| SrcTaskService.DefaultOrderNewestFirst | backend/src/services/task_service.py:44-60 | sorting by creation time in descending order lists newer tasks first |
| SrcAuthService.EmailIndex | backend/src/services/auth_service.py:25-27 | the first user with that email, or -1 when there is none |
| SrcAuthService.FindByEmail | backend/src/services/auth_service.py:25-27 | finds a user exactly when one has that email |
| SrcAuthService.RegisterUser | backend/src/services/auth_service.py:14-43 | refuses, with no change, exactly when the email or the id is taken; otherwise appends the hashed user |
| SrcAuthService.AuthenticateUser | backend/src/services/auth_service.py:45-60 | succeeds exactly when the email is found and the password verifies |
| SrcAuthService.CreateLoginResponse | backend/src/services/auth_service.py:62-85 | a bearer token for the user id that lives 1440 minutes, with `expires_in` in seconds |
| SrcAuthService.Register | backend/src/api/routes/auth.py:10-35 | 409 exactly when registration is refused; otherwise the new user's summary |
| SrcAuthService.Login | backend/src/api/routes/auth.py:38-58 | 401 "Invalid credentials" exactly when authentication fails; otherwise the login response built for the authenticated user |
| SrcAuthService.RegisterKeepsEmailsUnique | backend/src/services/auth_service.py:25-43 | registration keeps emails unique |
| SrcAuthService.RegisterThenLogin | backend/src/services/auth_service.py:14-60 | a registered user can log in, and re-registering the email is refused |
| SrcTaskRoutes.ValidQuery | backend/src/api/routes/tasks.py:19-23 | the `Query(...)` limits on `limit`, `offset`, `sort_by` and `order`; any violation gives 422 (stated by `GetTasks`) |
| SrcTaskRoutes.BadStatusFilter | backend/src/api/routes/tasks.py:35-39 | a truthy status outside "complete" and "incomplete" gives 400 (stated by `GetTasks`) |
| SrcTaskRoutes.GetTasks | backend/src/api/routes/tasks.py:17-72 | 422 for a bad query, 400 for an unknown status filter; `has_more` holds exactly when matches remain after the page |
| SrcTaskRoutes.CreateTask | backend/src/api/routes/tasks.py:75-105 | 422 with no change exactly when the schema rejects; otherwise the table and the row that the service's create builds from the validated body, owned by the caller with a valid status |
| SrcTaskRoutes.GetTask | backend/src/api/routes/tasks.py:108-136 | 404 exactly when the caller has no task with that id |
| SrcTaskRoutes.UpdateTask | backend/src/api/routes/tasks.py:139-176 | 422 for an invalid body, 404 for a missing task; otherwise the service's update |
| SrcTaskRoutes.DeleteTask | backend/src/api/routes/tasks.py:179-195 | 404 exactly when the task is missing; otherwise the table the service's delete leaves, one row fewer |
| SrcTaskRoutes.UpdateTaskStatus | backend/src/api/routes/tasks.py:198-239 | 422 for a missing or unknown status; 404 with no change when the user has no such task; never 400; success gives the table and the row of the service's status update |
| SrcTaskRoutes.CreateThenGet | backend/src/api/routes/tasks.py:75-129 | a task created under a fresh id is what `GET /tasks/{id}` then returns to its owner |
| SrcTaskRoutes.UpdateStatusThenGet | backend/src/api/routes/tasks.py:111-239 | after a status change, `GET /tasks/{id}` returns the answered row with the new status |
| SrcTaskRoutes.BulkApply | backend/src/api/routes/tasks.py:275-295 | the bulk loop updates each id in turn and never changes the number of rows |
| SrcTaskRoutes.UpdateKeepsPresence | backend/src/api/routes/tasks.py:287 | an update never adds or removes a task, so later ids in a bulk run see the same tasks |
| SrcTaskRoutes.Missing | backend/src/api/routes/tasks.py:289-295 | the ids that name none of the caller's tasks |
| SrcTaskRoutes.Failures | backend/src/api/routes/tasks.py:289-295 | one failure entry per id, in order, with the given error |
| SrcTaskRoutes.BulkApplyReports | backend/src/api/routes/tasks.py:275-295 | the failures are exactly the missing ids, and updated plus failed equals the ids |
| SrcTaskRoutes.BulkApplyKeepsOthers | backend/src/api/routes/tasks.py:275-295 | a bulk update never changes another user's row |
| SrcTaskRoutes.MissingAfterUpdate | backend/src/api/routes/tasks.py:287 | updating one id does not change which ids are missing |
| SrcTaskRoutes.BulkUpdateAsWritten | backend/src/api/routes/tasks.py:261-300 | with a non-empty id list, an invalid payload is a 500 with no change, and the "Invalid status value" failure never appears |
| SrcTaskRoutes.InvalidStatusCrashes | backend/src/api/routes/tasks.py:277-285 | the status "done" for one id is a 500 rather than a per-id failure |
| SrcTaskRoutes.BulkUpdate | backend/src/api/routes/tasks.py:261-300 | an unknown status reports every id as failed with "Invalid status value" and changes nothing; any other payload behaves as the route does |
| SrcTaskRoutes.FailAll | backend/src/api/routes/tasks.py:280-285 | builds one failure per id, in order |
| SrcTaskRoutes.ApplyAll | backend/src/api/routes/tasks.py:275-295 | the loop ends with the table and counts of the recursive definition |
| AppTaskService.NewTaskCreate | backend/app/models/chat_models.py:54-60 | an absent completed flag is false and an absent priority is "medium" |
| AppTaskService.TaskIndex | backend/app/services/task_service.py:72-79 | the first row with that id and owner, or -1 when there is none |
| AppTaskService.CreateTask | backend/app/services/task_service.py:17-46 | appends a row carrying the data, owned by the user, with both timestamps at `now` |
| AppTaskService.GetTasksForUser | backend/app/services/task_service.py:48-70 | exactly the user's rows |
| AppTaskService.GetTaskById | backend/app/services/task_service.py:72-79 | finds a row exactly when one has that id and owner |
| AppTaskService.Apply | backend/app/services/task_service.py:89-93 | keys that were sent are written and the others kept; a null description clears it |
| AppTaskService.UpdateTask | backend/app/services/task_service.py:81-110 | a missing task gives None; a null title or completed violates NOT NULL and changes nothing; otherwise only that row is rewritten |
| AppTaskService.DeleteTask | backend/app/services/task_service.py:112-121 | deletes exactly when the row exists, removing that one row |
| AppTaskService.ToggleTaskCompletion | backend/app/services/task_service.py:123-148 | inverts the found row's flag and leaves every other row alone |
| AppTaskService.GetTaskStats | backend/app/services/task_service.py:150-164 | total, completed and pending counts over the user's rows |
| AppTaskService.McpAddTask | backend/app/services/task_service.py:171-186 | appends one open "medium" task; a falsy description becomes "Added via chatbot" |
| AppTaskService.McpListTasks | backend/app/services/task_service.py:188-211 | exactly the user's rows |
| AppTaskService.McpCompleteTaskAsWritten | backend/app/services/task_service.py:213-225 | the found task's flag is toggled while the reply says "marked as completed" |
| AppTaskService.CompleteReopensCompletedTask | backend/app/services/task_service.py:220-224 | completing an already completed task reopens it and still reports success |
| AppTaskService.McpCompleteTask | backend/app/services/task_service.py:213-225 | the found task ends completed, with the same reply |
| AppTaskService.CompleteIdempotent | backend/app/services/task_service.py:213-225 | completing twice leaves the task as completing once |
| AppTaskService.McpDeleteTask | backend/app/services/task_service.py:227-242 | a found task is deleted, leaving the table the service's delete leaves, with a success reply naming it; otherwise "Task not found" and no change |
| AppTaskService.ToggleTwiceRestores | backend/app/services/task_service.py:123-148 | toggling twice restores the row except for `updated_at` |
| AppTaskService.CreateThenGet | backend/app/services/task_service.py:17-79 | a task created under a fresh id is what the next lookup by id and owner returns; other users cannot fetch it; ids stay unique |
| AppTaskService.McpAddThenGet | backend/app/services/task_service.py:171-186 | a chatbot-added task is found by the next lookup, open and with the given title |
| AppTaskService.DeleteThenGet | backend/app/services/task_service.py:112-121 | with unique ids, a deleted task (by the service or the MCP tool) is gone and every other task stays |
| AppTaskService.UpdateThenGet | backend/app/services/task_service.py:81-110 | after an accepted update, a lookup returns the written row |
| AppTaskService.NullDescriptionClears | backend/app/services/task_service.py:89-91 | an explicit null description clears it, and an absent one keeps it |
| AppTaskService.PendingCountsOpenTasks | backend/app/services/task_service.py:156-158 | the pending count equals the number of open tasks |
| TodoReducer.Flip | frontend/contexts/TodoContext.tsx:50 | toggling always changes the status |
| TodoReducer.OrElse | frontend/contexts/TodoContext.tsx:69-72 | the `??` default applies exactly when the value is absent |
| TodoReducer.Add | frontend/contexts/TodoContext.tsx:28-43 | prepends one incomplete todo with id "now" and a truthy priority or "medium" |
| TodoReducer.Toggle | frontend/contexts/TodoContext.tsx:45-53 | flips the status of the todos with that id and keeps the others |
| TodoReducer.Delete | frontend/contexts/TodoContext.tsx:55-59 | drops exactly the todos with that id, keeping the order |
| TodoReducer.Update | frontend/contexts/TodoContext.tsx:61-77 | sets the text; optional fields change only when given; status and creation time are kept |
| TodoReducer.ClearDone | frontend/contexts/TodoContext.tsx:79-83 | keeps exactly the incomplete todos |
| TodoReducer.SpliceStart | frontend/contexts/TodoContext.tsx:99-100 | a negative start counts from the end, clamped to the list |
| TodoReducer.InsertAt | frontend/contexts/TodoContext.tsx:100 | inserts one element at the index and shifts the rest |
| TodoReducer.ReorderOntoMissingId | frontend/contexts/TodoContext.tsx:91-105 | dragging the first todo onto an id not in the list leaves it second to last, because `splice(-1, 0, x)` inserts before the last element |
| TodoReducer.Reorder | frontend/contexts/TodoContext.tsx:91-105 | equal ids change nothing; otherwise the list is a permutation with the dragged todo at the target index and every other todo in its old relative order |
| TodoReducer.Reduce | frontend/contexts/TodoContext.tsx:26-116 | only SET_FILTER changes the filter, LOAD_TODOS defaults to empty, unknown actions change nothing, and each action's effect on length holds |
| TodoReducer.ToggleTwiceRestores | frontend/contexts/TodoContext.tsx:45-53 | toggling twice restores every todo except `updatedAt` |
| TodoReducer.ClearIdempotent | frontend/contexts/TodoContext.tsx:79-83 | clearing completed todos twice is clearing once |
| TodoReducer.DeleteTwice | frontend/contexts/TodoContext.tsx:55-59 | after a delete no todo has the id, so a second delete changes nothing |
| TodoReducer.AddThenDelete | frontend/contexts/TodoContext.tsx:28-59 | deleting a freshly added todo restores the state |
| Dashboard.FilterTasks | frontend/pages/dashboard.js:25-29 | "complete" and "incomplete" keep matching tasks; any other filter keeps all |
| Dashboard.PriorityRank | frontend/pages/dashboard.js:40-43 | high, medium and low rank 3, 2 and 1; anything else ranks 0 |
| Dashboard.SortTasks | frontend/pages/dashboard.js:32-61 | a permutation of the tasks, sorted whenever the chosen comparator is a total preorder |
| Dashboard.AscendingBy | frontend/pages/dashboard.js:35-55 | the ascending comparator of each sort key, creation time for an unknown one (stated by `OrderByMeaning`) |
| Dashboard.OrderBy | frontend/pages/dashboard.js:43-60 | the sort direction: "desc" reverses, anything else ascends (stated by `OrderByMeaning`) |
| Dashboard.OrderByMeaning | frontend/pages/dashboard.js:32-61 | "desc" reverses the ascending order; priority ranks high over medium over low; an unknown key sorts by creation time |
| Dashboard.PageOf | frontend/pages/dashboard.js:64 | page p holds tasks p*limit onwards, at most `limit` of them |
| Dashboard.TaskStats | frontend/pages/dashboard.js:67-76 | the counts match the tasks, and with two statuses completed + incomplete = total |
| Dashboard.PreviousPage | frontend/pages/dashboard.js:537 | "Previous" goes back one page but never below 0 |
| Dashboard.ShowPager | frontend/pages/dashboard.js:533 | the pager appears when there are more tasks than one page holds (stated by `PagerIffSecondPage`) |
| Dashboard.NextDisabled | frontend/pages/dashboard.js:554 | "Next" is disabled once the next page would start past the last task (stated by `NextEnabledIffNextPageNonEmpty`) |
| Dashboard.PagerIffSecondPage | frontend/pages/dashboard.js:533 | the pager is shown exactly when a second page has tasks |
| Dashboard.NextEnabledIffNextPageNonEmpty | frontend/pages/dashboard.js:554 | "Next" is enabled exactly when the next page is non-empty |
| Dashboard.PagesCoverSorted | frontend/pages/dashboard.js:64 | every sorted task appears on page k / limit at position k mod limit |
| Dashboard.UpdateAction | frontend/pages/dashboard.js:86-99 | an unknown id sends nothing; falsy form values fall back to the task's own |
| Dashboard.EmptyFieldsKeepValues | frontend/pages/dashboard.js:86-99 | an edit with empty description and priority keeps the task's values |

## Left out

- Clocks, ids, uuids, autoincrement keys and salts are parameters (`now`, `id`, `salt`). Date parsing and ISO-8601 rendering are not modelled.
- Password hashing, JWT encoding and decoding, and token signing are function parameters. Their cryptographic properties are assumed only where a lemma's `requires` states them. The schemes behind the parameters:
  - the in-memory user directory (`backend/app/auth/models.py`) stores `sha256(password + salt)`;
  - the FastAPI layer (`backend/app/auth.py`) hashes with passlib's `pbkdf2_sha256`, with `argon2` also accepted;
  - `backend/app/models/user.py` still cuts passwords to bcrypt's 72-byte limit, although nothing there hashes with bcrypt;
  - the SQL backend calls `get_password_hash` and `verify_password` from `backend/src/auth/jwt.py`, which is not part of this model.
- The database's string collation and JavaScript `localeCompare` are comparator parameters. The row order among equal keys is the stable order of the table. SQL gives no such promise.
- SQLAlchemy sessions, commits and rollbacks are atomic functional updates. A NOT NULL violation is a refusal that leaves the table unchanged.
- FastAPI routing, dependency injection and middleware are not modelled. Because of route order, `GET /tasks/stats` is matched by `GET /tasks/{task_id}`. That effect is not modelled, and the stats route is not modelled separately from `SrcTaskService.GetUserStats`.
- Validation errors (422) and unhandled errors (500) keep only their status and a fixed detail. Pydantic's per-field error bodies are modelled only as `SrcTaskSchemas` error lists.
- Pydantic type coercion and non-string input (for example, a number sent as a title) are not modelled. Every field has its declared type.
- The regular-expression checks on `sort_by` and `order` are modelled as membership in the allowed words. A trailing newline that `$` would accept is not modelled.
- UTF-8 length treats every `char` as a Unicode scalar value. Lone surrogates, which Python cannot encode, are not modelled.
- Environment configuration, `request.state`, CORS, logging, console I/O and printing are not modelled.
- The chat backend's HTTP wrappers, intent parsing and MCP transport are not modelled. The MCP tool functions are modelled from `backend/app/services/task_service.py`.
- `list_tasks` renders dates with `isoformat()`. The model returns the rows themselves.
- The view agent's reply envelope is simplified to a listing or a single task. Its `success` flag for listings is always true and is not modelled.
- The frontend's asynchronous API calls, `localStorage` sync, toasts, drag-and-drop events and rendering are not modelled. Only the reducer and the dashboard's derived lists are.
- TodoReducer.Reorder: on an empty list, JavaScript's `splice` inserts `undefined`; the model returns the empty list unchanged.
- Dashboard.SortTasks: a task without a known priority makes the JavaScript comparator return NaN; the model ranks such a priority 0, so the comparator stays a total preorder.
- Dashboard.PriorityRank: `priorityOrder[undefined]` is `undefined` in JavaScript rather than a number; it is modelled as rank 0.
- The dashboard's unused page-size constant and the `limit` state setter are not modelled; `limit` is a parameter.

## Findings

| source | as written | input that shows it | evidently intended | confidence | as-written member | corrected member |
|---|---|---|---|---|---|---|
| backend/app/agents/update_task_agent.py:61,109 | the agent reads the stored `Task` object like a dictionary (`.get`, `['title']`); it raises AttributeError with a user id, and TypeError after writing without one | task "t1" titled "a", rename to "b" from the console | check the owner and build the message from the task's fields; the task read at the start is the object the storage changes in place, so the message names the new title | not executed | AgentsAsWritten.UpdateAsWritten, AgentsAsWritten.RenameRaisesAfterWriting | UpdateTaskAgent.Execute |
| backend/app/agents/delete_task_agent.py:76,87 | `task.get(...)` and `task['title']` on a `Task` object raise, so a confirmed delete never deletes | any existing task, confirmed = true | delete the task and report its title | not executed | AgentsAsWritten.DeleteAsWritten, AgentsAsWritten.DeleteNeverDeletes | DeleteTaskAgent.Execute |
| backend/app/agents/mark_complete_agent.py:42,49 | `existing_task['completed']` on a `Task` object raises before any marking | any existing task owned by the caller | compare and set the completed flag | not executed | AgentsAsWritten.MarkAsWritten, AgentsAsWritten.MarkRaisesWhereCorrectSucceeds | MarkCompleteAgent.Execute |
| backend/src/api/routes/tasks.py:277-285 | `TaskUpdate(**updates)` raises a validation error on an unknown status before the "Invalid status value" check, so that branch is dead and the request fails with 500 | ids ["t"], status "done" | report each id as failed with "Invalid status value" | not executed | SrcTaskRoutes.BulkUpdateAsWritten, SrcTaskRoutes.InvalidStatusCrashes | SrcTaskRoutes.BulkUpdate |
| backend/app/services/task_service.py:220-224 | the MCP `complete_task` calls the toggle, so an already completed task is reopened while the reply says "marked as completed" | a completed task, complete_task called once | set the task completed | not executed | AppTaskService.McpCompleteTaskAsWritten, AppTaskService.CompleteReopensCompletedTask | AppTaskService.McpCompleteTask, AppTaskService.CompleteIdempotent |

=== FILE: add_task_agent.dfy ===
/**
  AddTaskAgent (backend/app/agents/add_task_agent.py): validates a title and
  stores a new task for the caller, or for the console user when no caller
  is named.
 */
module AddTaskAgent {
  import opened Common
  import opened TaskStore
  import opened AgentReply

  /** Longest title accepted, counted in characters before trimming. */
  const MaxTitleLength: nat := 255

  /** Owner of tasks added without a user id (the console application). */
  const ConsoleUser: string := "console_user"

  const EmptyTitleMessage: string := "Task title cannot be empty"
  const LongTitleMessage: string := "Task title cannot exceed 255 characters"

  /** `{"valid": ..., "message": ...}` */
  datatype Validation = Validation(valid: bool, message: string)

  /** `validate_input`: a title must not be empty or whitespace only, and
      must have at most 255 characters; blankness is checked first. */
  function ValidateInput(title: string): (r: Validation)
    ensures r.valid <==> !AllSpace(title) && |title| <= MaxTitleLength
    ensures AllSpace(title) ==> r.message == EmptyTitleMessage
    ensures !AllSpace(title) && |title| > MaxTitleLength ==> r.message == LongTitleMessage
  {
    BlankIffAllSpace(title);
    if IsBlank(title) then Validation(false, EmptyTitleMessage)
    else if |title| > MaxTitleLength then Validation(false, LongTitleMessage)
    else Validation(true, "Valid input")
  }

  /** The owner recorded for a new task. */
  function OwnerOf(userId: Option<string>): (r: string)
    ensures SomeTruthy(userId) ==> r == userId.value
    ensures !SomeTruthy(userId) ==> r == ConsoleUser
  {
    if SomeTruthy(userId) then userId.value else ConsoleUser
  }

  /** `execute`: on an invalid title, fail with the validation message and
      leave the store alone; otherwise store exactly one new task holding
      the trimmed title, the caller (or the console user) as owner, and
      falsy date/note turned into None, and return it. */
  function Execute(s: Store, title: string, userId: Option<string>, date: Option<string>,
                   note: Option<string>, id: TaskId, now: nat): (r: Step<Reply>)
    requires Valid(s)
    ensures Valid(r.store)
    ensures r.reply.success <==> !AllSpace(title) && |title| <= MaxTitleLength
    ensures !r.reply.success ==> r.store == s && r.reply.task.None?
    ensures AllSpace(title) ==> r.reply.message == EmptyTitleMessage
    ensures r.reply.success ==>
      && r.reply.task.Some?
      && var t := r.reply.task.value;
      && t.id == id && t.title == Strip(title) && t.userId == OwnerOf(userId)
      && t.date == NoneIfFalsy(date) && t.note == NoneIfFalsy(note)
      && !t.completed && t.priority == Some(DefaultPriority)
      && r.store.tasks == s.tasks[id := t]
      && r.reply.message == "Task '" + t.title + "' has been added successfully!"
  {
    var v := ValidateInput(title);
    if !v.valid then
      Step(s, Failure(v.message))
    else
      var data := NewTask(Strip(title), OwnerOf(userId), NoneIfFalsy(date), NoneIfFalsy(note), Unset);
      var c := CreateTask(s, data, id, now);
      Step(c.store, Reply(true, "Task '" + c.task.title + "' has been added successfully!", Some(c.task)))
  }

  /** The 255-character bound is inclusive and is measured before trimming:
      255 characters pass, a 256th fails, even when it is a trailing space
      that `strip` would remove. */
  lemma TitleLengthBoundary(c: char)
    requires !IsSpace(c)
    ensures ValidateInput(seq(255, _ => c)).valid
    ensures !ValidateInput(seq(256, _ => c)).valid
    ensures !ValidateInput(seq(255, _ => c) + " ").valid
  {
    var t255 := seq(255, _ => c);
    assert t255[0] == c;
    assert (t255 + " ")[0] == c;
  }

  /** A successful add under a fresh id grows the store by exactly one task,
      which is the one returned. */
  lemma AddGrowsByOne(s: Store, title: string, userId: Option<string>, date: Option<string>,
                      note: Option<string>, id: TaskId, now: nat)
    requires Valid(s) && id !in s.tasks
    ensures var r := Execute(s, title, userId, date, note, id, now);
      r.reply.success ==>
        && |GetAllTasks(r.store)| == |GetAllTasks(s)| + 1
        && GetAllTasks(r.store) == GetAllTasks(s) + [r.reply.task.value]
  {
    var r := Execute(s, title, userId, date, note, id, now);
    if r.reply.success {
      var data := NewTask(Strip(title), OwnerOf(userId), NoneIfFalsy(date), NoneIfFalsy(note), Unset);
      CreateAppends(s, data, id, now);
    }
  }
}

=== FILE: agent_reply.dfy ===
/**
  The result dictionaries the task agents (backend/app/agents/) return,
  `{success, message, task}`, and the pairing of a reply with the store it
  leaves behind.
 */
module AgentReply {
  import opened Common
  import opened TaskStore

  /** `{"success": ..., "message": ..., "task": ...}`; `task` is None when the
      dictionary has no "task" key. */
  datatype Reply = Reply(success: bool, message: string, task: Option<Task>)

  /** An agent call: the store afterwards and the reply. */
  datatype Step<R> = Step(store: Store, reply: R)

  function Failure(message: string): (r: Reply)
    ensures !r.success && r.message == message && r.task.None?
  {
    Reply(false, message, None)
  }

  /** The ownership test the agents apply: a caller id that is given and
      non-empty must equal the task's owner. */
  predicate Foreign(userId: Option<string>, t: Task) {
    SomeTruthy(userId) && t.userId != userId.value
  }

  const NotOwnerMessage: string := "Unauthorized: Task does not belong to user."
}

=== FILE: agents_as_written.dfy ===
/**
  The update, delete and mark-complete agents exactly as written. The store's
  `get_task` returns the stored `Task` object, but these agents treat it as
  a dictionary: `task.get("user_id")` raises AttributeError and
  `task['title']` / `task['completed']` raise TypeError. The models in
  UpdateTaskAgent, DeleteTaskAgent and MarkCompleteAgent read the object's
  attributes instead; this module records what the code does, and the
  lemmas compare the two.
 */
module AgentsAsWritten {
  import opened Common
  import opened TaskStore
  import opened AgentReply
  import UpdateTaskAgent
  import DeleteTaskAgent
  import MarkCompleteAgent
  import AddTaskAgent

  datatype Error = AttributeError | TypeError

  /** A call either returns a reply or raises, in both cases leaving some
      store behind (the update agent raises after it has written). */
  datatype Outcome<R> = Returned(store: Store, reply: R) | Raised(store: Store, error: Error)

  /** `update_task_agent.execute` as written. */
  function UpdateAsWritten(s: Store, id: TaskId, title: Option<string>, date: Option<string>,
                           note: Option<string>, userId: Option<string>, now: nat): (r: Outcome<Reply>)
    requires Valid(s)
    ensures id !in s.tasks ==> r == Returned(s, Failure(UpdateTaskAgent.NotFoundMessage))
    ensures id in s.tasks && SomeTruthy(userId) ==> r == Raised(s, AttributeError)
    ensures r.Raised? && r.error == TypeError ==>
      r.store == UpdateTask(s, id, UpdateTaskAgent.PatchOf(title, date, note), now).store
  {
    if id !in s.tasks then Returned(s, Failure(UpdateTaskAgent.NotFoundMessage))
    else if SomeTruthy(userId) then Raised(s, AttributeError)
    else
      var v := UpdateTaskAgent.ValidateInput(title);
      if !v.valid then Returned(s, Failure(v.message))
      else if title.None? && date.None? && note.None? then Returned(s, Failure(UpdateTaskAgent.NothingToUpdateMessage))
      else
        // the write happens, then building the message indexes the object
        Raised(UpdateTask(s, id, UpdateTaskAgent.PatchOf(title, date, note), now).store, TypeError)
  }

  /** `delete_task_agent.execute` as written (the unconfirmed path goes
      through `get_task_for_confirmation`, which indexes the object too). */
  function DeleteAsWritten(s: Store, id: TaskId, confirmed: bool, userId: Option<string>): (r: Outcome<DeleteTaskAgent.DeleteReply>)
    requires Valid(s)
    ensures r.store == s
    ensures id !in s.tasks ==> r.Returned? && !r.reply.success
    ensures id in s.tasks ==> r.Raised?
  {
    if id !in s.tasks then Returned(s, DeleteTaskAgent.DeleteReply(false, DeleteTaskAgent.NotFoundMessage, None, None))
    else if SomeTruthy(userId) then Raised(s, AttributeError)
    else Raised(s, TypeError)
  }

  /** `mark_complete_agent.execute` and `toggle` as written; they fail the
      same way, so one function stands for both (only the not-found message
      differs). */
  function MarkAsWritten(s: Store, id: TaskId, userId: Option<string>, notFound: string): (r: Outcome<Reply>)
    requires Valid(s)
    ensures r.store == s
    ensures id !in s.tasks ==> r == Returned(s, Failure(notFound))
    ensures id in s.tasks ==> r.Raised? && (r.error == AttributeError <==> SomeTruthy(userId))
  {
    if id !in s.tasks then Returned(s, Failure(notFound))
    else if SomeTruthy(userId) then Raised(s, AttributeError)
    else Raised(s, TypeError)
  }

  /** Wherever the corrected update agent succeeds, the code as written
      raises instead; without a user id it has already written the same
      change to the store. */
  lemma UpdateRaisesWhereCorrectSucceeds(s: Store, id: TaskId, title: Option<string>, date: Option<string>,
                                         note: Option<string>, userId: Option<string>, now: nat)
    requires Valid(s)
    requires UpdateTaskAgent.Execute(s, id, title, date, note, userId, now).reply.success
    ensures var r := UpdateAsWritten(s, id, title, date, note, userId, now);
      && r.Raised?
      && (!SomeTruthy(userId) ==> r.store == UpdateTaskAgent.Execute(s, id, title, date, note, userId, now).store)
  {
  }

  /** No call of the delete agent as written removes a task, while the
      corrected agent removes it for a confirmed call by the owner. */
  lemma DeleteNeverDeletes(s: Store, id: TaskId, userId: Option<string>)
    requires Valid(s) && id in s.tasks && !Foreign(userId, s.tasks[id])
    ensures DeleteAsWritten(s, id, true, userId).Raised?
    ensures id in DeleteAsWritten(s, id, true, userId).store.tasks
    ensures id !in DeleteTaskAgent.Execute(s, id, true, userId).store.tasks
  {
  }

  /** Marking or toggling an existing task as written always raises, while
      the corrected agent succeeds for its owner. */
  lemma MarkRaisesWhereCorrectSucceeds(s: Store, id: TaskId, c: bool, userId: Option<string>, now: nat)
    requires Valid(s) && id in s.tasks && !Foreign(userId, s.tasks[id])
    ensures MarkAsWritten(s, id, userId, MarkCompleteAgent.NotFoundMessage).Raised?
    ensures MarkCompleteAgent.Execute(s, id, c, userId, now).reply.success
    ensures MarkCompleteAgent.Toggle(s, id, userId, now).reply.success
  {
  }

  /** A console rename with a valid title raises TypeError, yet the store
      it leaves behind already carries the new, stripped title. */
  lemma RenameRaisesAfterWriting(s: Store, id: TaskId, title: string, now: nat)
    requires Valid(s) && id in s.tasks
    requires !AllSpace(title) && |title| <= AddTaskAgent.MaxTitleLength
    ensures var r := UpdateAsWritten(s, id, Some(title), None, None, None, now);
      && r.Raised? && r.error == TypeError
      && id in r.store.tasks && r.store.tasks[id].title == Strip(title)
  {
    var p := UpdateTaskAgent.PatchOf(Some(title), None, None);
    assert UpdateTaskAgent.ValidateInput(Some(title)).valid;
    UpdateNeverClears(s, id, p, now);
  }
}

=== FILE: api.dfy ===
/**
  The REST handlers of the console/agent backend (backend/app/api.py):
  bearer authentication through the authentication service, and the task
  endpoints over the in-memory store, scoped to the authenticated user.
 */
module Api {
  import opened Common
  import opened Http
  import opened TaskStore
  import opened UserDirectory
  import AuthService
  import AuthAgent

  const MissingHeaderMessage: string := "Authorization header is required"
  const BadTokenMessage: string := "Invalid or expired token"
  const NotYoursMessage: string := "Task not found or doesn't belong to user"

  /** `CreateTaskRequest`: `priority` defaults to "medium" when the key is
      absent, and may be an explicit null. */
  datatype CreateTaskRequest = CreateTaskRequest(title: string, description: Option<string>,
                                                 priority: Field<Option<string>>)

  /** `UpdateTaskRequest`, remembering which keys the client sent. */
  datatype UpdateTaskRequest = UpdateTaskRequest(
    title: Field<Option<string>>,
    description: Field<Option<string>>,
    priority: Field<Option<string>>,
    completed: Field<Option<bool>>)

  /** The store after a handler ran, and its response. */
  datatype Handled<T> = Handled(store: Store, response: Response<T>)

  /** `get_current_user`: 401 for a missing or empty header, 401 for a token
      the service does not authenticate, else the authenticated user. */
  function GetCurrentUser(d: Directory, authorization: Option<string>, decode: string -> Option<string>): (r: Response<User>)
    ensures !SomeTruthy(authorization) ==> r == Error(Unauthorized, MissingHeaderMessage)
    ensures r.Ok? <==> SomeTruthy(authorization)
                       && AuthService.AuthenticateRequest(d, authorization, decode).value.authenticated
    ensures SomeTruthy(authorization) && r.Error? ==> r == Error(Unauthorized, BadTokenMessage)
    ensures r.Ok? ==> r.body in d.byId.Values
  {
    if !SomeTruthy(authorization) then Error(Unauthorized, MissingHeaderMessage)
    else
      var a := AuthService.AuthenticateRequest(d, authorization, decode);
      if a.None? || !a.value.authenticated then Error(Unauthorized, BadTokenMessage)
      else Ok(a.value.user.value)
  }

  /** `get_tasks`: exactly the caller's tasks. */
  function GetTasks(s: Store, caller: User): (r: seq<Task>)
    requires Valid(s)
    ensures forall t :: t in r <==> t in s.tasks.Values && t.userId == caller.id
  {
    GetTasksByUser(s, caller.id)
  }

  /** The priority the request carries after pydantic's default. */
  function RequestPriority(p: Field<Option<string>>): (r: Option<string>)
    ensures p.Unset? ==> r == Some(DefaultPriority)
    ensures p.Set? ==> r == p.value
  {
    if p.Unset? then Some(DefaultPriority) else p.value
  }

  /** `create_task`: a new task owned by the caller. The request's
      description is sent under a key the store never reads, so the task has
      no note; an explicit null priority is stored as None. */
  function CreateTask(s: Store, caller: User, req: CreateTaskRequest, id: TaskId, now: nat): (r: Created)
    requires Valid(s)
    ensures Valid(r.store)
    ensures r.task.userId == caller.id && r.task.title == req.title
    ensures r.task.note.None? && r.task.date.None? && !r.task.completed
    ensures r.task.priority == RequestPriority(req.priority)
    ensures r.store.tasks == s.tasks[id := r.task]
  {
    TaskStore.CreateTask(s, NewTask(req.title, caller.id, None, None, Set(RequestPriority(req.priority))), id, now)
  }

  /** `request.dict(exclude_unset=True)` as the store reads it: the store
      skips None values, so an explicit null means "no change"; the
      description key is ignored. */
  function PatchOf(req: UpdateTaskRequest): (r: Patch)
    ensures r.date.None? && r.note.None?
    ensures r.title == Flatten(req.title) && r.priority == Flatten(req.priority)
    ensures r.completed == Flatten(req.completed)
  {
    Patch(Flatten(req.title), None, None, Flatten(req.priority), Flatten(req.completed))
  }

  /** The caller owns the stored task `id`. */
  predicate Owns(s: Store, caller: User, id: TaskId) {
    id in s.tasks && s.tasks[id].userId == caller.id
  }

  /** `update_task`: 404 and no change unless the caller owns the task;
      otherwise the fields sent with a non-null value are written. */
  function UpdateTask(s: Store, caller: User, id: TaskId, req: UpdateTaskRequest, now: nat): (r: Handled<Task>)
    requires Valid(s)
    ensures Valid(r.store)
    ensures !Owns(s, caller, id) ==> r == Handled(s, Error(NotFound, NotYoursMessage))
    ensures Owns(s, caller, id) ==>
      && r.response == Ok(ApplyPatch(s.tasks[id], PatchOf(req), now))
      && r.store.tasks == s.tasks[id := r.response.body]
  {
    if !Owns(s, caller, id) then Handled(s, Error(NotFound, NotYoursMessage))
    else
      var w := TaskStore.UpdateTask(s, id, PatchOf(req), now);
      Handled(w.store, Ok(w.task.value))
  }

  /** `delete_task`: 404 and no change unless the caller owns the task;
      otherwise exactly that task is removed and returned. */
  function DeleteTask(s: Store, caller: User, id: TaskId): (r: Handled<Task>)
    requires Valid(s)
    ensures Valid(r.store)
    ensures !Owns(s, caller, id) ==> r == Handled(s, Error(NotFound, NotYoursMessage))
    ensures Owns(s, caller, id) ==> r.response == Ok(s.tasks[id]) && r.store.tasks == s.tasks - {id}
  {
    if !Owns(s, caller, id) then Handled(s, Error(NotFound, NotYoursMessage))
    else
      var w := TaskStore.DeleteTask(s, id);
      Handled(w.store, Ok(w.task.value))
  }

  /** The handlers never touch another user's tasks: after any update or
      delete by `caller`, every task owned by someone else is unchanged. */
  lemma OthersUntouched(s: Store, caller: User, id: TaskId, req: UpdateTaskRequest, now: nat)
    requires Valid(s)
    ensures var u := UpdateTask(s, caller, id, req, now).store;
      var d := DeleteTask(s, caller, id).store;
      forall k :: k in s.tasks && s.tasks[k].userId != caller.id ==>
        && k in u.tasks && u.tasks[k] == s.tasks[k]
        && k in d.tasks && d.tasks[k] == s.tasks[k]
  {
  }

  /** Sending a key with null is the same as leaving it out, and the
      description is never applied. */
  lemma NullIsNoChange(s: Store, caller: User, id: TaskId, now: nat, desc: Field<Option<string>>)
    requires Valid(s) && Owns(s, caller, id)
    ensures var r := UpdateTask(s, caller, id, UpdateTaskRequest(Set(None), desc, Set(None), Set(None)), now);
      SameContent(r.response.body, s.tasks[id]) && r.response.body.completed == s.tasks[id].completed
  {
  }

  /** The directory after the signup endpoint ran, and its response. */
  datatype Registered = Registered(directory: Directory, response: Response<AuthService.AuthReply>)

  /** `signup` endpoint: the service's result, or 400 with its message.
      The request's `confirm_password` is not consulted. */
  function SignupEndpoint(d: Directory, email: string, password: string, confirm: Option<string>,
                          id: string, salt: string, now: nat, sha: string -> string,
                          issue: User -> string): (r: Registered)
    ensures var s := AuthService.Signup(d, email, password, id, salt, now, sha, issue);
      && r.directory == s.directory
      && (s.reply.success ==> r.response == Ok(s.reply))
      && (!s.reply.success ==> r.response == Error(BadRequest, s.reply.message))
  {
    var s := AuthService.Signup(d, email, password, id, salt, now, sha, issue);
    Registered(s.directory, if s.reply.success then Ok(s.reply) else Error(BadRequest, s.reply.message))
  }

  /** `login` endpoint: the service's result, or 401 with its message. */
  function LoginEndpoint(d: Directory, email: string, password: string, sha: string -> string,
                         issue: User -> string): (r: Response<AuthService.AuthReply>)
    ensures r.Ok? <==> email in d.byEmail && VerifyPassword(d.byEmail[email], password, sha)
    ensures r.Error? ==> r == Error(Unauthorized, AuthService.BadCredentialsMessage)
  {
    var l := AuthService.Login(d, email, password, sha, issue);
    if l.success then Ok(l) else Error(Unauthorized, l.message)
  }

  /** The endpoint ignores `confirm_password`: a mismatching confirmation
      that the agent layer would refuse still registers the user here. */
  lemma ConfirmationIgnored(d: Directory, email: string, password: string, confirm: string,
                            id: string, salt: string, now: nat, sha: string -> string, issue: User -> string)
    requires confirm != "" && confirm != password
    requires AuthService.Signup(d, email, password, id, salt, now, sha, issue).reply.success
    ensures SignupEndpoint(d, email, password, Some(confirm), id, salt, now, sha, issue).response.Ok?
    ensures !AuthAgent.Signup(d, email, password, Some(confirm), id, salt, now, sha, issue).reply.success
  {
  }
}

=== FILE: app_task_service.dfy ===
/**
  The SQLModel task service shared by the REST API and the MCP tools of
  the `app` backend (backend/app/services/task_service.py), over the
  `tasks` table of backend/app/models/chat_models.py. The table is a
  sequence of rows; `.first()` is the first matching row. The id the
  database assigns and `datetime.utcnow()` are parameters.
 */
module AppTaskService {
  import opened Common
  import opened Seqs

  const DefaultPriority: string := "medium"
  const ChatbotDescription: string := "Added via chatbot"
  const NotFoundError: string := "Task not found"

  /** A row of the `tasks` table; `title`, `completed` and `priority` are
      NOT NULL columns. */
  datatype TaskRecord = TaskRecord(
    id: nat,
    userId: string,
    title: string,
    description: Option<string>,
    completed: bool,
    createdAt: int,
    updatedAt: int,
    dueDate: Option<int>,
    reminderDate: Option<int>,
    priority: string)

  /** A validated `TaskCreate`. */
  datatype TaskCreate = TaskCreate(
    title: string,
    description: Option<string>,
    completed: bool,
    dueDate: Option<int>,
    reminderDate: Option<int>,
    priority: string)

  /** `TaskCreate(...)` from the fields a caller passed: `completed`
      defaults to false and `priority` to "medium"; the dates to None. */
  function NewTaskCreate(title: string, description: Option<string>, completed: Field<bool>,
                         priority: Field<string>, dueDate: Option<int>, reminderDate: Option<int>): (r: TaskCreate)
    ensures r.title == title && r.description == description
    ensures r.completed == (completed.Set? && completed.value)
    ensures r.priority == (if priority.Set? then priority.value else DefaultPriority)
    ensures r.dueDate == dueDate && r.reminderDate == reminderDate
  {
    TaskCreate(title, description, if completed.Set? then completed.value else false, dueDate, reminderDate,
               if priority.Set? then priority.value else DefaultPriority)
  }

  /** `TaskUpdate` as sent: a key left out is Unset, a key sent as null is
      Set(None); `dict(exclude_unset=True)` keeps exactly the Set keys. */
  datatype TaskUpdate = TaskUpdate(
    title: Field<Option<string>>,
    description: Field<Option<string>>,
    completed: Field<Option<bool>>)

  /** Outcome of a write: no such task, a commit the database refused
      (rolled back, so nothing changes), or the new table and row. */
  datatype Written = NoTask | Refused | Done(table: seq<TaskRecord>, row: TaskRecord)

  datatype Deleted = Deleted(table: seq<TaskRecord>, deleted: bool)

  datatype TaskStats = TaskStats(total: nat, completed: nat, pending: int)

  /** An MCP tool's dictionary: `{"status": "success", ...}` or
      `{"status": "error", "error": ...}`. */
  datatype McpReply = McpSuccess(message: string, taskId: Option<nat>) | McpError(error: string)

  /** The table after an MCP tool ran, and its reply. */
  datatype McpStep = McpStep(table: seq<TaskRecord>, reply: McpReply)

  predicate IsTask(x: TaskRecord, id: nat, userId: string) {
    x.id == id && x.userId == userId
  }

  function TaskIndex(table: seq<TaskRecord>, id: nat, userId: string): (r: int)
    ensures -1 <= r < |table|
    ensures r == -1 <==> forall i :: 0 <= i < |table| ==> !IsTask(table[i], id, userId)
    ensures r >= 0 ==> IsTask(table[r], id, userId) && forall i :: 0 <= i < r ==> !IsTask(table[i], id, userId)
  {
    FirstIndex(table, (x: TaskRecord) => IsTask(x, id, userId))
  }

  /** Rewriting the matching row with one that still matches keeps it the
      first match. */
  lemma IndexAfterWrite(table: seq<TaskRecord>, id: nat, userId: string, x: TaskRecord)
    requires TaskIndex(table, id, userId) >= 0 && IsTask(x, id, userId)
    ensures var i := TaskIndex(table, id, userId);
      TaskIndex(table[i := x], id, userId) == i
  {
    var i := TaskIndex(table, id, userId);
    var t := table[i := x];
    assert t[i] == x;
  }

  /** `create_task`: appends a row owned by the user with the request's
      fields, both timestamps `now`. */
  function CreateTask(table: seq<TaskRecord>, userId: string, data: TaskCreate, id: nat, now: int): (r: Written)
    ensures r.Done? && r.table == table + [r.row]
    ensures r.row == TaskRecord(id, userId, data.title, data.description, data.completed, now, now,
                                data.dueDate, data.reminderDate, data.priority)
  {
    var x := TaskRecord(id, userId, data.title, data.description, data.completed, now, now,
                        data.dueDate, data.reminderDate, data.priority);
    Done(table + [x], x)
  }

  /** `get_tasks_for_user`: the user's rows in table order. */
  function GetTasksForUser(table: seq<TaskRecord>, userId: string): (r: seq<TaskRecord>)
    ensures forall x :: x in r <==> x in table && x.userId == userId
    ensures |r| <= |table|
  {
    Filter(table, (x: TaskRecord) => x.userId == userId)
  }

  /** `get_task_by_id`: only a row whose id and owner both match. */
  function GetTaskById(table: seq<TaskRecord>, id: nat, userId: string): (r: Option<TaskRecord>)
    ensures r.None? <==> forall x :: x in table ==> !IsTask(x, id, userId)
    ensures r.Some? ==> r.value in table && IsTask(r.value, id, userId)
  {
    var i := TaskIndex(table, id, userId);
    if i < 0 then None else Some(table[i])
  }

  /** A sent null for a NOT NULL column makes the commit fail. */
  predicate SetsNull(u: TaskUpdate) {
    (u.title.Set? && u.title.value.None?) || (u.completed.Set? && u.completed.value.None?)
  }

  /** The row with every sent field written, a sent null description
      clearing the description. */
  function Apply(x: TaskRecord, u: TaskUpdate, now: int): (r: TaskRecord)
    requires !SetsNull(u)
    ensures r.id == x.id && r.userId == x.userId && r.createdAt == x.createdAt && r.updatedAt == now
    ensures r.priority == x.priority && r.dueDate == x.dueDate && r.reminderDate == x.reminderDate
    ensures r.title == (if u.title.Set? then u.title.value.value else x.title)
    ensures r.description == (if u.description.Set? then u.description.value else x.description)
    ensures r.completed == (if u.completed.Set? then u.completed.value.value else x.completed)
  {
    x.(title := if u.title.Set? then u.title.value.value else x.title,
       description := if u.description.Set? then u.description.value else x.description,
       completed := if u.completed.Set? then u.completed.value.value else x.completed,
       updatedAt := now)
  }

  /** `update_task`: NoTask without a matching row; a null title or
      completed flag is refused by the database; otherwise only the
      matching row changes. */
  function UpdateTask(table: seq<TaskRecord>, id: nat, userId: string, u: TaskUpdate, now: int): (r: Written)
    ensures r.NoTask? <==> GetTaskById(table, id, userId).None?
    ensures r.Refused? <==> GetTaskById(table, id, userId).Some? && SetsNull(u)
    ensures r.Done? ==>
      && var i := TaskIndex(table, id, userId);
      && r.row == Apply(table[i], u, now)
      && r.table == table[i := r.row]
  {
    var i := TaskIndex(table, id, userId);
    if i < 0 then NoTask
    else if SetsNull(u) then Refused
    else
      var x := Apply(table[i], u, now);
      Done(table[i := x], x)
  }

  /** `delete_task`: False and no change without a matching row, otherwise
      that row removed. */
  function DeleteTask(table: seq<TaskRecord>, id: nat, userId: string): (r: Deleted)
    ensures r.deleted <==> GetTaskById(table, id, userId).Some?
    ensures !r.deleted ==> r.table == table
    ensures r.deleted ==> r.table == RemoveAt(table, TaskIndex(table, id, userId))
  {
    var i := TaskIndex(table, id, userId);
    if i < 0 then Deleted(table, false) else Deleted(RemoveAt(table, i), true)
  }

  /** `toggle_task_completion`: negates the flag of the matching row. */
  function ToggleTaskCompletion(table: seq<TaskRecord>, id: nat, userId: string, now: int): (r: Written)
    ensures r.NoTask? <==> GetTaskById(table, id, userId).None?
    ensures !r.Refused?
    ensures r.Done? ==>
      && var i := TaskIndex(table, id, userId);
      && r.row == table[i].(completed := !table[i].completed, updatedAt := now)
      && r.table == table[i := r.row]
  {
    var i := TaskIndex(table, id, userId);
    if i < 0 then NoTask
    else
      var x := table[i].(completed := !table[i].completed, updatedAt := now);
      Done(table[i := x], x)
  }

  /** `get_task_stats`: totals over the user's rows, `pending` as the
      difference. */
  function GetTaskStats(table: seq<TaskRecord>, userId: string): (r: TaskStats)
    ensures r.total == |GetTasksForUser(table, userId)|
    ensures r.completed == Count(GetTasksForUser(table, userId), (x: TaskRecord) => x.completed)
    ensures r.pending == r.total - r.completed
  {
    var mine := GetTasksForUser(table, userId);
    var completed := Count(mine, (x: TaskRecord) => x.completed);
    TaskStats(|mine|, completed, |mine| - completed)
  }

  // ---------------------------------------------------------------------
  // MCP tools
  // ---------------------------------------------------------------------

  /** `MCPTaskService.add_task`: a falsy description becomes "Added via
      chatbot"; the task starts incomplete with priority "medium". */
  function McpAddTask(table: seq<TaskRecord>, userId: string, title: string, description: Option<string>,
                      id: nat, now: int): (r: McpStep)
    ensures r.reply == McpSuccess("Task '" + title + "' added successfully", Some(id))
    ensures |r.table| == |table| + 1 && r.table[..|table|] == table
    ensures var x := r.table[|table|];
      && x.id == id && x.userId == userId && x.title == title && !x.completed && x.priority == DefaultPriority
      && x.description == (if SomeTruthy(description) then description else Some(ChatbotDescription))
  {
    var data := NewTaskCreate(title, Some(if SomeTruthy(description) then description.value else ChatbotDescription),
                              Set(false), Unset, None, None);
    var w := CreateTask(table, userId, data, id, now);
    assert w.table[..|table|] == table;
    McpStep(w.table, McpSuccess("Task '" + title + "' added successfully", Some(w.row.id)))
  }

  /** `MCPTaskService.list_tasks`: the user's tasks. */
  function McpListTasks(table: seq<TaskRecord>, userId: string): (r: seq<TaskRecord>)
    ensures forall x :: x in r <==> x in table && x.userId == userId
  {
    GetTasksForUser(table, userId)
  }

  /** `MCPTaskService.complete_task` as written: it toggles, so a task that
      is already complete becomes incomplete, yet the reply says it was
      marked as completed. */
  function McpCompleteTaskAsWritten(table: seq<TaskRecord>, id: nat, userId: string, now: int): (r: McpStep)
    ensures GetTaskById(table, id, userId).None? ==> r == McpStep(table, McpError(NotFoundError))
    ensures GetTaskById(table, id, userId).Some? ==>
      var t := GetTaskById(table, id, userId).value;
      && r.reply == McpSuccess("Task '" + t.title + "' marked as completed", None)
      && r.table == ToggleTaskCompletion(table, id, userId, now).table
  {
    match GetTaskById(table, id, userId)
    case None => McpStep(table, McpError(NotFoundError))
    case Some(t) => McpStep(ToggleTaskCompletion(table, id, userId, now).table,
                            McpSuccess("Task '" + t.title + "' marked as completed", None))
  }

  /** Completing a completed task reopens it while reporting success. */
  lemma CompleteReopensCompletedTask(table: seq<TaskRecord>, id: nat, userId: string, now: int)
    requires GetTaskById(table, id, userId).Some? && GetTaskById(table, id, userId).value.completed
    ensures var r := McpCompleteTaskAsWritten(table, id, userId, now);
      && r.reply.McpSuccess?
      && GetTaskById(r.table, id, userId).Some?
      && !GetTaskById(r.table, id, userId).value.completed
  {
    var i := TaskIndex(table, id, userId);
    IndexAfterWrite(table, id, userId, table[i].(completed := !table[i].completed, updatedAt := now));
  }

  /** `MCPTaskService.complete_task` as its name and reply evidently intend:
      the task ends up completed, whatever its state before. */
  function McpCompleteTask(table: seq<TaskRecord>, id: nat, userId: string, now: int): (r: McpStep)
    ensures GetTaskById(table, id, userId).None? ==> r == McpStep(table, McpError(NotFoundError))
    ensures GetTaskById(table, id, userId).Some? ==>
      && r.reply == McpSuccess("Task '" + GetTaskById(table, id, userId).value.title + "' marked as completed", None)
      && GetTaskById(r.table, id, userId) == Some(GetTaskById(table, id, userId).value.(completed := true, updatedAt := now))
  {
    var i := TaskIndex(table, id, userId);
    if i < 0 then McpStep(table, McpError(NotFoundError))
    else
      var x := table[i].(completed := true, updatedAt := now);
      var t := table[i := x];
      IndexAfterWrite(table, id, userId, x);
      McpStep(t, McpSuccess("Task '" + table[i].title + "' marked as completed", None))
  }

  /** Completing twice is completing once. */
  lemma CompleteIdempotent(table: seq<TaskRecord>, id: nat, userId: string, now: int)
    ensures var once := McpCompleteTask(table, id, userId, now);
      GetTaskById(McpCompleteTask(once.table, id, userId, now).table, id, userId) == GetTaskById(once.table, id, userId)
  {
    var once := McpCompleteTask(table, id, userId, now);
    var i := TaskIndex(table, id, userId);
    if i >= 0 {
      IndexAfterWrite(table, id, userId, table[i].(completed := true, updatedAt := now));
    }
  }

  /** `MCPTaskService.delete_task`: "Task not found" without a matching
      row, otherwise the row is removed; the "Failed to delete task" reply
      cannot occur, since the delete repeats the lookup that succeeded. */
  function McpDeleteTask(table: seq<TaskRecord>, id: nat, userId: string): (r: McpStep)
    ensures GetTaskById(table, id, userId).None? ==> r == McpStep(table, McpError(NotFoundError))
    ensures GetTaskById(table, id, userId).Some? ==>
      && r.reply == McpSuccess("Task '" + GetTaskById(table, id, userId).value.title + "' deleted successfully", None)
      && |r.table| == |table| - 1
      && r.table == DeleteTask(table, id, userId).table
  {
    match GetTaskById(table, id, userId)
    case None => McpStep(table, McpError(NotFoundError))
    case Some(t) =>
      var d := DeleteTask(table, id, userId);
      if d.deleted then McpStep(d.table, McpSuccess("Task '" + t.title + "' deleted successfully", None))
      else McpStep(table, McpError("Failed to delete task"))
  }

  // ---------------------------------------------------------------------
  // Properties relating the operations
  // ---------------------------------------------------------------------

  /** Toggling twice restores the flag; only `updated_at` moves. */
  lemma ToggleTwiceRestores(table: seq<TaskRecord>, id: nat, userId: string, t1: int, t2: int)
    requires GetTaskById(table, id, userId).Some?
    ensures var once := ToggleTaskCompletion(table, id, userId, t1);
      && once.Done?
      && var twice := ToggleTaskCompletion(once.table, id, userId, t2);
      && twice.Done?
      && twice.table == table[TaskIndex(table, id, userId) := table[TaskIndex(table, id, userId)].(updatedAt := t2)]
  {
    var i := TaskIndex(table, id, userId);
    IndexAfterWrite(table, id, userId, table[i].(completed := !table[i].completed, updatedAt := t1));
  }

  /** An update that sets no column to null is read back by the next
      lookup. */
  lemma UpdateThenGet(table: seq<TaskRecord>, id: nat, userId: string, u: TaskUpdate, now: int)
    requires GetTaskById(table, id, userId).Some? && !SetsNull(u)
    ensures var r := UpdateTask(table, id, userId, u, now);
      r.Done? && GetTaskById(r.table, id, userId) == Some(r.row)
  {
    var i := TaskIndex(table, id, userId);
    IndexAfterWrite(table, id, userId, Apply(table[i], u, now));
  }

  /** An explicit null description clears it, unlike a key left out. */
  lemma NullDescriptionClears(table: seq<TaskRecord>, id: nat, userId: string, now: int)
    requires GetTaskById(table, id, userId).Some?
    ensures UpdateTask(table, id, userId, TaskUpdate(Unset, Set(None), Unset), now).row.description.None?
    ensures UpdateTask(table, id, userId, TaskUpdate(Unset, Unset, Unset), now).row.description
         == GetTaskById(table, id, userId).value.description
  {
  }

  /** Ids come from the table's autoincrement key: no two rows share one. */
  ghost predicate UniqueIds(table: seq<TaskRecord>) {
    forall i, j :: 0 <= i < j < |table| ==> table[i].id != table[j].id
  }

  /** A row created under an id no row has yet is what the next lookup by
      that id and its owner returns; no other user can fetch it, and ids
      stay unique. */
  lemma CreateThenGet(table: seq<TaskRecord>, userId: string, data: TaskCreate, id: nat, now: int, other: string)
    requires forall x :: x in table ==> x.id != id
    ensures var w := CreateTask(table, userId, data, id, now);
      && GetTaskById(w.table, id, userId) == Some(w.row)
      && (other != userId ==> GetTaskById(w.table, id, other).None?)
      && (UniqueIds(table) ==> UniqueIds(w.table))
  {
    var w := CreateTask(table, userId, data, id, now);
    assert w.table[|table|] == w.row;
    assert forall i :: 0 <= i < |table| ==> w.table[i] == table[i];
  }

  /** The chatbot's `add_task` under a fresh id is likewise found by the
      next lookup, incomplete and with the given title. */
  lemma McpAddThenGet(table: seq<TaskRecord>, userId: string, title: string, description: Option<string>,
                      id: nat, now: int)
    requires forall x :: x in table ==> x.id != id
    ensures var r := McpAddTask(table, userId, title, description, id, now);
      && GetTaskById(r.table, id, userId) == Some(r.table[|table|])
      && r.table[|table|].title == title && !r.table[|table|].completed
  {
    var data := NewTaskCreate(title, Some(if SomeTruthy(description) then description.value else ChatbotDescription),
                              Set(false), Unset, None, None);
    CreateThenGet(table, userId, data, id, now, userId);
  }

  /** With unique ids a deleted task is gone for good, through the service
      and through the MCP tool, and every other row stays. */
  lemma DeleteThenGet(table: seq<TaskRecord>, id: nat, userId: string)
    requires UniqueIds(table) && GetTaskById(table, id, userId).Some?
    ensures var d := DeleteTask(table, id, userId);
      && d.deleted && GetTaskById(d.table, id, userId).None?
      && GetTaskById(McpDeleteTask(table, id, userId).table, id, userId).None?
      && forall x :: x in table && x.id != id ==> x in d.table
  {
    var i := TaskIndex(table, id, userId);
    var d := DeleteTask(table, id, userId);
    forall x | x in d.table ensures !IsTask(x, id, userId) {
      var k :| 0 <= k < |d.table| && d.table[k] == x;
      if k < i { assert x == table[k]; } else { assert x == table[k + 1]; }
    }
    forall x | x in table && x.id != id ensures x in d.table {
      var k :| 0 <= k < |table| && table[k] == x;
      if k < i { assert d.table[k] == x; } else { assert k != i; assert d.table[k - 1] == x; }
    }
  }

  /** `pending` never goes negative and counts the open tasks. */
  lemma PendingCountsOpenTasks(table: seq<TaskRecord>, userId: string)
    ensures GetTaskStats(table, userId).pending
         == Count(GetTasksForUser(table, userId), (x: TaskRecord) => !x.completed)
  {
    FilterPartition(GetTasksForUser(table, userId), (x: TaskRecord) => x.completed, (x: TaskRecord) => !x.completed);
  }
}

=== FILE: auth_agent.dfy ===
/**
  AuthAgent (backend/app/agents/auth_agent.py): a thin layer over the
  authentication service that adds a password-confirmation check and its
  own "Bearer " stripping of the Authorization header.
 */
module AuthAgent {
  import opened Common
  import opened UserDirectory
  import opened AuthService

  const MismatchMessage: string := "Passwords do not match"

  /** `signup`: a non-empty confirmation that differs from the password is
      refused before the service is asked; otherwise the service decides. */
  function Signup(d: Directory, email: string, password: string, confirm: Option<string>,
                  id: string, salt: string, now: nat, sha: string -> string, issue: User -> string): (r: SignedUp)
    ensures SomeTruthy(confirm) && confirm.value != password ==>
      r == SignedUp(d, Refusal(MismatchMessage))
    ensures !(SomeTruthy(confirm) && confirm.value != password) ==>
      r == AuthService.Signup(d, email, password, id, salt, now, sha, issue)
  {
    if SomeTruthy(confirm) && password != confirm.value then SignedUp(d, Refusal(MismatchMessage))
    else AuthService.Signup(d, email, password, id, salt, now, sha, issue)
  }

  /** `authenticate_request`: None for a missing or empty header; otherwise
      one "Bearer " is removed here and the service removes another. */
  function AuthenticateRequest(d: Directory, header: Option<string>, decode: string -> Option<string>): (r: Option<AuthResult>)
    ensures !SomeTruthy(header) ==> r.None?
    ensures SomeTruthy(header) ==>
      r == AuthService.AuthenticateRequest(d, Some(StripBearer(header.value)), decode)
  {
    if !SomeTruthy(header) then None
    else AuthService.AuthenticateRequest(d, Some(StripBearer(header.value)), decode)
  }

  /** Because the prefix is stripped twice, a header "Bearer Bearer x" is
      treated exactly as the bare token "x". */
  lemma DoubleBearerAccepted(d: Directory, x: string, decode: string -> Option<string>)
    requires x != [] && !StartsWith(x, BearerPrefix)
    ensures AuthenticateRequest(d, Some(BearerPrefix + BearerPrefix + x), decode)
         == AuthService.AuthenticateRequest(d, Some(x), decode)
  {
    var h := BearerPrefix + BearerPrefix + x;
    assert h[..7] == BearerPrefix;
    assert h[7..] == BearerPrefix + x;
    assert (BearerPrefix + x)[..7] == BearerPrefix;
    assert (BearerPrefix + x)[7..] == x;
  }

  /** A confirmation equal to the password, or an empty one, changes
      nothing: the service's signup result is returned as is. */
  lemma MatchingConfirmationDelegates(d: Directory, email: string, password: string, id: string, salt: string,
                                      now: nat, sha: string -> string, issue: User -> string)
    ensures Signup(d, email, password, Some(password), id, salt, now, sha, issue)
         == AuthService.Signup(d, email, password, id, salt, now, sha, issue)
    ensures Signup(d, email, password, Some(""), id, salt, now, sha, issue)
         == AuthService.Signup(d, email, password, id, salt, now, sha, issue)
  {
  }
}

=== FILE: auth_routes.dfy ===
/**
  The database-backed authentication endpoints of the web backend
  (backend/app/auth.py). The `users` table is a sequence of rows and a
  query `.first()` is the first row matching. Password hashing and
  verification (passlib) and JWT encoding/decoding are parameters; times
  are in seconds.
 */
module AuthRoutes {
  import opened Common
  import opened Http
  import opened UserModel

  /** `ACCESS_TOKEN_EXPIRE_MINUTES` with its default configuration. */
  const AccessTokenExpireMinutes: nat := 1440

  /** Lifetime used when `create_access_token` gets no (or a zero) delta. */
  const DefaultTokenSeconds: nat := 15 * 60

  const CredentialsMessage: string := "Could not validate credentials"

  /** The JWT payload written: the subject and the expiry time. */
  datatype Claims = Claims(sub: string, exp: int)

  /** A decoded payload; `sub` is None when the claim is absent. */
  datatype Payload = Payload(sub: Option<string>)

  /** `UserResponse` */
  datatype UserResponse = UserResponse(id: string, email: string, createdAt: nat, isActive: bool)

  /** `Token` */
  datatype TokenResponse = TokenResponse(accessToken: string, tokenType: string, user: UserResponse)

  /** The table after an endpoint ran, and its response. */
  datatype Handled = Handled(users: seq<DbUser>, response: Response<TokenResponse>)

  /** `select(User).where(User.email == email).first()` */
  function FindByEmail(users: seq<DbUser>, email: string): (r: Option<DbUser>)
    ensures r.None? <==> forall i :: 0 <= i < |users| ==> users[i].email != email
    ensures r.Some? ==> r.value in users && r.value.email == email
    ensures r.Some? ==> exists i :: 0 <= i < |users| && users[i] == r.value
                          && forall j :: 0 <= j < i ==> users[j].email != email
  {
    if users == [] then None
    else if users[0].email == email then Some(users[0])
    else
      var r := FindByEmail(users[1..], email);
      if r.Some? then
        var i :| 0 <= i < |users[1..]| && users[1..][i] == r.value
                 && forall j :: 0 <= j < i ==> users[1..][j].email != email;
        assert users[i + 1] == r.value;
        r
      else r
  }

  /** `authenticate_user`: the user registered under `email`, provided the
      password verifies against that user's hash; None otherwise. */
  function AuthenticateUser(users: seq<DbUser>, email: string, password: string,
                            verify: (string, string) -> bool): (r: Option<DbUser>)
    ensures r.Some? <==> FindByEmail(users, email).Some?
                         && verify(password, FindByEmail(users, email).value.passwordHash)
    ensures r.Some? ==> r == FindByEmail(users, email)
  {
    match FindByEmail(users, email)
    case None => None
    case Some(u) => if verify(password, u.passwordHash) then Some(u) else None
  }

  /** The expiry `create_access_token` writes: `now + delta` when a delta is
      given and non-zero (a zero `timedelta` is falsy), else 15 minutes. */
  function ExpiryOf(expiresDelta: Option<int>, now: nat): (r: int)
    ensures expiresDelta.Some? && expiresDelta.value != 0 ==> r == now + expiresDelta.value
    ensures expiresDelta.None? || expiresDelta.value == 0 ==> r == now + DefaultTokenSeconds
  {
    if expiresDelta.Some? && expiresDelta.value != 0 then now + expiresDelta.value
    else now + DefaultTokenSeconds
  }

  /** `create_access_token`: the caller's claims plus the expiry, encoded. */
  function CreateAccessToken(sub: string, expiresDelta: Option<int>, now: nat,
                             encode: Claims -> string): (r: string)
    ensures expiresDelta.Some? && expiresDelta.value != 0 ==> r == encode(Claims(sub, now + expiresDelta.value))
    ensures expiresDelta.None? || expiresDelta.value == 0 ==> r == encode(Claims(sub, now + DefaultTokenSeconds))
  {
    encode(Claims(sub, ExpiryOf(expiresDelta, now)))
  }

  /** `get_current_user`: 401 when the token does not decode, carries no
      subject, or names no registered email; otherwise that user. */
  function GetCurrentUser(users: seq<DbUser>, token: string, decode: string -> Option<Payload>): (r: Response<DbUser>)
    ensures r.Ok? <==> decode(token).Some? && decode(token).value.sub.Some?
                       && FindByEmail(users, decode(token).value.sub.value).Some?
    ensures r.Ok? ==> r.body.email == decode(token).value.sub.value && r.body in users
    ensures r.Error? ==> r.status == Unauthorized && r.detail == CredentialsMessage
  {
    match decode(token)
    case None => Error(Unauthorized, CredentialsMessage)
    case Some(p) =>
      if p.sub.None? then Error(Unauthorized, CredentialsMessage)
      else match FindByEmail(users, p.sub.value)
        case None => Error(Unauthorized, CredentialsMessage)
        case Some(u) => Ok(u)
  }

  /** The token issued at signup and login: subject the email, lifetime
      `ACCESS_TOKEN_EXPIRE_MINUTES`. */
  function IssueToken(u: DbUser, now: nat, encode: Claims -> string): (r: TokenResponse)
    ensures r.accessToken == encode(Claims(u.email, now + AccessTokenExpireMinutes * 60))
    ensures r.tokenType == "bearer"
    ensures r.user == UserResponse(u.id, u.email, u.createdAt, u.isActive)
  {
    TokenResponse(CreateAccessToken(u.email, Some(AccessTokenExpireMinutes * 60), now, encode), "bearer",
                  UserResponse(u.id, u.email, u.createdAt, u.isActive))
  }

  /** `signup`: 400 "Email already registered" with nothing inserted when
      the email has a row; otherwise one active row holding the hashed
      password is added and a token for it returned. */
  function Signup(users: seq<DbUser>, email: string, password: string, id: string, now: nat,
                  hash: string -> string, encode: Claims -> string): (r: Handled)
    ensures FindByEmail(users, email).Some? ==>
      r == Handled(users, Error(BadRequest, "Email already registered"))
    ensures FindByEmail(users, email).None? ==>
      && r.users == users + [NewDbUser(id, email, hash(password), now)]
      && r.response == Ok(IssueToken(NewDbUser(id, email, hash(password), now), now, encode))
      && r.response.body.user.isActive
  {
    if FindByEmail(users, email).Some? then Handled(users, Error(BadRequest, "Email already registered"))
    else
      var u := NewDbUser(id, email, hash(password), now);
      Handled(users + [u], Ok(IssueToken(u, now, encode)))
  }

  /** `login`: one 401 for every authentication failure; otherwise a token
      for the stored user. */
  function Login(users: seq<DbUser>, email: string, password: string, now: nat,
                 verify: (string, string) -> bool, encode: Claims -> string): (r: Response<TokenResponse>)
    ensures r.Error? <==> AuthenticateUser(users, email, password, verify).None?
    ensures r.Error? ==> r == Error(Unauthorized, "Incorrect email or password")
    ensures r.Ok? ==> r.body.user.email == email
    ensures r.Ok? ==> r.body == IssueToken(AuthenticateUser(users, email, password, verify).value, now, encode)
  {
    match AuthenticateUser(users, email, password, verify)
    case None => Error(Unauthorized, "Incorrect email or password")
    case Some(u) => Ok(IssueToken(u, now, encode))
  }

  /** Tokens from signup and login are for the account's email and expire
      one day (86400 seconds) after issue; a zero delta is treated as no
      delta at all and falls back to 15 minutes. */
  lemma TokenLifetimes(users: seq<DbUser>, email: string, password: string, id: string, now: nat,
                       hash: string -> string, verify: (string, string) -> bool, encode: Claims -> string)
    ensures ExpiryOf(Some(0), now) == ExpiryOf(None, now) == now + 900
    ensures var r := Login(users, email, password, now, verify, encode);
      r.Ok? ==> r.body.accessToken == encode(Claims(email, now + 86400))
    ensures var r := Signup(users, email, password, id, now, hash, encode).response;
      r.Ok? ==> r.body.accessToken == encode(Claims(email, now + 86400))
  {
  }

  lemma {:induction false} FindAppendMiss(users: seq<DbUser>, u: DbUser, email: string)
    requires FindByEmail(users, email).None?
    ensures FindByEmail(users + [u], email) == (if u.email == email then Some(u) else None)
  {
    if users != [] {
      assert (users + [u])[1..] == users[1..] + [u];
      FindAppendMiss(users[1..], u, email);
    } else {
      assert users + [u] == [u];
    }
  }

  /** After a successful signup, the new user passes `get_current_user`
      with the issued token, provided the decoder reads back the subject of
      that one token (it is not yet expired at issue), and a second signup
      with the same email is refused. */
  lemma SignupThenAuthenticate(users: seq<DbUser>, email: string, password: string, id: string, now: nat,
                               hash: string -> string, encode: Claims -> string,
                               decode: string -> Option<Payload>)
    requires FindByEmail(users, email).None?
    requires decode(encode(Claims(email, now + AccessTokenExpireMinutes * 60))) == Some(Payload(Some(email)))
    ensures var s := Signup(users, email, password, id, now, hash, encode);
      && GetCurrentUser(s.users, s.response.body.accessToken, decode) == Ok(NewDbUser(id, email, hash(password), now))
      && Signup(s.users, email, password, id, now, hash, encode).response.Error?
  {
    var u := NewDbUser(id, email, hash(password), now);
    FindAppendMiss(users, u, email);
  }
}

=== FILE: auth_service.dfy ===
/**
  The authentication service of the console/agent backend
  (backend/app/auth/service.py): signup, login and bearer-token checks
  over the user directory. Token issue and decoding are parameters:
  `issue(u)` is the signed token for `u`, and `decode(tok)` is the
  `user_id` claim of a valid, unexpired token, or None.
 */
module AuthService {
  import opened Common
  import opened UserDirectory

  /** `{success, message, token, user}`; `user` is None when the key is
      absent. */
  datatype AuthReply = AuthReply(success: bool, message: string, token: Option<string>, user: Option<UserDict>)

  /** `{authenticated, user, token_valid}` */
  datatype AuthResult = AuthResult(authenticated: bool, user: Option<User>, tokenValid: bool)

  datatype SignedUp = SignedUp(directory: Directory, reply: AuthReply)

  const MinPasswordLength: nat := 6
  const BearerPrefix: string := "Bearer "
  const DuplicateEmailMessage: string := "User with this email already exists"
  const BadEmailMessage: string := "Invalid email format"
  const ShortPasswordMessage: string := "Password must be at least 6 characters long"
  const BadCredentialsMessage: string := "Invalid email or password"

  function Refusal(message: string): (r: AuthReply)
    ensures !r.success && r.message == message && r.token == None && r.user == None
  {
    AuthReply(false, message, None, None)
  }

  /** The basic email check: an "@" and a "." somewhere. */
  predicate PlausibleEmail(email: string) {
    '@' in email && '.' in email
  }

  /** `signup`. Checks, in order: email not yet registered, email
      plausible, password at least 6 characters. A refusal leaves the
      directory as it was; success registers the new user under its email
      and id and returns its token and public dictionary. */
  function Signup(d: Directory, email: string, password: string, id: string, salt: string, now: nat,
                  sha: string -> string, issue: User -> string): (r: SignedUp)
    ensures email in d.byEmail ==> r.reply == Refusal(DuplicateEmailMessage)
    ensures email !in d.byEmail && !PlausibleEmail(email) ==> r.reply == Refusal(BadEmailMessage)
    ensures email !in d.byEmail && PlausibleEmail(email) && |password| < MinPasswordLength ==>
      r.reply == Refusal(ShortPasswordMessage)
    ensures r.reply.success <==> email !in d.byEmail && PlausibleEmail(email) && |password| >= MinPasswordLength
    ensures !r.reply.success ==> r.directory == d
    ensures r.reply.success ==>
      && var u := NewUser(id, email, password, salt, now, sha);
      && r.directory == AddUser(d, u)
      && GetByEmail(r.directory, email) == Some(u)
      && r.reply.token == Some(issue(u))
      && r.reply.user == Some(ToDict(u, false))
  {
    if GetByEmail(d, email).Some? then SignedUp(d, Refusal(DuplicateEmailMessage))
    else if !PlausibleEmail(email) then SignedUp(d, Refusal(BadEmailMessage))
    else if |password| < MinPasswordLength then SignedUp(d, Refusal(ShortPasswordMessage))
    else
      var u := NewUser(id, email, password, salt, now, sha);
      SignedUp(AddUser(d, u), AuthReply(true, "User registered successfully", Some(issue(u)), Some(ToDict(u, false))))
  }

  /** `login`: succeeds exactly when the email is registered and the
      password verifies; both kinds of failure give the same reply. */
  function Login(d: Directory, email: string, password: string, sha: string -> string,
                 issue: User -> string): (r: AuthReply)
    ensures r.success <==> email in d.byEmail && VerifyPassword(d.byEmail[email], password, sha)
    ensures !r.success ==> r == Refusal(BadCredentialsMessage)
    ensures r.success ==>
      && r.token == Some(issue(d.byEmail[email]))
      && r.user == Some(ToDict(d.byEmail[email], false))
      && r.message == "Login successful"
  {
    match GetByEmail(d, email)
    case None => Refusal(BadCredentialsMessage)
    case Some(u) =>
      if !VerifyPassword(u, password, sha) then Refusal(BadCredentialsMessage)
      else AuthReply(true, "Login successful", Some(issue(u)), Some(ToDict(u, false)))
  }

  /** One leading "Bearer " removed, if present. */
  function StripBearer(token: string): (r: string)
    ensures StartsWith(token, BearerPrefix) ==> r == token[7..] && |r| == |token| - 7
    ensures !StartsWith(token, BearerPrefix) ==> r == token
  {
    if StartsWith(token, BearerPrefix) then token[|BearerPrefix|..] else token
  }

  /** `authenticate_request`: None for a missing or empty token; otherwise
      authenticated exactly when the token, with one "Bearer " removed,
      decodes to the id of a registered user, who is returned. */
  function AuthenticateRequest(d: Directory, token: Option<string>, decode: string -> Option<string>): (r: Option<AuthResult>)
    ensures r.None? <==> !SomeTruthy(token)
    ensures r.Some? ==>
      && var claim := decode(StripBearer(token.value));
      && r.value.authenticated == r.value.tokenValid
      && (r.value.authenticated <==> claim.Some? && claim.value in d.byId)
      && (r.value.authenticated ==> r.value.user == Some(d.byId[claim.value]))
      && (!r.value.authenticated ==> r.value.user.None?)
  {
    if !SomeTruthy(token) then None
    else
      var user := match decode(StripBearer(token.value))
                  case None => None
                  case Some(uid) => GetById(d, uid);
      if user.Some? then Some(AuthResult(true, user, true))
      else Some(AuthResult(false, None, false))
  }

  /** A user who has just signed up can log in with the same password and
      gets the same user back. */
  lemma SignupThenLogin(d: Directory, email: string, password: string, id: string, salt: string,
                        now: nat, sha: string -> string, issue: User -> string)
    requires Signup(d, email, password, id, salt, now, sha, issue).reply.success
    ensures var s := Signup(d, email, password, id, salt, now, sha, issue);
      var l := Login(s.directory, email, password, sha, issue);
      l.success && l.user == s.reply.user && l.token == s.reply.token
  {
  }

  /** The token handed out at signup authenticates its bearer, with or
      without the "Bearer " prefix, provided the decoder inverts the
      issuer. */
  lemma SignupTokenAuthenticates(d: Directory, email: string, password: string, id: string, salt: string,
                                 now: nat, sha: string -> string, issue: User -> string,
                                 decode: string -> Option<string>)
    requires Signup(d, email, password, id, salt, now, sha, issue).reply.success
    requires var u := NewUser(id, email, password, salt, now, sha);
      decode(issue(u)) == Some(id) && !StartsWith(issue(u), BearerPrefix) && issue(u) != []
    ensures var s := Signup(d, email, password, id, salt, now, sha, issue);
      var tok := s.reply.token.value;
      var plain := AuthenticateRequest(s.directory, Some(tok), decode);
      var bearer := AuthenticateRequest(s.directory, Some(BearerPrefix + tok), decode);
      && plain.Some? && plain.value.authenticated && plain.value.user.value.email == email
      && bearer == plain
  {
    var tok := issue(NewUser(id, email, password, salt, now, sha));
    assert (BearerPrefix + tok)[..7] == BearerPrefix;
    assert (BearerPrefix + tok)[7..] == tok;
  }

  /** Login does not reveal whether an email is registered: an unknown
      email and a wrong password get identical replies. */
  lemma LoginFailuresIndistinguishable(d: Directory, unknown: string, known: string, p1: string, p2: string,
                                       sha: string -> string, issue: User -> string)
    requires unknown !in d.byEmail
    requires known in d.byEmail && !VerifyPassword(d.byEmail[known], p2, sha)
    ensures Login(d, unknown, p1, sha, issue) == Login(d, known, p2, sha, issue)
  {
  }
}

=== FILE: common.dfy ===
/**
  Shared vocabulary for the model: optional values, "key present in the
  request" markers, and the few pieces of Python string and truthiness
  semantics that the todo backend relies on.
 */
module Common {

  /** Python's `None` / a present value. */
  datatype Option<+T> = None | Some(value: T)

  /** A request key that was either left out (Unset) or sent, possibly with
      an explicit null inside (Set(None)). Pydantic's `exclude_unset` and
      `dict.get(key, default)` both distinguish these two cases. */
  datatype Field<+T> = Unset | Set(value: T)

  /** Collapse "absent" and "present but null" into one optional value. */
  function Flatten<T>(f: Field<Option<T>>): (r: Option<T>)
    ensures r.Some? <==> f.Set? && f.value.Some?
    ensures r.Some? ==> r.value == f.value.value
  {
    match f
    case Unset => None
    case Set(v) => v
  }

  /** Python truthiness of a string: only the empty string is falsy. */
  predicate Truthy(s: string) {
    |s| > 0
  }

  /** Python truthiness of an optional string (`None` and "" are falsy). */
  predicate SomeTruthy(o: Option<string>) {
    o.Some? && Truthy(o.value)
  }

  /** `x if x else None` on an optional string. */
  function NoneIfFalsy(o: Option<string>): (r: Option<string>)
    ensures r.Some? <==> SomeTruthy(o)
    ensures r.Some? ==> r == o
  {
    if SomeTruthy(o) then o else None
  }

  /** The characters Python's `str.isspace()` accepts, which are the ones
      `str.strip()` with no argument removes. */
  predicate IsSpace(c: char) {
    var n := c as int;
    || n == 0x20
    || (0x09 <= n <= 0x0D)
    || (0x1C <= n <= 0x1F)
    || n == 0x85 || n == 0xA0 || n == 0x1680
    || (0x2000 <= n <= 0x200A)
    || n == 0x2028 || n == 0x2029 || n == 0x202F || n == 0x205F || n == 0x3000
  }

  predicate AllSpace(s: string) {
    forall i :: 0 <= i < |s| ==> IsSpace(s[i])
  }

  /** `s.lstrip()` */
  function TrimLeft(s: string): (r: string)
    ensures |r| <= |s|
    ensures r == s[|s| - |r|..]
    ensures AllSpace(s[..|s| - |r|])
    ensures r == [] || !IsSpace(r[0])
  {
    if |s| > 0 && IsSpace(s[0]) then
      var t := s[1..];
      var r := TrimLeft(t);
      assert t[|t| - |r|..] == s[|s| - |r|..];
      assert AllSpace(s[..|s| - |r|]) by {
        forall i | 0 <= i < |s| - |r| ensures IsSpace(s[i]) {
          if i > 0 { assert s[i] == t[..|t| - |r|][i - 1]; }
        }
      }
      r
    else s
  }

  /** `s.rstrip()` */
  function TrimRight(s: string): (r: string)
    ensures |r| <= |s|
    ensures r == s[..|r|]
    ensures AllSpace(s[|r|..])
    ensures r == [] || !IsSpace(r[|r| - 1])
  {
    if |s| > 0 && IsSpace(s[|s| - 1]) then
      var t := s[..|s| - 1];
      var r := TrimRight(t);
      assert t[..|r|] == s[..|r|];
      assert AllSpace(s[|r|..]) by {
        forall i | |r| <= i < |s| ensures IsSpace(s[i]) {
          if i < |s| - 1 { assert s[i] == t[|r|..][i - |r|]; }
        }
      }
      r
    else s
  }

  /** `s.strip()`: the infix of `s` left once whitespace is removed from
      both ends; it neither starts nor ends with whitespace. */
  function Strip(s: string): (r: string)
    ensures |r| <= |s|
    ensures r == [] || (!IsSpace(r[0]) && !IsSpace(r[|r| - 1]))
  {
    TrimRight(TrimLeft(s))
  }

  /** Python's `not s.strip()`: the string is empty or all whitespace. */
  predicate IsBlank(s: string) {
    Strip(s) == []
  }

  lemma TrimLeftEmpty(s: string)
    ensures TrimLeft(s) == [] <==> AllSpace(s)
  {
    var r := TrimLeft(s);
    if r == [] {
      assert s[..|s|] == s;
    } else {
      assert r[0] == s[|s| - |r|];
    }
  }

  lemma {:induction false} TrimRightEmpty(s: string)
    ensures TrimRight(s) == [] <==> AllSpace(s)
  {
    if |s| > 0 && IsSpace(s[|s| - 1]) {
      var p := s[..|s| - 1];
      TrimRightEmpty(p);
      assert AllSpace(s) <==> AllSpace(p) by {
        if AllSpace(p) {
          forall i | 0 <= i < |s| ensures IsSpace(s[i]) {
            if i < |s| - 1 { assert s[i] == p[i]; }
          }
        }
      }
    }
  }

  /** A string strips to nothing exactly when every character is whitespace. */
  lemma BlankIffAllSpace(s: string)
    ensures IsBlank(s) <==> AllSpace(s)
  {
    var l := TrimLeft(s);
    TrimLeftEmpty(s);
    TrimRightEmpty(l);
  }

  /** Stripping never lengthens a string and never leaves edge whitespace,
      so a second strip changes nothing. */
  lemma StripIdempotent(s: string)
    ensures Strip(Strip(s)) == Strip(s)
  {
    var r := Strip(s);
    assert TrimLeft(r) == r;
    assert TrimRight(r) == r;
  }

  /** `s.startswith(p)` */
  predicate StartsWith(s: string, p: string) {
    |p| <= |s| && s[..|p|] == p
  }

  /** Decimal rendering of a natural number, as Python's `str(n)` and
      f-string interpolation produce it. */
  function NatToString(n: nat): (r: string)
    ensures |r| >= 1
    ensures forall i :: 0 <= i < |r| ==> '0' <= r[i] <= '9'
    ensures n < 10 <==> |r| == 1
    decreases n
  {
    var d := ['0' + (n % 10) as char];
    if n < 10 then d else NatToString(n / 10) + d
  }

  /** The number a string of decimal digits denotes, read left to right. */
  function DigitsValue(s: string): nat
    requires forall i :: 0 <= i < |s| ==> '0' <= s[i] <= '9'
  {
    if s == [] then 0 else DigitsValue(s[..|s| - 1]) * 10 + (s[|s| - 1] - '0') as int
  }

  /** The rendering denotes the number and has no leading zero, so it is
      the one decimal spelling of `n`. */
  lemma {:induction false} NatToStringValue(n: nat)
    ensures DigitsValue(NatToString(n)) == n
    ensures NatToString(n)[0] == '0' ==> n == 0
    decreases n
  {
    if n >= 10 {
      var r := NatToString(n);
      NatToStringValue(n / 10);
      assert r[..|r| - 1] == NatToString(n / 10);
      assert r[0] == NatToString(n / 10)[0];
    }
  }

  function Min(a: int, b: int): int {
    if a <= b then a else b
  }

  function Max(a: int, b: int): int {
    if a >= b then a else b
  }
}

=== FILE: dashboard.dfy ===
/**
  The list computations of the dashboard page (frontend/pages/dashboard.js):
  the status filter, the sort, the page slice, the statistics, the pager's
  enable conditions, and how the edit form's values fall back to the
  task's own. `localeCompare` on lower-cased titles is the parameter
  `titleLe`. `Array.prototype.sort` is stable, as `SortBy` is.
 */
module Dashboard {
  import opened Common
  import opened Seqs
  import opened TodoReducer

  /** The dashboard's page size. */
  const PageSize: nat := 10

  datatype Stats = Stats(total: nat, completed: nat, incomplete: nat, high: nat, medium: nat, low: nat)

  /** The edit form's values; a field left empty is "" or None. */
  datatype Form = Form(title: Option<string>, description: Option<string>, priority: Option<string>)

  /** `filteredTasks`: 'complete' and 'incomplete' select by status, any
      other filter keeps every task. */
  function FilterTasks(tasks: seq<Todo>, selected: string): (r: seq<Todo>)
    ensures selected == "complete" ==> forall t :: t in r <==> t in tasks && t.status == Complete
    ensures selected == "incomplete" ==> forall t :: t in r <==> t in tasks && t.status == Incomplete
    ensures selected != "complete" && selected != "incomplete" ==> r == tasks
  {
    if selected == "complete" then Filter(tasks, (t: Todo) => t.status == Complete)
    else if selected == "incomplete" then Filter(tasks, (t: Todo) => t.status == Incomplete)
    else tasks
  }

  /** The rank of the priority sort: high 3, medium 2, low 1. A todo with
      no known priority ranks 0. */
  function PriorityRank(p: Option<string>): (r: nat)
    ensures r <= 3
    ensures r == 0 <==> p !in {Some("high"), Some("medium"), Some("low")}
  {
    if p == Some("high") then 3
    else if p == Some("medium") then 2
    else if p == Some("low") then 1
    else 0
  }

  /** Ascending order on the chosen key; an unknown key sorts by creation
      time. */
  function AscendingBy(sortBy: string, titleLe: (string, string) -> bool): (Todo, Todo) -> bool {
    if sortBy == "title" then (a: Todo, b: Todo) => titleLe(a.text, b.text)
    else if sortBy == "priority" then (a: Todo, b: Todo) => PriorityRank(a.priority) <= PriorityRank(b.priority)
    else if sortBy == "updated_at" then (a: Todo, b: Todo) => a.updatedAt <= b.updatedAt
    else (a: Todo, b: Todo) => a.createdAt <= b.createdAt
  }

  /** The comparator of `sortedTasks`: descending for "desc", ascending for
      any other order. */
  function OrderBy(sortBy: string, sortOrder: string, titleLe: (string, string) -> bool): (Todo, Todo) -> bool {
    var asc := AscendingBy(sortBy, titleLe);
    if sortOrder == "desc" then (a: Todo, b: Todo) => asc(b, a) else asc
  }

  /** `sortedTasks`: a permutation of the filtered tasks, in order whenever
      the comparator is a total preorder. */
  function SortTasks(tasks: seq<Todo>, sortBy: string, sortOrder: string, titleLe: (string, string) -> bool): (r: seq<Todo>)
    ensures multiset(r) == multiset(tasks) && |r| == |tasks|
    ensures TotalPreorder(OrderBy(sortBy, sortOrder, titleLe)) ==> Sorted(r, OrderBy(sortBy, sortOrder, titleLe))
  {
    SortBy(tasks, OrderBy(sortBy, sortOrder, titleLe))
  }

  /** What the sort controls mean: "desc" reverses the ascending order, any
      other order is ascending; priority ranks high over medium over low,
      and an unknown key sorts by creation time. */
  lemma OrderByMeaning(sortBy: string, sortOrder: string, titleLe: (string, string) -> bool, a: Todo, b: Todo)
    ensures sortOrder == "desc" ==>
      (OrderBy(sortBy, sortOrder, titleLe)(a, b) <==> OrderBy(sortBy, "asc", titleLe)(b, a))
    ensures sortBy == "priority" ==>
      (OrderBy(sortBy, "asc", titleLe)(a, b) <==> PriorityRank(a.priority) <= PriorityRank(b.priority))
    ensures sortBy != "title" && sortBy != "priority" && sortBy != "updated_at" ==>
      (OrderBy(sortBy, "asc", titleLe)(a, b) <==> a.createdAt <= b.createdAt)
  {
  }

  /** `paginatedTasks`: page `page` of `limit` tasks. */
  function PageOf(sorted: seq<Todo>, page: nat, limit: nat): (r: seq<Todo>)
    ensures |r| <= limit
    ensures |r| == Min(limit, Max(0, |sorted| - page * limit))
    ensures forall i :: 0 <= i < |r| ==> r[i] == sorted[page * limit + i]
  {
    Page(sorted, page * limit, limit)
  }

  /** `stats`: counts over all tasks, not just the filtered ones. */
  function TaskStats(tasks: seq<Todo>): (r: Stats)
    ensures r.total == |tasks|
    ensures r.completed == Count(tasks, (t: Todo) => t.status == Complete)
    ensures r.incomplete == Count(tasks, (t: Todo) => t.status == Incomplete)
    ensures r.completed + r.incomplete == r.total
    ensures r.high == Count(tasks, (t: Todo) => t.priority == Some("high"))
    ensures r.medium == Count(tasks, (t: Todo) => t.priority == Some("medium"))
    ensures r.low == Count(tasks, (t: Todo) => t.priority == Some("low"))
  {
    FilterPartition(tasks, (t: Todo) => t.status == Complete, (t: Todo) => t.status == Incomplete);
    Stats(|tasks|,
          Count(tasks, (t: Todo) => t.status == Complete),
          Count(tasks, (t: Todo) => t.status == Incomplete),
          Count(tasks, (t: Todo) => t.priority == Some("high")),
          Count(tasks, (t: Todo) => t.priority == Some("medium")),
          Count(tasks, (t: Todo) => t.priority == Some("low")))
  }

  /** The pager is shown only when the tasks do not fit on one page. */
  predicate ShowPager(sortedCount: nat, limit: nat) {
    sortedCount > limit
  }

  /** The pager is shown exactly when there is a second page of tasks. */
  lemma PagerIffSecondPage(sorted: seq<Todo>, limit: nat)
    requires limit > 0
    ensures ShowPager(|sorted|, limit) <==> |PageOf(sorted, 1, limit)| > 0
  {
  }

  /** "Previous" goes back one page but never below the first. */
  function PreviousPage(page: nat): (r: nat)
    ensures page == 0 ==> r == 0
    ensures page > 0 ==> r + 1 == page
  {
    Max(0, page - 1)
  }

  /** "Next" is disabled when the following page would start past the end. */
  predicate NextDisabled(page: nat, limit: nat, sortedCount: nat) {
    (page + 1) * limit >= sortedCount
  }

  /** "Next" is enabled exactly when the next page has tasks on it. */
  lemma NextEnabledIffNextPageNonEmpty(sorted: seq<Todo>, page: nat, limit: nat)
    requires limit > 0
    ensures !NextDisabled(page, limit, |sorted|) <==> |PageOf(sorted, page + 1, limit)| > 0
  {
    assert (page + 1) * limit == page * limit + limit;
  }

  /** `updateTask`: the action sent for the first task with the id, each
      empty form value replaced by the task's own value; None when no task
      has the id. */
  function UpdateAction(tasks: seq<Todo>, taskId: string, form: Form): (r: Option<Action>)
    ensures r.None? <==> forall i :: 0 <= i < |tasks| ==> tasks[i].id != taskId
    ensures r.Some? ==>
      var t := tasks[FirstIndex(tasks, (x: Todo) => x.id == taskId)];
      && r.value.UpdateTodo? && r.value.id == taskId
      && r.value.text == (if SomeTruthy(form.title) then form.title.value else t.text)
      && r.value.description == (if SomeTruthy(form.description) then form.description else t.description)
      && r.value.priority == (if SomeTruthy(form.priority) then form.priority else t.priority)
      && r.value.dueDate == t.dueDate && r.value.reminderDate == t.reminderDate
  {
    var i := FirstIndex(tasks, (x: Todo) => x.id == taskId);
    if i < 0 then None
    else
      var t := tasks[i];
      Some(UpdateTodo(taskId,
                      if SomeTruthy(form.title) then form.title.value else t.text,
                      if SomeTruthy(form.description) then form.description else t.description,
                      if SomeTruthy(form.priority) then form.priority else t.priority,
                      t.dueDate, t.reminderDate))
  }

  /** Editing from the dashboard cannot clear a description or a priority:
      an empty form field leaves the task's value in place. */
  lemma EmptyFieldsKeepValues(s: State, taskId: string, form: Form, now: nat)
    requires UpdateAction(s.todos, taskId, form).Some?
    requires !SomeTruthy(form.description) && !SomeTruthy(form.priority)
    ensures var i := FirstIndex(s.todos, (x: Todo) => x.id == taskId);
      var r := Reduce(s, UpdateAction(s.todos, taskId, form).value, now);
      && r.todos[i].description == s.todos[i].description
      && r.todos[i].priority == s.todos[i].priority
      && r.todos[i].dueDate == s.todos[i].dueDate
  {
  }

  /** Every task appears on exactly one page: the one its position in the
      sorted list falls on. */
  lemma PagesCoverSorted(sorted: seq<Todo>, limit: nat, k: nat)
    requires limit > 0 && k < |sorted|
    ensures var p := k / limit;
      && k - p * limit < |PageOf(sorted, p, limit)|
      && PageOf(sorted, p, limit)[k - p * limit] == sorted[k]
  {
    var p := k / limit;
    assert p * limit <= k < p * limit + limit;
  }
}

=== FILE: delete_task_agent.dfy ===
/**
  DeleteTaskAgent (backend/app/agents/delete_task_agent.py): deletes a task
  the caller owns, but only once the deletion is confirmed; an unconfirmed
  call returns a confirmation request instead.
 */
module DeleteTaskAgent {
  import opened Common
  import opened TaskStore
  import opened AgentReply

  /** The agent's result dictionary; `requiresConfirmation` and `task` are
      None when the dictionary lacks those keys. */
  datatype DeleteReply = DeleteReply(
    success: bool,
    message: string,
    requiresConfirmation: Option<bool>,
    task: Option<Task>)

  const NotFoundMessage: string := "Task not found. It may have already been deleted."

  /** `get_task_for_confirmation`: describes the task the caller is about to
      delete, with `requires_confirmation` True exactly when the caller may
      delete it. Nothing is changed. */
  function GetTaskForConfirmation(s: Store, id: TaskId, userId: Option<string>): (r: DeleteReply)
    requires Valid(s)
    ensures r.requiresConfirmation == Some(r.success)
    ensures r.success <==> id in s.tasks && !Foreign(userId, s.tasks[id])
    ensures id !in s.tasks ==> r.message == "Task not found"
    ensures id in s.tasks && Foreign(userId, s.tasks[id]) ==> r.message == NotOwnerMessage
    ensures r.success ==>
      && r.task == Some(s.tasks[id])
      && r.message == "Are you sure you want to delete '" + s.tasks[id].title + "'?"
    ensures !r.success ==> r.task.None?
  {
    if id !in s.tasks then DeleteReply(false, "Task not found", Some(false), None)
    else if Foreign(userId, s.tasks[id]) then DeleteReply(false, NotOwnerMessage, Some(false), None)
    else
      var t := s.tasks[id];
      DeleteReply(true, "Are you sure you want to delete '" + t.title + "'?", Some(true), Some(t))
  }

  /** `execute`: a missing task or a foreign caller fails; an unconfirmed
      call returns the confirmation request and changes nothing; a confirmed
      call by the owner removes exactly that task. */
  function Execute(s: Store, id: TaskId, confirmed: bool, userId: Option<string>): (r: Step<DeleteReply>)
    requires Valid(s)
    ensures Valid(r.store)
    ensures id !in s.tasks ==> r.reply == DeleteReply(false, NotFoundMessage, None, None)
    ensures id in s.tasks && Foreign(userId, s.tasks[id]) ==>
      r.reply == DeleteReply(false, NotOwnerMessage, None, None)
    ensures id in s.tasks && !Foreign(userId, s.tasks[id]) && !confirmed ==>
      r.reply.requiresConfirmation == Some(true) && r.reply.task == Some(s.tasks[id])
    ensures r.store != s <==> id in s.tasks && !Foreign(userId, s.tasks[id]) && confirmed
    ensures r.store != s ==>
      && r.store.tasks == s.tasks - {id}
      && r.reply == DeleteReply(true, "Task '" + s.tasks[id].title + "' has been deleted successfully!", None, None)
  {
    if id !in s.tasks then Step(s, DeleteReply(false, NotFoundMessage, None, None))
    else if Foreign(userId, s.tasks[id]) then Step(s, DeleteReply(false, NotOwnerMessage, None, None))
    else if !confirmed then Step(s, GetTaskForConfirmation(s, id, userId))
    else
      var title := s.tasks[id].title;
      var w := DeleteTask(s, id);
      assert id !in w.store.tasks;
      Step(w.store, DeleteReply(true, "Task '" + title + "' has been deleted successfully!", None, None))
  }

  /** Asking first and then confirming deletes the task; confirming a second
      time reports it gone. */
  lemma AskThenConfirm(s: Store, id: TaskId, userId: Option<string>)
    requires Valid(s) && id in s.tasks && !Foreign(userId, s.tasks[id])
    ensures var ask := Execute(s, id, false, userId);
      var del := Execute(ask.store, id, true, userId);
      var again := Execute(del.store, id, true, userId);
      && ask.store == s && ask.reply.requiresConfirmation == Some(true)
      && del.reply.success && id !in del.store.tasks
      && !again.reply.success && again.reply.message == NotFoundMessage
  {
  }
}

=== FILE: http.dfy ===
/**
  HTTP outcomes of the FastAPI handlers: a response body, or an
  `HTTPException` with a status code and a detail message. Request
  validation failures (FastAPI's automatic 422) and uncaught exceptions
  (500) are errors too; for those the model keeps the status and a fixed
  detail, not the body FastAPI renders.
 */
module Http {
  const BadRequest: nat := 400
  const Unauthorized: nat := 401
  const NotFound: nat := 404
  const Unprocessable: nat := 422
  const ServerError: nat := 500

  const ValidationDetail: string := "Unprocessable Entity"
  const ServerErrorDetail: string := "Internal Server Error"

  datatype Response<+T> = Ok(body: T) | Error(status: nat, detail: string)
}

=== FILE: mark_complete_agent.dfy ===
/**
  MarkCompleteAgent (backend/app/agents/mark_complete_agent.py): sets or
  toggles the completion flag of a task the caller owns, and changes
  nothing else.
 */
module MarkCompleteAgent {
  import opened Common
  import opened TaskStore
  import opened AgentReply

  const NotFoundMessage: string := "Task not found. Cannot update completion status."

  function StatusText(completed: bool): (r: string)
    ensures completed ==> r == "completed"
    ensures !completed ==> r == "incomplete"
  {
    if completed then "completed" else "incomplete"
  }

  /** `execute`: a missing task or a foreign caller fails. A task already in
      the requested state is returned as it is (success, store untouched);
      otherwise its flag is set, `updated_at` refreshed, and nothing else
      changes. */
  function Execute(s: Store, id: TaskId, completed: bool, userId: Option<string>, now: nat): (r: Step<Reply>)
    requires Valid(s)
    ensures Valid(r.store)
    ensures id !in s.tasks ==> r.store == s && r.reply == Failure(NotFoundMessage)
    ensures id in s.tasks && Foreign(userId, s.tasks[id]) ==> r.store == s && r.reply == Failure(NotOwnerMessage)
    ensures r.reply.success <==> id in s.tasks && !Foreign(userId, s.tasks[id])
    ensures r.reply.success && s.tasks[id].completed == completed ==>
      && r.store == s && r.reply.task == Some(s.tasks[id])
      && r.reply.message == "Task '" + s.tasks[id].title + "' is already marked as " + StatusText(completed) + "."
    ensures r.reply.success && s.tasks[id].completed != completed ==>
      && r.reply.task == Some(s.tasks[id].(completed := completed, updatedAt := now))
      && r.store.tasks == s.tasks[id := r.reply.task.value]
      && r.reply.message == (if completed then "Task '" + s.tasks[id].title + "' marked as completed!"
                             else "Task '" + s.tasks[id].title + "' marked as incomplete.")
  {
    if id !in s.tasks then Step(s, Failure(NotFoundMessage))
    else
      var t := s.tasks[id];
      if Foreign(userId, t) then Step(s, Failure(NotOwnerMessage))
      else if t.completed == completed then
        Step(s, Reply(true, "Task '" + t.title + "' is already marked as " + StatusText(completed) + ".", Some(t)))
      else
        var w := MarkComplete(s, id, completed, now);
        var u := w.task.value;
        Step(w.store, Reply(true, if completed then "Task '" + u.title + "' marked as completed!"
                                  else "Task '" + u.title + "' marked as incomplete.", w.task))
  }

  /** `toggle`: a missing task or a foreign caller fails with the toggle's
      own messages; otherwise the flag is set to its negation through
      `execute`. */
  function Toggle(s: Store, id: TaskId, userId: Option<string>, now: nat): (r: Step<Reply>)
    requires Valid(s)
    ensures Valid(r.store)
    ensures id !in s.tasks ==> r.store == s && r.reply == Failure("Task not found.")
    ensures id in s.tasks && Foreign(userId, s.tasks[id]) ==> r.store == s && r.reply == Failure(NotOwnerMessage)
    ensures r.reply.success <==> id in s.tasks && !Foreign(userId, s.tasks[id])
    ensures r.reply.success ==>
      && r.reply.task == Some(s.tasks[id].(completed := !s.tasks[id].completed, updatedAt := now))
      && r.store.tasks == s.tasks[id := r.reply.task.value]
  {
    if id !in s.tasks then Step(s, Failure("Task not found."))
    else if Foreign(userId, s.tasks[id]) then Step(s, Failure(NotOwnerMessage))
    else Execute(s, id, !s.tasks[id].completed, userId, now)
  }

  /** Toggling twice restores the flag and leaves the task's content and
      every other task as they were. */
  lemma ToggleTwiceRestores(s: Store, id: TaskId, userId: Option<string>, t1: nat, t2: nat)
    requires Valid(s) && id in s.tasks && !Foreign(userId, s.tasks[id])
    ensures var once := Toggle(s, id, userId, t1);
      var twice := Toggle(once.store, id, userId, t2);
      && twice.reply.success
      && twice.store.tasks.Keys == s.tasks.Keys
      && twice.store.tasks[id] == s.tasks[id].(updatedAt := t2)
      && forall k :: k in s.tasks && k != id ==> twice.store.tasks[k] == s.tasks[k]
  {
  }

  /** Marking is idempotent: asking for the same state twice changes the
      store once and then reports "already marked". */
  lemma MarkIdempotent(s: Store, id: TaskId, c: bool, userId: Option<string>, t1: nat, t2: nat)
    requires Valid(s) && id in s.tasks && !Foreign(userId, s.tasks[id])
    ensures var first := Execute(s, id, c, userId, t1);
      var second := Execute(first.store, id, c, userId, t2);
      && second.store == first.store
      && second.reply.success
      && first.store.tasks[id].completed == c
  {
  }
}

=== FILE: seqs.dfy ===
/**
  Sequence utilities shared by the list views: filtering (Python list
  comprehensions, JavaScript `Array.filter`, SQL `WHERE`), slicing for
  pagination (SQL `OFFSET/LIMIT`, JavaScript `slice`) and a stable sort
  (JavaScript `Array.sort`, SQL `ORDER BY`).
 */
module Seqs {
  import opened Common

  /** The elements of `xs` satisfying `p`, in their original order. */
  function Filter<T(!new)>(xs: seq<T>, p: T -> bool): (r: seq<T>)
    ensures |r| <= |xs|
    ensures forall x :: x in r <==> x in xs && p(x)
    ensures forall i :: 0 <= i < |r| ==> p(r[i])
  {
    if xs == [] then []
    else if p(xs[0]) then [xs[0]] + Filter(xs[1..], p)
    else Filter(xs[1..], p)
  }

  /** Number of elements of `xs` satisfying `p`. */
  function Count<T(!new)>(xs: seq<T>, p: T -> bool): nat {
    |Filter(xs, p)|
  }

  lemma {:induction false} FilterAppend<T(!new)>(xs: seq<T>, ys: seq<T>, p: T -> bool)
    ensures Filter(xs + ys, p) == Filter(xs, p) + Filter(ys, p)
  {
    if xs != [] {
      assert (xs + ys)[0] == xs[0];
      assert (xs + ys)[1..] == xs[1..] + ys;
      FilterAppend(xs[1..], ys, p);
      if p(xs[0]) {
        assert Filter(xs + ys, p) == [xs[0]] + Filter(xs[1..] + ys, p);
        assert Filter(xs, p) == [xs[0]] + Filter(xs[1..], p);
        assert [xs[0]] + (Filter(xs[1..], p) + Filter(ys, p))
            == ([xs[0]] + Filter(xs[1..], p)) + Filter(ys, p);
      } else {
        assert Filter(xs + ys, p) == Filter(xs[1..] + ys, p);
        assert Filter(xs, p) == Filter(xs[1..], p);
      }
    } else {
      assert xs + ys == ys;
    }
  }

  /** Filtering keeps multiplicities: each kept value occurs as often as in
      the input. */
  lemma {:induction false} FilterMultiset<T(!new)>(xs: seq<T>, p: T -> bool)
    ensures forall x :: p(x) ==> multiset(Filter(xs, p))[x] == multiset(xs)[x]
    ensures forall x :: !p(x) ==> multiset(Filter(xs, p))[x] == 0
  {
    if xs != [] {
      FilterMultiset(xs[1..], p);
      assert xs == [xs[0]] + xs[1..];
    }
  }

  /** A predicate and its negation split a list: the two filtered lists
      together are as long as the input. */
  lemma {:induction false} FilterPartition<T(!new)>(xs: seq<T>, p: T -> bool, q: T -> bool)
    requires forall x :: q(x) <==> !p(x)
    ensures |Filter(xs, p)| + |Filter(xs, q)| == |xs|
  {
    if xs != [] {
      FilterPartition(xs[1..], p, q);
    }
  }

  /** Filtering twice by the same predicate is filtering once. */
  lemma {:induction false} FilterIdempotent<T(!new)>(xs: seq<T>, p: T -> bool)
    ensures Filter(Filter(xs, p), p) == Filter(xs, p)
  {
    if xs != [] {
      FilterIdempotent(xs[1..], p);
    }
  }

  /** Filtering by a predicate every element already satisfies is the identity. */
  lemma {:induction false} FilterAll<T(!new)>(xs: seq<T>, p: T -> bool)
    requires forall i :: 0 <= i < |xs| ==> p(xs[i])
    ensures Filter(xs, p) == xs
  {
    if xs != [] {
      FilterAll(xs[1..], p);
    }
  }

  /** Filtering by two predicates in turn is filtering by their conjunction. */
  lemma {:induction false} FilterFilter<T(!new)>(xs: seq<T>, p: T -> bool, q: T -> bool, pq: T -> bool)
    requires forall x :: pq(x) <==> p(x) && q(x)
    ensures Filter(Filter(xs, p), q) == Filter(xs, pq)
  {
    if xs != [] {
      FilterFilter(xs[1..], p, q, pq);
    }
  }

  /** Index of the first element satisfying `p`, or -1 when there is none
      (JavaScript `findIndex`; an SQL query's `.first()` row). */
  function FirstIndex<T>(xs: seq<T>, p: T -> bool): (r: int)
    ensures -1 <= r < |xs|
    ensures r == -1 <==> forall i :: 0 <= i < |xs| ==> !p(xs[i])
    ensures r >= 0 ==> p(xs[r]) && forall i :: 0 <= i < r ==> !p(xs[i])
  {
    if xs == [] then -1
    else if p(xs[0]) then 0
    else
      var k := FirstIndex(xs[1..], p);
      if k == -1 then -1 else k + 1
  }

  /** `xs` without the element at index `i`, the rest in order. */
  function RemoveAt<T>(xs: seq<T>, i: nat): (r: seq<T>)
    requires i < |xs|
    ensures |r| == |xs| - 1
    ensures forall j :: 0 <= j < i ==> r[j] == xs[j]
    ensures forall j :: i <= j < |r| ==> r[j] == xs[j + 1]
    ensures multiset(r) + multiset{xs[i]} == multiset(xs)
  {
    assert xs == xs[..i] + [xs[i]] + xs[i + 1..];
    xs[..i] + xs[i + 1..]
  }

  /** The page starting at `offset` holding at most `limit` elements. */
  function Page<T>(xs: seq<T>, offset: nat, limit: nat): (r: seq<T>)
    ensures |r| == Min(limit, Max(0, |xs| - offset))
    ensures forall i :: 0 <= i < |r| ==> r[i] == xs[offset + i]
  {
    if offset >= |xs| then [] else xs[offset..Min(offset + limit, |xs|)]
  }

  /** `le` is total and transitive: a comparator that can drive a sort. */
  ghost predicate TotalPreorder<T(!new)>(le: (T, T) -> bool) {
    && (forall a, b :: le(a, b) || le(b, a))
    && (forall a, b, c :: le(a, b) && le(b, c) ==> le(a, c))
  }

  ghost predicate Sorted<T>(xs: seq<T>, le: (T, T) -> bool) {
    forall i, j :: 0 <= i < j < |xs| ==> le(xs[i], xs[j])
  }

  /** `a` and `b` compare equal under `le`. */
  predicate Tied<T>(le: (T, T) -> bool, a: T, b: T) {
    le(a, b) && le(b, a)
  }

  /** The elements tied with `e`, in order. Stability of a sort means this
      subsequence is the same before and after sorting. */
  function TiedWith<T>(xs: seq<T>, e: T, le: (T, T) -> bool): seq<T> {
    if xs == [] then []
    else if Tied(le, xs[0], e) then [xs[0]] + TiedWith(xs[1..], e, le)
    else TiedWith(xs[1..], e, le)
  }

  /** Insert `x` into sorted `ys` in front of the first element it does not
      exceed, so that it lands ahead of the elements tied with it. */
  function Insert<T(!new)>(x: T, ys: seq<T>, le: (T, T) -> bool): (r: seq<T>)
    ensures multiset(r) == multiset(ys) + multiset{x}
    ensures |r| == |ys| + 1
    ensures TotalPreorder(le) && Sorted(ys, le) ==> Sorted(r, le)
  {
    if ys == [] then [x]
    else if le(x, ys[0]) then [x] + ys
    else
      var rest := Insert(x, ys[1..], le);
      assert multiset(ys) == multiset{ys[0]} + multiset(ys[1..]) by {
        assert ys == [ys[0]] + ys[1..];
      }
      assert TotalPreorder(le) && Sorted(ys, le) ==> Sorted([ys[0]] + rest, le) by {
        if TotalPreorder(le) && Sorted(ys, le) {
          BoundedByHead(ys[0], x, ys[1..], rest, le);
        }
      }
      [ys[0]] + rest
  }

  /** Whatever is built from elements no smaller than `h` has no element
      smaller than `h`. */
  lemma BoundedByHead<T(!new)>(h: T, x: T, ys: seq<T>, rest: seq<T>, le: (T, T) -> bool)
    requires forall i :: 0 <= i < |ys| ==> le(h, ys[i])
    requires le(h, x)
    requires multiset(rest) == multiset(ys) + multiset{x}
    ensures forall k :: 0 <= k < |rest| ==> le(h, rest[k])
  {
    forall k | 0 <= k < |rest| ensures le(h, rest[k]) {
      assert rest[k] in multiset(rest);
      if rest[k] != x {
        assert rest[k] in multiset(ys);
        var m :| 0 <= m < |ys| && ys[m] == rest[k];
      }
    }
  }

  /** Stable insertion sort: ascending under `le`, a permutation of the
      input, and elements that compare equal keep their input order. */
  function SortBy<T(!new)>(xs: seq<T>, le: (T, T) -> bool): (r: seq<T>)
    ensures multiset(r) == multiset(xs)
    ensures |r| == |xs|
    ensures TotalPreorder(le) ==> Sorted(r, le)
  {
    if xs == [] then []
    else
      assert xs == [xs[0]] + xs[1..];
      Insert(xs[0], SortBy(xs[1..], le), le)
  }

  lemma {:induction false} InsertStable<T(!new)>(x: T, ys: seq<T>, e: T, le: (T, T) -> bool)
    requires TotalPreorder(le) && Sorted(ys, le)
    ensures TiedWith(Insert(x, ys, le), e, le)
         == (if Tied(le, x, e) then [x] + TiedWith(ys, e, le) else TiedWith(ys, e, le))
  {
    if ys == [] {
    } else if le(x, ys[0]) {
      assert ([x] + ys)[1..] == ys;
    } else {
      var rest := Insert(x, ys[1..], le);
      assert Sorted(ys[1..], le);
      InsertStable(x, ys[1..], e, le);
      assert ([ys[0]] + rest)[1..] == rest;
      if Tied(le, x, e) {
        assert !Tied(le, ys[0], e);
      }
    }
  }

  /** The sort is stable: the elements tied with any `e` appear in the same
      order in the output as in the input. */
  lemma {:induction false} SortStable<T(!new)>(xs: seq<T>, e: T, le: (T, T) -> bool)
    requires TotalPreorder(le)
    ensures TiedWith(SortBy(xs, le), e, le) == TiedWith(xs, e, le)
  {
    if xs != [] {
      SortStable(xs[1..], e, le);
      InsertStable(xs[0], SortBy(xs[1..], le), e, le);
    }
  }

  /** Ascending order by an integer key. */
  ghost predicate SortedByKey<T>(xs: seq<T>, key: T -> int) {
    forall i, j :: 0 <= i < j < |xs| ==> key(xs[i]) <= key(xs[j])
  }

  /** The comparators built from an integer key, in either direction, are
      total preorders. */
  lemma KeyOrderIsPreorder<T(!new)>(key: T -> int)
    ensures TotalPreorder((a: T, b: T) => key(a) <= key(b))
    ensures TotalPreorder((a: T, b: T) => key(b) <= key(a))
  {
  }
}

=== FILE: src_auth_service.dfy ===
/**
  Registration and login of the `src` web backend
  (backend/src/services/auth_service.py and the two routes in
  backend/src/api/routes/auth.py that call it). The `users` table is a
  sequence of rows; `.first()` is the first matching row. Hashing,
  verification and token signing are parameters, and times are seconds.
 */
module SrcAuthService {
  import opened Common
  import opened Seqs
  import opened Http

  /** A row of the `users` table. */
  datatype UserRow = UserRow(id: string, email: string, passwordHash: string, createdAt: int, updatedAt: int)

  /** The token lifetime `create_login_response` signs with, in minutes. */
  const LoginTokenMinutes: nat := 1440

  /** The `expires_in` it reports, in seconds. */
  const ExpiresInSeconds: nat := 86400

  const Conflict: nat := 409
  const EmailExistsMessage: string := "Email already exists"
  const InvalidCredentialsMessage: string := "Invalid credentials"
  const RegisteredMessage: string := "User registered successfully"

  /** The table after `register_user`, and the user it returned (None when
      it refused). */
  datatype Registered = Registered(users: seq<UserRow>, user: Option<UserRow>)

  /** `{"id": ..., "email": ...}` */
  datatype UserSummary = UserSummary(id: string, email: string)

  /** `create_login_response`'s dictionary. */
  datatype LoginResponse = LoginResponse(accessToken: string, tokenType: string, expiresIn: nat, user: UserSummary)

  /** `register`'s response body. */
  datatype RegisterResponse = RegisterResponse(message: string, user: UserSummary)

  function EmailIndex(users: seq<UserRow>, email: string): (r: int)
    ensures -1 <= r < |users|
    ensures r == -1 <==> forall i :: 0 <= i < |users| ==> users[i].email != email
    ensures r >= 0 ==> users[r].email == email && forall i :: 0 <= i < r ==> users[i].email != email
  {
    FirstIndex(users, (u: UserRow) => u.email == email)
  }

  /** `db.query(User).filter(User.email == email).first()` */
  function FindByEmail(users: seq<UserRow>, email: string): (r: Option<UserRow>)
    ensures r.None? <==> forall u :: u in users ==> u.email != email
    ensures r.Some? ==> r.value in users && r.value.email == email
  {
    var i := EmailIndex(users, email);
    if i < 0 then None else Some(users[i])
  }

  /** `register_user`: None and no change when the email is taken, or when
      the commit violates the table's uniqueness (an id already present)
      and is rolled back; otherwise the new user is appended and returned,
      holding the hash of the password. */
  function RegisterUser(users: seq<UserRow>, email: string, password: string, id: string, now: int,
                        hash: string -> string): (r: Registered)
    ensures r.user.None? ==> r.users == users
    ensures r.user.None? <==> (exists u :: u in users && u.email == email) || (exists u :: u in users && u.id == id)
    ensures r.user.Some? ==>
      (r.users == users + [r.user.value] && r.user.value == UserRow(id, email, hash(password), now, now))
  {
    if FindByEmail(users, email).Some? then Registered(users, None)
    else if exists u :: u in users && u.id == id then Registered(users, None)
    else
      var u := UserRow(id, email, hash(password), now, now);
      Registered(users + [u], Some(u))
  }

  /** `authenticate_user`: the first user with this email, provided the
      password verifies against its hash. */
  function AuthenticateUser(users: seq<UserRow>, email: string, password: string,
                            verify: (string, string) -> bool): (r: Option<UserRow>)
    ensures r.Some? <==> FindByEmail(users, email).Some? && verify(password, FindByEmail(users, email).value.passwordHash)
    ensures r.Some? ==> r == FindByEmail(users, email)
  {
    var u := FindByEmail(users, email);
    if u.None? || !verify(password, u.value.passwordHash) then None else u
  }

  /** `create_login_response`: a bearer token for the user's id that
      expires after 1440 minutes, and an `expires_in` equal to that
      lifetime in seconds. `sign(sub, seconds)` stands for
      `create_access_token`. */
  function CreateLoginResponse(user: UserRow, sign: (string, nat) -> string): (r: LoginResponse)
    ensures r.accessToken == sign(user.id, LoginTokenMinutes * 60)
    ensures r.expiresIn == LoginTokenMinutes * 60
    ensures r.tokenType == "bearer" && r.user == UserSummary(user.id, user.email)
  {
    LoginResponse(sign(user.id, LoginTokenMinutes * 60), "bearer", ExpiresInSeconds, UserSummary(user.id, user.email))
  }

  /** `POST /auth/register`: 409 whenever the service refuses. */
  function Register(users: seq<UserRow>, email: string, password: string, id: string, now: int,
                    hash: string -> string): (r: (seq<UserRow>, Response<RegisterResponse>))
    ensures r.1.Error? <==> RegisterUser(users, email, password, id, now, hash).user.None?
    ensures r.1.Error? ==> r.0 == users && r.1 == Error(Conflict, EmailExistsMessage)
    ensures r.1.Ok? ==>
      (r.0 == users + [UserRow(id, email, hash(password), now, now)]
       && r.1.body == RegisterResponse(RegisteredMessage, UserSummary(id, email)))
  {
    var reg := RegisterUser(users, email, password, id, now, hash);
    match reg.user
    case None => (reg.users, Error(Conflict, EmailExistsMessage))
    case Some(u) => (reg.users, Ok(RegisterResponse(RegisteredMessage, UserSummary(u.id, u.email))))
  }

  /** `POST /auth/login`: 401 unless the credentials authenticate. */
  function Login(users: seq<UserRow>, email: string, password: string,
                 verify: (string, string) -> bool, sign: (string, nat) -> string): (r: Response<LoginResponse>)
    ensures r.Error? <==> AuthenticateUser(users, email, password, verify).None?
    ensures r.Error? ==> r == Error(Unauthorized, InvalidCredentialsMessage)
    ensures r.Ok? ==> r.body.user.email == email
    ensures r.Ok? ==> r.body == CreateLoginResponse(AuthenticateUser(users, email, password, verify).value, sign)
  {
    match AuthenticateUser(users, email, password, verify)
    case None => Error(Unauthorized, InvalidCredentialsMessage)
    case Some(u) => Ok(CreateLoginResponse(u, sign))
  }

  /** Registering keeps emails unique. */
  ghost predicate UniqueEmails(users: seq<UserRow>) {
    forall i, j :: 0 <= i < j < |users| ==> users[i].email != users[j].email
  }

  lemma RegisterKeepsEmailsUnique(users: seq<UserRow>, email: string, password: string, id: string, now: int,
                                  hash: string -> string)
    requires UniqueEmails(users)
    ensures UniqueEmails(RegisterUser(users, email, password, id, now, hash).users)
  {
    var r := RegisterUser(users, email, password, id, now, hash);
    if r.user.Some? {
      forall i, j | 0 <= i < j < |r.users| ensures r.users[i].email != r.users[j].email {
        if j == |users| {
          assert r.users[i] in users;
        }
      }
    }
  }

  /** Once registered, the user logs in with the same password, given a
      verifier that accepts a password against its own hash; a second
      registration with the same email is refused. */
  lemma {:induction false} RegisterThenLogin(users: seq<UserRow>, email: string, password: string, id: string, now: int,
                                             hash: string -> string, verify: (string, string) -> bool,
                                             id2: string, password2: string)
    requires forall p :: verify(p, hash(p))
    requires RegisterUser(users, email, password, id, now, hash).user.Some?
    ensures var r := RegisterUser(users, email, password, id, now, hash);
      && AuthenticateUser(r.users, email, password, verify) == r.user
      && RegisterUser(r.users, email, password2, id2, now, hash).user.None?
  {
    var r := RegisterUser(users, email, password, id, now, hash);
    assert EmailIndex(r.users, email) == |users| by {
      assert r.users[|users|].email == email;
      assert forall i :: 0 <= i < |users| ==> r.users[i] == users[i];
    }
    assert r.user.value in r.users;
  }
}

=== FILE: src_task_routes.dfy ===
/**
  The `/tasks` routes of the `src` web backend
  (backend/src/api/routes/tasks.py): query and body validation, the
  route-level status checks, the mapping of a missing task to 404, and
  the bulk update loop. The signed-in user's id is a parameter
  (`get_current_user` is not part of this model).
 */
module SrcTaskRoutes {
  import opened Common
  import opened Seqs
  import opened Http
  import opened SrcTaskSchemas
  import opened SrcTaskService

  const StatusMessage: string := "Status must be 'complete' or 'incomplete'"
  const NotFoundMessage: string := "Task not found or does not belong to user"
  const InvalidStatusMessage: string := "Invalid status value"

  /** The columns the `sort_by` query parameter may name. */
  const SortColumns: seq<string> := ["created_at", "updated_at", "title", "status", "priority"]

  datatype Pagination = Pagination(total: nat, limit: nat, offset: nat, hasMore: bool)
  datatype TaskList = TaskList(tasks: seq<TaskRow>, pagination: Pagination)

  /** One entry of `failed_updates`. */
  datatype BulkFailure = BulkFailure(taskId: string, error: string)
  datatype BulkResult = BulkResult(updatedCount: nat, failedUpdates: seq<BulkFailure>)

  /** The table after a route ran, and its response. */
  datatype Handled<+T> = Handled(table: seq<TaskRow>, response: Response<T>)

  /** The route-level status test: a non-empty status outside the enum. */
  predicate BadStatusFilter(status: Option<string>) {
    SomeTruthy(status) && status.value !in Statuses
  }

  /** The `Query(...)` constraints of `GET /tasks/`. */
  predicate ValidQuery(limit: int, offset: int, sortBy: string, order: string) {
    1 <= limit <= 100 && 0 <= offset && sortBy in SortColumns && order in ["asc", "desc"]
  }

  /** `GET /tasks/`: 422 for a query outside its constraints, 400 for an
      unknown status filter, otherwise the service's page with a
      `has_more` flag that is set exactly when matching tasks remain after
      this page. */
  function GetTasks(table: seq<TaskRow>, userId: string, status: Option<string>, limit: int, offset: int,
                    sortBy: string, order: string, textLe: (string, string) -> bool,
                    priorityLe: (Option<string>, Option<string>) -> bool): (r: Response<TaskList>)
    ensures !ValidQuery(limit, offset, sortBy, order) ==> r == Error(Unprocessable, ValidationDetail)
    ensures ValidQuery(limit, offset, sortBy, order) && BadStatusFilter(status) ==> r == Error(BadRequest, StatusMessage)
    ensures r.Ok? <==> ValidQuery(limit, offset, sortBy, order) && !BadStatusFilter(status)
    ensures r.Ok? ==>
      var l := SrcTaskService.GetTasks(table, userId, status, limit, offset, sortBy, order, textLe, priorityLe);
      && r.body.tasks == l.rows
      && r.body.pagination.total == l.total == |Matching(table, userId, status)|
      && (r.body.pagination.hasMore <==> offset + |r.body.tasks| < r.body.pagination.total)
      && |r.body.tasks| <= limit
  {
    if !ValidQuery(limit, offset, sortBy, order) then Error(Unprocessable, ValidationDetail)
    else if BadStatusFilter(status) then Error(BadRequest, StatusMessage)
    else
      var l := SrcTaskService.GetTasks(table, userId, status, limit, offset, sortBy, order, textLe, priorityLe);
      Ok(TaskList(l.rows, Pagination(l.total, limit, offset, offset + limit < l.total)))
  }

  /** `POST /tasks/`: 422 when the body fails `TaskCreate`, otherwise a new
      row. The route's own status test can never fire on a validated body,
      so this route never answers 400. */
  function CreateTask(table: seq<TaskRow>, body: TaskCreateInput, userId: string, id: string, now: int): (r: Handled<TaskRow>)
    ensures r.response.Ok? <==> ValidateCreate(body).Valid?
    ensures r.response.Error? ==> r == Handled(table, Error(Unprocessable, ValidationDetail))
    ensures r.response.Ok? ==>
      (r.table == table + [r.response.body] && r.response.body.userId == userId && r.response.body.status in Statuses)
    ensures r.response.Ok? ==>
      var w := SrcTaskService.CreateTask(table, ValidateCreate(body).value, userId, id, now);
      r.table == w.table && r.response.body == w.row.value
  {
    match ValidateCreate(body)
    case Invalid(_) => Handled(table, Error(Unprocessable, ValidationDetail))
    case Valid(data) =>
      if BadStatusFilter(data.status) then Handled(table, Error(BadRequest, StatusMessage))
      else
        var w := SrcTaskService.CreateTask(table, data, userId, id, now);
        Handled(w.table, Ok(w.row.value))
  }

  /** `GET /tasks/{task_id}`: the user's task, or 404. */
  function GetTask(table: seq<TaskRow>, id: string, userId: string): (r: Response<TaskRow>)
    ensures r.Error? <==> forall x :: x in table ==> !IsRow(x, id, userId)
    ensures r.Error? ==> r == Error(NotFound, NotFoundMessage)
    ensures r.Ok? ==> r.body in table && r.body.id == id && r.body.userId == userId
  {
    match SrcTaskService.GetTask(table, id, userId)
    case None => Error(NotFound, NotFoundMessage)
    case Some(x) => Ok(x)
  }

  /** `PUT /tasks/{task_id}`: 422 for a body that fails `TaskUpdate`, 404
      with no change when the user has no such task, otherwise the updated
      row; never 400. */
  function UpdateTask(table: seq<TaskRow>, id: string, body: TaskUpdate, userId: string, now: int): (r: Handled<TaskRow>)
    ensures ValidateUpdate(body).Invalid? ==> r == Handled(table, Error(Unprocessable, ValidationDetail))
    ensures ValidateUpdate(body).Valid? && SrcTaskService.GetTask(table, id, userId).None? ==>
      r == Handled(table, Error(NotFound, NotFoundMessage))
    ensures r.response.Ok? <==> ValidateUpdate(body).Valid? && SrcTaskService.GetTask(table, id, userId).Some?
    ensures r.response.Ok? ==>
      var w := SrcTaskService.UpdateTask(table, id, body, userId, now);
      r.table == w.table && r.response.body == w.row.value
  {
    match ValidateUpdate(body)
    case Invalid(_) => Handled(table, Error(Unprocessable, ValidationDetail))
    case Valid(data) =>
      if BadStatusFilter(data.status) then Handled(table, Error(BadRequest, StatusMessage))
      else
        var w := SrcTaskService.UpdateTask(table, id, data, userId, now);
        if w.row.None? then Handled(table, Error(NotFound, NotFoundMessage))
        else Handled(w.table, Ok(w.row.value))
  }

  /** `DELETE /tasks/{task_id}`: 404 with no change, or the row removed. */
  function DeleteTask(table: seq<TaskRow>, id: string, userId: string): (r: Handled<()>)
    ensures r.response.Error? <==> SrcTaskService.GetTask(table, id, userId).None?
    ensures r.response.Error? ==> r == Handled(table, Error(NotFound, NotFoundMessage))
    ensures r.response.Ok? ==> |r.table| == |table| - 1
    ensures r.response.Ok? ==> r.table == SrcTaskService.DeleteTask(table, id, userId).table
  {
    var d := SrcTaskService.DeleteTask(table, id, userId);
    if d.deleted then Handled(d.table, Ok(())) else Handled(table, Error(NotFound, NotFoundMessage))
  }

  /** `PATCH /tasks/{task_id}/status`: 422 unless the body's status is one
      of the two values, 404 with no change for a missing task; never 400. */
  function UpdateTaskStatus(table: seq<TaskRow>, id: string, status: Option<string>, userId: string, now: int): (r: Handled<TaskRow>)
    ensures status.None? || status.value !in Statuses ==> r == Handled(table, Error(Unprocessable, ValidationDetail))
    ensures r.response.Ok? <==> status.Some? && status.value in Statuses && SrcTaskService.GetTask(table, id, userId).Some?
    ensures r.response.Error? ==> r.table == table && r.response.status != BadRequest
    ensures r.response.Ok? ==> r.response.body.status == status.value && r.response.body.id == id
    ensures status.Some? && status.value in Statuses && SrcTaskService.GetTask(table, id, userId).None? ==>
      r == Handled(table, Error(NotFound, NotFoundMessage))
    ensures r.response.Ok? ==>
      var w := SrcTaskService.UpdateTaskStatus(table, id, status.value, userId, now);
      r.table == w.table && r.response.body == w.row.value
  {
    match ValidateStatusUpdate(status)
    case Invalid(_) => Handled(table, Error(Unprocessable, ValidationDetail))
    case Valid(s) =>
      if s !in Statuses then Handled(table, Error(BadRequest, StatusMessage))
      else
        var w := SrcTaskService.UpdateTaskStatus(table, id, s, userId, now);
        if w.row.None? then Handled(table, Error(NotFound, NotFoundMessage))
        else Handled(w.table, Ok(w.row.value))
  }

  /** A task the route creates under a fresh id is what `GET /tasks/{id}`
      then returns to its owner. */
  lemma CreateThenGet(table: seq<TaskRow>, body: TaskCreateInput, userId: string, id: string, now: int)
    requires forall x :: x in table ==> x.id != id
    ensures var r := CreateTask(table, body, userId, id, now);
      r.response.Ok? ==> GetTask(r.table, id, userId) == Ok(r.response.body)
  {
    if ValidateCreate(body).Valid? {
      SrcTaskService.CreateThenGet(table, ValidateCreate(body).value, userId, id, now, userId);
    }
  }

  /** After a successful status change, `GET /tasks/{id}` returns the row
      the route answered with, carrying the new status. */
  lemma UpdateStatusThenGet(table: seq<TaskRow>, id: string, status: Option<string>, userId: string, now: int)
    ensures var r := UpdateTaskStatus(table, id, status, userId, now);
      r.response.Ok? ==> GetTask(r.table, id, userId) == Ok(r.response.body) && r.response.body.status == status.value
  {
    var r := UpdateTaskStatus(table, id, status, userId, now);
    if r.response.Ok? {
      var i := RowIndex(table, id, userId);
      assert IsRow(r.table[i], id, userId);
      assert forall j :: 0 <= j < i ==> r.table[j] == table[j];
      assert RowIndex(r.table, id, userId) == i;
    }
  }

  // ---------------------------------------------------------------------
  // Bulk update
  // ---------------------------------------------------------------------

  /** An update by the user never changes which (id, owner) pairs exist. */
  lemma UpdateKeepsPresence(table: seq<TaskRow>, id: string, u: TaskUpdate, userId: string, now: int, other: string)
    ensures SrcTaskService.GetTask(SrcTaskService.UpdateTask(table, id, u, userId, now).table, other, userId).Some?
        <==> SrcTaskService.GetTask(table, other, userId).Some?
  {
    var w := SrcTaskService.UpdateTask(table, id, u, userId, now);
    assert forall j :: 0 <= j < |table| ==> (IsRow(w.table[j], other, userId) <==> IsRow(table[j], other, userId));
    if SrcTaskService.GetTask(table, other, userId).Some? {
      var j :| 0 <= j < |table| && IsRow(table[j], other, userId);
      assert w.table[j] in w.table;
    }
    if SrcTaskService.GetTask(w.table, other, userId).Some? {
      var j :| 0 <= j < |w.table| && IsRow(w.table[j], other, userId);
      assert table[j] in table;
    }
  }

  /** The ids for which the user has no task. */
  function Missing(table: seq<TaskRow>, ids: seq<string>, userId: string): (r: seq<string>)
    ensures forall x :: x in r <==> x in ids && SrcTaskService.GetTask(table, x, userId).None?
  {
    Filter(ids, (x: string) => SrcTaskService.GetTask(table, x, userId).None?)
  }

  /** One `failed_updates` entry per id, in order, with the same error. */
  function Failures(ids: seq<string>, error: string): (r: seq<BulkFailure>)
    ensures |r| == |ids|
    ensures forall i :: 0 <= i < |ids| ==> r[i] == BulkFailure(ids[i], error)
  {
    if ids == [] then [] else [BulkFailure(ids[0], error)] + Failures(ids[1..], error)
  }

  /** The bulk loop over a validated update: each id is updated in turn,
      the ones that succeed are counted and the others reported. */
  function BulkApply(table: seq<TaskRow>, ids: seq<string>, u: TaskUpdate, userId: string, now: int): (r: (seq<TaskRow>, BulkResult))
    ensures |r.0| == |table|
    decreases |ids|
  {
    if ids == [] then (table, BulkResult(0, []))
    else
      var w := SrcTaskService.UpdateTask(table, ids[0], u, userId, now);
      var rest := BulkApply(w.table, ids[1..], u, userId, now);
      if w.row.Some? then (rest.0, BulkResult(rest.1.updatedCount + 1, rest.1.failedUpdates))
      else (rest.0, BulkResult(rest.1.updatedCount, [BulkFailure(ids[0], NotFoundMessage)] + rest.1.failedUpdates))
  }

  /** The bulk loop reports, in order, exactly the ids the user has no task
      for, and counts every other id as updated. */
  lemma {:induction false} BulkApplyReports(table: seq<TaskRow>, ids: seq<string>, u: TaskUpdate, userId: string, now: int)
    ensures var r := BulkApply(table, ids, u, userId, now);
      && r.1.failedUpdates == Failures(Missing(table, ids, userId), NotFoundMessage)
      && r.1.updatedCount + |r.1.failedUpdates| == |ids|
    decreases |ids|
  {
    if ids != [] {
      var w := SrcTaskService.UpdateTask(table, ids[0], u, userId, now);
      BulkApplyReports(w.table, ids[1..], u, userId, now);
      UpdateKeepsPresence(table, ids[0], u, userId, now, ids[0]);
      MissingAfterUpdate(table, ids[0], ids[1..], u, userId, now);
      assert ids == [ids[0]] + ids[1..];
      if w.row.None? {
        assert Missing(table, ids, userId) == [ids[0]] + Missing(table, ids[1..], userId);
      } else {
        assert Missing(table, ids, userId) == Missing(table, ids[1..], userId);
      }
    }
  }

  /** The bulk loop never changes a row another user owns. */
  lemma {:induction false} BulkApplyKeepsOthers(table: seq<TaskRow>, ids: seq<string>, u: TaskUpdate, userId: string, now: int)
    ensures var t := BulkApply(table, ids, u, userId, now).0;
      forall j :: 0 <= j < |table| && table[j].userId != userId ==> t[j] == table[j]
    decreases |ids|
  {
    if ids != [] {
      var w := SrcTaskService.UpdateTask(table, ids[0], u, userId, now);
      BulkApplyKeepsOthers(w.table, ids[1..], u, userId, now);
      WritesStayWithOwner(table, ids[0], u, "", userId, now);
    }
  }

  /** Updating one task leaves the missing ids of any list unchanged. */
  lemma {:induction false} MissingAfterUpdate(table: seq<TaskRow>, id: string, ids: seq<string>, u: TaskUpdate,
                                              userId: string, now: int)
    ensures Missing(SrcTaskService.UpdateTask(table, id, u, userId, now).table, ids, userId) == Missing(table, ids, userId)
  {
    if ids != [] {
      UpdateKeepsPresence(table, id, u, userId, now, ids[0]);
      MissingAfterUpdate(table, id, ids[1..], u, userId, now);
    }
  }

  /** `POST /tasks/bulk-update` as written: `TaskUpdate(**updates)` is
      built inside the loop, so an invalid payload raises pydantic's
      ValidationError (a 500) on the first id, before the route's own
      "Invalid status value" test can run; with no ids nothing raises. */
  function BulkUpdateAsWritten(table: seq<TaskRow>, ids: seq<string>, updates: TaskUpdate, userId: string, now: int)
    : (r: Handled<BulkResult>)
    ensures ids != [] && ValidateUpdate(updates).Invalid? ==> r == Handled(table, Error(ServerError, ServerErrorDetail))
    ensures r.response.Ok? ==> forall f :: f in r.response.body.failedUpdates ==> f.error != InvalidStatusMessage
  {
    if ids == [] then Handled(table, Ok(BulkResult(0, [])))
    else
      match ValidateUpdate(updates)
      case Invalid(_) => Handled(table, Error(ServerError, ServerErrorDetail))
      case Valid(u) =>
        var b := BulkApply(table, ids, u, userId, now);
        BulkApplyReports(table, ids, u, userId, now);
        Handled(b.0, Ok(b.1))
  }

  /** A single id with an unknown status: the route crashes instead of
      reporting the id as failed. */
  lemma InvalidStatusCrashes(table: seq<TaskRow>, userId: string, now: int)
    ensures var u := TaskUpdate(None, None, Some("done"), None, None, None);
      BulkUpdateAsWritten(table, ["t"], u, userId, now).response == Error(ServerError, ServerErrorDetail)
  {
    var u := TaskUpdate(None, None, Some("done"), None, None, None);
    assert ValidateUpdate(u).Invalid? by {
      assert "done" != Statuses[0] && "done" != Statuses[1];
    }
  }

  /** `POST /tasks/bulk-update` with the status tested on the raw payload
      before it is validated, as the route's test evidently intends: an
      unknown status reports every id as failed with "Invalid status
      value" and changes nothing. Other invalid payloads still raise, as in
      the source; a valid one is applied id by id. */
  method BulkUpdate(table: seq<TaskRow>, ids: seq<string>, updates: TaskUpdate, userId: string, now: int)
    returns (r: Handled<BulkResult>)
    ensures BadStatusFilter(updates.status) ==>
      r == Handled(table, Ok(BulkResult(0, Failures(ids, InvalidStatusMessage))))
    ensures !BadStatusFilter(updates.status) ==> r == BulkUpdateAsWritten(table, ids, updates, userId, now)
  {
    if BadStatusFilter(updates.status) {
      var failed := FailAll(ids, InvalidStatusMessage);
      return Handled(table, Ok(BulkResult(0, failed)));
    }
    if ids == [] {
      return Handled(table, Ok(BulkResult(0, [])));
    }
    var v := ValidateUpdate(updates);
    if v.Invalid? {
      return Handled(table, Error(ServerError, ServerErrorDetail));
    }
    var t, result := ApplyAll(table, ids, v.value, userId, now);
    return Handled(t, Ok(result));
  }

  /** The failure list built one id at a time. */
  method FailAll(ids: seq<string>, error: string) returns (failed: seq<BulkFailure>)
    ensures |failed| == |ids|
    ensures forall i :: 0 <= i < |ids| ==> failed[i] == BulkFailure(ids[i], error)
    ensures failed == Failures(ids, error)
  {
    failed := [];
    for k := 0 to |ids|
      invariant failed == Failures(ids[..k], error)
    {
      FailuresAppend(ids[..k], ids[k], error);
      assert ids[..k + 1] == ids[..k] + [ids[k]];
      failed := failed + [BulkFailure(ids[k], error)];
    }
    assert ids[..|ids|] == ids;
  }

  /** The bulk loop of the route, updating the table id by id and
      counting: the same table and result as `BulkApply`. */
  method ApplyAll(table: seq<TaskRow>, ids: seq<string>, u: TaskUpdate, userId: string, now: int)
    returns (t: seq<TaskRow>, result: BulkResult)
    ensures (t, result) == BulkApply(table, ids, u, userId, now)
  {
    ghost var goal := BulkApply(table, ids, u, userId, now);
    t := table;
    var updated: nat := 0;
    var failed: seq<BulkFailure> := [];
    for k := 0 to |ids|
      invariant var rest := BulkApply(t, ids[k..], u, userId, now);
        && rest.0 == goal.0
        && updated + rest.1.updatedCount == goal.1.updatedCount
        && failed + rest.1.failedUpdates == goal.1.failedUpdates
    {
      BulkApplyUnfold(t, ids[k..], u, userId, now);
      assert ids[k..][0] == ids[k] && ids[k..][1..] == ids[k + 1..];
      var w := SrcTaskService.UpdateTask(t, ids[k], u, userId, now);
      if w.row.Some? {
        updated := updated + 1;
      } else {
        failed := failed + [BulkFailure(ids[k], NotFoundMessage)];
      }
      t := w.table;
    }
    assert ids[|ids|..] == [];
    assert BulkApply(t, [], u, userId, now) == (t, BulkResult(0, []));
    assert failed + [] == failed;
    result := BulkResult(updated, failed);
    assert t == goal.0 && result == goal.1;
  }

  /** One step of the bulk loop. */
  lemma BulkApplyUnfold(t: seq<TaskRow>, ids: seq<string>, u: TaskUpdate, userId: string, now: int)
    requires ids != []
    ensures var w := SrcTaskService.UpdateTask(t, ids[0], u, userId, now);
      var rest := BulkApply(w.table, ids[1..], u, userId, now);
      var b := BulkApply(t, ids, u, userId, now);
      && b.0 == rest.0
      && b.1.updatedCount == rest.1.updatedCount + (if w.row.Some? then 1 else 0)
      && b.1.failedUpdates == (if w.row.Some? then [] else [BulkFailure(ids[0], NotFoundMessage)]) + rest.1.failedUpdates
  {
  }

  lemma {:induction false} FailuresAppend(ids: seq<string>, id: string, error: string)
    ensures Failures(ids + [id], error) == Failures(ids, error) + [BulkFailure(id, error)]
  {
    if ids != [] {
      assert (ids + [id])[1..] == ids[1..] + [id];
      FailuresAppend(ids[1..], id, error);
    }
  }
}

=== FILE: src_task_schemas.dfy ===
/**
  Request validation of the `src` web backend (backend/src/schemas/task.py):
  the pydantic field constraints and validators of `TaskCreate`,
  `TaskUpdate` and `TaskStatusUpdate`. Pydantic checks every field and
  reports one error per failing field, in declaration order; the model
  keeps the kind of each error rather than its wording. Dates are clock
  readings; parsing them is not modelled.
 */
module SrcTaskSchemas {
  import opened Common

  const Statuses: seq<string> := ["incomplete", "complete"]
  const Priorities: seq<string> := ["low", "medium", "high"]
  const MaxTitle: nat := 255

  datatype ErrorKind = TooShort | TooLong | Blank | BadStatus | BadPriority | Missing

  datatype FieldError = FieldError(field: string, kind: ErrorKind)

  /** A model instance, or pydantic's ValidationError with its errors. */
  datatype Validated<+T> = Valid(value: T) | Invalid(errors: seq<FieldError>)

  /** The `TaskCreate` request body; keys that were not sent are Unset. */
  datatype TaskCreateInput = TaskCreateInput(
    title: string,
    description: Option<string>,
    status: Field<Option<string>>,
    priority: Field<Option<string>>,
    dueDate: Option<int>,
    reminderDate: Option<int>)

  /** A validated `TaskCreate`. */
  datatype TaskCreate = TaskCreate(
    title: string,
    description: Option<string>,
    status: Option<string>,
    priority: Option<string>,
    dueDate: Option<int>,
    reminderDate: Option<int>)

  /** `TaskUpdate`: every field optional, defaulting to None, so a key left
      out and a key sent as null are the same. */
  datatype TaskUpdate = TaskUpdate(
    title: Option<string>,
    description: Option<string>,
    status: Option<string>,
    priority: Option<string>,
    dueDate: Option<int>,
    reminderDate: Option<int>)

  /** The checks on a title: 1 to 255 characters (`min_length`,
      `max_length`), and then not whitespace only. */
  function TitleCheck(t: string): (r: Option<ErrorKind>)
    ensures r.None? <==> 1 <= |t| <= MaxTitle && !AllSpace(t)
    ensures r == Some(Blank) <==> 1 <= |t| <= MaxTitle && AllSpace(t)
    ensures r == Some(TooShort) <==> |t| == 0
    ensures r == Some(TooLong) <==> |t| > MaxTitle
  {
    BlankIffAllSpace(t);
    if |t| < 1 then Some(TooShort)
    else if |t| > MaxTitle then Some(TooLong)
    else if IsBlank(t) then Some(Blank)
    else None
  }

  /** An optional value restricted to a fixed set: None passes. */
  function ChoiceCheck(v: Option<string>, options: seq<string>, kind: ErrorKind): (r: Option<ErrorKind>)
    ensures r.None? <==> v.None? || v.value in options
    ensures r.Some? ==> r.value == kind
  {
    if v.Some? && v.value !in options then Some(kind) else None
  }

  function Report(field: string, c: Option<ErrorKind>): (r: seq<FieldError>)
    ensures forall e :: e in r <==> c.Some? && e == FieldError(field, c.value)
  {
    if c.Some? then [FieldError(field, c.value)] else []
  }

  /** Three fields' reports side by side: each field's error appears
      exactly when its check failed, and the list is empty only when all
      passed. */
  lemma ReportsJoin(f1: string, c1: Option<ErrorKind>, f2: string, c2: Option<ErrorKind>,
                    f3: string, c3: Option<ErrorKind>)
    requires f1 != f2 && f2 != f3 && f1 != f3
    ensures var e := Report(f1, c1) + Report(f2, c2) + Report(f3, c3);
      && (e == [] <==> c1.None? && c2.None? && c3.None?)
      && (forall k :: FieldError(f1, k) in e <==> c1 == Some(k))
      && (forall k :: FieldError(f2, k) in e <==> c2 == Some(k))
      && (forall k :: FieldError(f3, k) in e <==> c3 == Some(k))
  {
  }

  /** A field's value after its default: Unset takes the default, a sent
      value (even null) is kept. */
  function WithDefault(f: Field<Option<string>>, default: string): (r: Option<string>)
    ensures f.Unset? ==> r == Some(default)
    ensures f.Set? ==> r == f.value
  {
    if f.Unset? then Some(default) else f.value
  }

  /** `TaskCreate(**body)`. Valid exactly when the title passes its checks
      and status and priority are None or allowed values; the title is kept
      untrimmed and missing status/priority take "incomplete"/"medium". An
      invalid body reports each failing field once, with its kind. */
  function ValidateCreate(input: TaskCreateInput): (r: Validated<TaskCreate>)
    ensures r.Valid? <==>
      && TitleCheck(input.title).None?
      && (WithDefault(input.status, "incomplete").None? || WithDefault(input.status, "incomplete").value in Statuses)
      && (WithDefault(input.priority, "medium").None? || WithDefault(input.priority, "medium").value in Priorities)
    ensures r.Valid? ==>
      && r.value.title == input.title
      && r.value.status == WithDefault(input.status, "incomplete")
      && r.value.priority == WithDefault(input.priority, "medium")
      && r.value.description == input.description
      && r.value.dueDate == input.dueDate && r.value.reminderDate == input.reminderDate
    ensures r.Invalid? ==>
      && |r.errors| > 0
      && (forall k :: FieldError("title", k) in r.errors <==> TitleCheck(input.title) == Some(k))
      && (FieldError("status", BadStatus) in r.errors <==>
            WithDefault(input.status, "incomplete").Some? && WithDefault(input.status, "incomplete").value !in Statuses)
      && (FieldError("priority", BadPriority) in r.errors <==>
            WithDefault(input.priority, "medium").Some? && WithDefault(input.priority, "medium").value !in Priorities)
  {
    var status := WithDefault(input.status, "incomplete");
    var priority := WithDefault(input.priority, "medium");
    var errors := Report("title", TitleCheck(input.title))
                  + Report("status", ChoiceCheck(status, Statuses, BadStatus))
                  + Report("priority", ChoiceCheck(priority, Priorities, BadPriority));
    ReportsJoin("title", TitleCheck(input.title), "status", ChoiceCheck(status, Statuses, BadStatus),
                "priority", ChoiceCheck(priority, Priorities, BadPriority));
    if errors == [] then
      Valid(TaskCreate(input.title, input.description, status, priority, input.dueDate, input.reminderDate))
    else
      Invalid(errors)
  }

  /** A validated update keeps only allowed values. */
  ghost predicate WellFormedUpdate(u: TaskUpdate) {
    && (u.title.None? || TitleCheck(u.title.value).None?)
    && (u.status.None? || u.status.value in Statuses)
    && (u.priority.None? || u.priority.value in Priorities)
  }

  /** `TaskUpdate(**body)`: every field optional; a given title obeys the
      same rules as on creation, status and priority the same sets. */
  function ValidateUpdate(u: TaskUpdate): (r: Validated<TaskUpdate>)
    ensures r.Valid? <==> WellFormedUpdate(u)
    ensures r.Valid? ==> r.value == u
    ensures r.Invalid? ==>
      && |r.errors| > 0
      && (forall k :: FieldError("title", k) in r.errors <==> u.title.Some? && TitleCheck(u.title.value) == Some(k))
      && (FieldError("status", BadStatus) in r.errors <==> u.status.Some? && u.status.value !in Statuses)
      && (FieldError("priority", BadPriority) in r.errors <==> u.priority.Some? && u.priority.value !in Priorities)
  {
    var titleCheck := if u.title.Some? then TitleCheck(u.title.value) else None;
    var errors := Report("title", titleCheck)
                  + Report("status", ChoiceCheck(u.status, Statuses, BadStatus))
                  + Report("priority", ChoiceCheck(u.priority, Priorities, BadPriority));
    ReportsJoin("title", titleCheck, "status", ChoiceCheck(u.status, Statuses, BadStatus),
                "priority", ChoiceCheck(u.priority, Priorities, BadPriority));
    if errors == [] then Valid(u) else Invalid(errors)
  }

  /** `TaskStatusUpdate(**body)`: the status is mandatory and must be one of
      the two values. */
  function ValidateStatusUpdate(status: Option<string>): (r: Validated<string>)
    ensures r.Valid? <==> status.Some? && status.value in Statuses
    ensures r.Valid? ==> r.value == status.value
    ensures status.None? ==> r == Invalid([FieldError("status", Missing)])
    ensures status.Some? && status.value !in Statuses ==> r == Invalid([FieldError("status", BadStatus)])
  {
    if status.None? then Invalid([FieldError("status", Missing)])
    else if status.value !in Statuses then Invalid([FieldError("status", BadStatus)])
    else Valid(status.value)
  }

  /** Boundary cases of the title rule that pass: one non-space character,
      255 of them, and one surrounded by spaces (kept as sent). */
  lemma TitleAcceptsShortest(c: char)
    requires !IsSpace(c)
    ensures TitleCheck([c]).None?
  {
    Accepted([c], 0);
  }

  lemma TitleAcceptsLongest(c: char)
    requires !IsSpace(c)
    ensures TitleCheck(seq(255, _ => c)).None?
  {
    Accepted(seq(255, _ => c), 0);
  }

  lemma TitleAcceptsPadded(c: char)
    requires !IsSpace(c)
    ensures TitleCheck(" " + [c] + " ").None?
  {
    Accepted(" " + [c] + " ", 1);
  }

  /** A title of allowed length with a non-space character passes. */
  lemma Accepted(t: string, k: nat)
    requires 1 <= |t| <= MaxTitle && k < |t| && !IsSpace(t[k])
    ensures TitleCheck(t).None?
  {
  }

  /** Boundary cases that fail: the empty title is too short, a lone space
      is blank, 256 characters are too long. */
  lemma TitleRejectsBoundaries(c: char)
    ensures TitleCheck("") == Some(TooShort)
    ensures TitleCheck(" ") == Some(Blank)
    ensures TitleCheck(seq(256, _ => c)) == Some(TooLong)
  {
    assert IsSpace(" "[0]);
  }
}

=== FILE: src_task_service.dfy ===
/**
  The database task service of the `src` web backend
  (backend/src/services/task_service.py), over an abstract `tasks` table:
  a sequence of rows, where a query's `.first()` is the first matching row.
  `ORDER BY` on a text or enum column uses the database's ordering, which
  is a parameter; ties keep table order. `func.now()` is the parameter
  `now`.
 */
module SrcTaskService {
  import opened Common
  import opened Seqs
  import opened SrcTaskSchemas

  /** A row of the `tasks` table. `status` is the enum column
      ('incomplete' | 'complete'); `priority` is nullable. */
  datatype TaskRow = TaskRow(
    id: string,
    userId: string,
    title: string,
    description: Option<string>,
    status: string,
    priority: Option<string>,
    dueDate: Option<int>,
    reminderDate: Option<int>,
    createdAt: int,
    updatedAt: int)

  datatype SortField = CreatedAt | UpdatedAt | TitleField | StatusField | PriorityField

  /** `get_tasks`' result: one page and the number of matching rows. */
  datatype Listing = Listing(rows: seq<TaskRow>, total: nat)

  /** A table after a write, and what the method returned. */
  datatype Written = Written(table: seq<TaskRow>, row: Option<TaskRow>)
  datatype Deleted = Deleted(table: seq<TaskRow>, deleted: bool)

  /** `get_user_stats`' dictionary. */
  datatype Stats = Stats(total: nat, completed: nat, incomplete: int, byPriority: map<Option<string>, nat>)

  /** The column `sort_by` names; anything else sorts by `created_at`. */
  function SortFieldOf(sortBy: string): (r: SortField)
    ensures sortBy == "updated_at" <==> r == UpdatedAt
    ensures sortBy == "title" <==> r == TitleField
    ensures sortBy == "status" <==> r == StatusField
    ensures sortBy == "priority" <==> r == PriorityField
  {
    if sortBy == "updated_at" then UpdatedAt
    else if sortBy == "title" then TitleField
    else if sortBy == "status" then StatusField
    else if sortBy == "priority" then PriorityField
    else CreatedAt
  }

  /** Ascending order on one column; `textLe` is the database's ordering of
      text values and `priorityLe` of the nullable priority enum. */
  function Ascending(f: SortField, textLe: (string, string) -> bool,
                     priorityLe: (Option<string>, Option<string>) -> bool): (TaskRow, TaskRow) -> bool
  {
    (a: TaskRow, b: TaskRow) =>
      match f
      case CreatedAt => a.createdAt <= b.createdAt
      case UpdatedAt => a.updatedAt <= b.updatedAt
      case TitleField => textLe(a.title, b.title)
      case StatusField => textLe(a.status, b.status)
      case PriorityField => priorityLe(a.priority, b.priority)
  }

  /** The comparator `get_tasks` sorts by: ascending only for "asc", any
      other `order` descending. */
  function Comparator(sortBy: string, order: string, textLe: (string, string) -> bool,
                      priorityLe: (Option<string>, Option<string>) -> bool): (TaskRow, TaskRow) -> bool
  {
    var asc := Ascending(SortFieldOf(sortBy), textLe, priorityLe);
    if order == "asc" then asc else (a: TaskRow, b: TaskRow) => asc(b, a)
  }

  /** Only "asc" sorts ascending; "desc" and any other order reverse it. An
      unknown `sort_by` orders by creation time. */
  lemma ComparatorMeaning(sortBy: string, order: string, textLe: (string, string) -> bool,
                          priorityLe: (Option<string>, Option<string>) -> bool, a: TaskRow, b: TaskRow)
    ensures order != "asc" ==>
      (Comparator(sortBy, order, textLe, priorityLe)(a, b) <==> Comparator(sortBy, "asc", textLe, priorityLe)(b, a))
    ensures sortBy !in {"created_at", "updated_at", "title", "status", "priority"} ==>
      (Comparator(sortBy, "asc", textLe, priorityLe)(a, b) <==> a.createdAt <= b.createdAt)
  {
  }

  /** The rows `get_tasks` counts: the user's, and when a non-empty status
      is given, only those with that status. */
  function Matching(table: seq<TaskRow>, userId: string, status: Option<string>): (r: seq<TaskRow>)
    ensures forall x :: x in r <==> x in table && x.userId == userId && (SomeTruthy(status) ==> x.status == status.value)
    ensures |r| <= |table|
  {
    Filter(table, (x: TaskRow) => x.userId == userId && (SomeTruthy(status) ==> x.status == status.value))
  }

  /** The matching rows in query order: a permutation of them, sorted
      whenever the comparator is a total preorder. */
  function Ordered(table: seq<TaskRow>, userId: string, status: Option<string>, sortBy: string, order: string,
                   textLe: (string, string) -> bool, priorityLe: (Option<string>, Option<string>) -> bool): (r: seq<TaskRow>)
    ensures multiset(r) == multiset(Matching(table, userId, status))
    ensures |r| == |Matching(table, userId, status)|
    ensures TotalPreorder(Comparator(sortBy, order, textLe, priorityLe)) ==>
      Sorted(r, Comparator(sortBy, order, textLe, priorityLe))
  {
    SortBy(Matching(table, userId, status), Comparator(sortBy, order, textLe, priorityLe))
  }

  /** `get_tasks`: the total counts every matching row, before pagination;
      the page holds the ordered rows from `offset` on, at most `limit` of
      them, each owned by the user. */
  function GetTasks(table: seq<TaskRow>, userId: string, status: Option<string>, limit: nat, offset: nat,
                    sortBy: string, order: string, textLe: (string, string) -> bool,
                    priorityLe: (Option<string>, Option<string>) -> bool): (r: Listing)
    ensures r.total == |Matching(table, userId, status)|
    ensures |r.rows| == Min(limit, Max(0, r.total - offset))
    ensures forall i :: 0 <= i < |r.rows| ==>
      r.rows[i] == Ordered(table, userId, status, sortBy, order, textLe, priorityLe)[offset + i]
    ensures forall x :: x in r.rows ==>
      (x in table && x.userId == userId && (SomeTruthy(status) ==> x.status == status.value))
  {
    var m := Matching(table, userId, status);
    var ordered := Ordered(table, userId, status, sortBy, order, textLe, priorityLe);
    var page := Page(ordered, offset, limit);
    assert forall x :: x in page ==> x in m by {
      forall x | x in page ensures x in m {
        var i :| 0 <= i < |page| && page[i] == x;
        assert ordered[offset + i] == x;
        assert x in multiset(ordered);
      }
    }
    Listing(page, |ordered|)
  }

  /** The row `id` of `userId`: both must match. */
  predicate IsRow(x: TaskRow, id: string, userId: string) {
    x.id == id && x.userId == userId
  }

  /** Index of the user's row `id`, or -1. */
  function RowIndex(table: seq<TaskRow>, id: string, userId: string): (r: int)
    ensures -1 <= r < |table|
    ensures r == -1 <==> forall i :: 0 <= i < |table| ==> !IsRow(table[i], id, userId)
    ensures r >= 0 ==> IsRow(table[r], id, userId) && forall i :: 0 <= i < r ==> !IsRow(table[i], id, userId)
  {
    FirstIndex(table, (x: TaskRow) => IsRow(x, id, userId))
  }

  /** `get_task`: the row with this id and this owner, or None. */
  function GetTask(table: seq<TaskRow>, id: string, userId: string): (r: Option<TaskRow>)
    ensures r.None? <==> forall x :: x in table ==> !IsRow(x, id, userId)
    ensures r.Some? ==> r.value in table && IsRow(r.value, id, userId)
  {
    var i := RowIndex(table, id, userId);
    if i < 0 then None else Some(table[i])
  }

  /** `create_task`: appends one row owned by the user; a falsy status or
      priority takes its default, and the reminder date is not stored. */
  function CreateTask(table: seq<TaskRow>, data: TaskCreate, userId: string, id: string, now: int): (r: Written)
    ensures r.row.Some?
    ensures r.table == table + [r.row.value]
    ensures var x := r.row.value;
      && x.id == id && x.userId == userId && x.title == data.title && x.description == data.description
      && x.status == (if SomeTruthy(data.status) then data.status.value else "incomplete")
      && x.priority == (if SomeTruthy(data.priority) then data.priority else Some("medium"))
      && x.dueDate == data.dueDate && x.reminderDate.None?
      && x.createdAt == now && x.updatedAt == now
  {
    var x := TaskRow(id, userId, data.title, data.description,
                     if SomeTruthy(data.status) then data.status.value else "incomplete",
                     if SomeTruthy(data.priority) then data.priority else Some("medium"),
                     data.dueDate, None, now, now);
    Written(table + [x], Some(x))
  }

  /** The row after `update_task`: every non-None field of the update is
      written, the reminder date never is. */
  function Apply(x: TaskRow, u: TaskUpdate, now: int): (r: TaskRow)
    ensures r.id == x.id && r.userId == x.userId && r.createdAt == x.createdAt
    ensures r.reminderDate == x.reminderDate && r.updatedAt == now
    ensures r.title == (if u.title.Some? then u.title.value else x.title)
    ensures r.status == (if u.status.Some? then u.status.value else x.status)
    ensures u.description.Some? ==> r.description == u.description
    ensures u.description.None? ==> r.description == x.description
    ensures u.priority.Some? ==> r.priority == u.priority
    ensures u.priority.None? ==> r.priority == x.priority
    ensures u.dueDate.Some? ==> r.dueDate == u.dueDate
    ensures u.dueDate.None? ==> r.dueDate == x.dueDate
  {
    x.(title := if u.title.Some? then u.title.value else x.title,
       description := if u.description.Some? then u.description else x.description,
       status := if u.status.Some? then u.status.value else x.status,
       priority := if u.priority.Some? then u.priority else x.priority,
       dueDate := if u.dueDate.Some? then u.dueDate else x.dueDate,
       updatedAt := now)
  }

  /** `update_task`: None and no change unless the user owns a row with
      this id; otherwise that row alone is rewritten and returned. */
  function UpdateTask(table: seq<TaskRow>, id: string, u: TaskUpdate, userId: string, now: int): (r: Written)
    ensures |r.table| == |table|
    ensures GetTask(table, id, userId).None? ==> r.table == table && r.row.None?
    ensures GetTask(table, id, userId).Some? ==>
      && r.row == Some(Apply(GetTask(table, id, userId).value, u, now))
      && var i := RowIndex(table, id, userId);
         r.table == table[i := r.row.value]
  {
    var i := RowIndex(table, id, userId);
    if i < 0 then Written(table, None)
    else
      var x := Apply(table[i], u, now);
      Written(table[i := x], Some(x))
  }

  /** `delete_task`: False and no change unless the user owns a row with
      this id; otherwise that row is removed and the rest keep their order. */
  function DeleteTask(table: seq<TaskRow>, id: string, userId: string): (r: Deleted)
    ensures r.deleted <==> GetTask(table, id, userId).Some?
    ensures !r.deleted ==> r.table == table
    ensures r.deleted ==> r.table == RemoveAt(table, RowIndex(table, id, userId))
    ensures r.deleted ==> multiset(r.table) + multiset{GetTask(table, id, userId).value} == multiset(table)
  {
    var i := RowIndex(table, id, userId);
    if i < 0 then Deleted(table, false)
    else Deleted(RemoveAt(table, i), true)
  }

  /** `update_task_status`: only the status and `updated_at` of the user's
      row change. */
  function UpdateTaskStatus(table: seq<TaskRow>, id: string, status: string, userId: string, now: int): (r: Written)
    ensures GetTask(table, id, userId).None? ==> r.table == table && r.row.None?
    ensures GetTask(table, id, userId).Some? ==>
      && r.row == Some(GetTask(table, id, userId).value.(status := status, updatedAt := now))
      && r.table == table[RowIndex(table, id, userId) := r.row.value]
  {
    var i := RowIndex(table, id, userId);
    if i < 0 then Written(table, None)
    else
      var x := table[i].(status := status, updatedAt := now);
      Written(table[i := x], Some(x))
  }

  function OwnedBy(table: seq<TaskRow>, userId: string): (r: seq<TaskRow>)
    ensures forall x :: x in r <==> x in table && x.userId == userId
  {
    Filter(table, (x: TaskRow) => x.userId == userId)
  }

  /** `get_user_stats`: totals over the user's rows, `incomplete` computed
      as the difference, and per distinct priority its count, except that
      the null priority's entry is 0. */
  function GetUserStats(table: seq<TaskRow>, userId: string): (r: Stats)
    ensures r.total == |OwnedBy(table, userId)|
    ensures r.completed == Count(OwnedBy(table, userId), (x: TaskRow) => x.status == "complete")
    ensures r.incomplete == r.total - r.completed
    ensures forall p :: p in r.byPriority <==> exists x :: x in table && x.userId == userId && x.priority == p
    ensures forall p :: p in r.byPriority ==>
      r.byPriority[p] == (if SomeTruthy(p) then Count(OwnedBy(table, userId), (x: TaskRow) => x.priority == p) else 0)
  {
    var mine := OwnedBy(table, userId);
    var completed := Count(mine, (x: TaskRow) => x.status == "complete");
    var priorities := set x | x in mine :: x.priority;
    var byPriority := map p | p in priorities ::
      if SomeTruthy(p) then Count(mine, (x: TaskRow) => x.priority == p) else 0;
    Stats(|mine|, completed, |mine| - completed, byPriority)
  }

  // ---------------------------------------------------------------------
  // Properties relating the operations
  // ---------------------------------------------------------------------

  /** `incomplete` is never negative, and when every status is one of the
      two enum values it counts exactly the incomplete rows. */
  lemma StatsPartition(table: seq<TaskRow>, userId: string)
    ensures var s := GetUserStats(table, userId);
      && 0 <= s.incomplete
      && ((forall x :: x in table ==> x.status in Statuses) ==>
            s.incomplete == Count(OwnedBy(table, userId), (x: TaskRow) => x.status == "incomplete"))
  {
    var mine := OwnedBy(table, userId);
    var complete := (x: TaskRow) => x.status == "complete";
    var notComplete := (x: TaskRow) => !(x.status == "complete");
    FilterPartition(mine, complete, notComplete);
    if forall x :: x in table ==> x.status in Statuses {
      var incomplete := (x: TaskRow) => x.status == "incomplete";
      assert forall x :: x in mine ==> (notComplete(x) <==> incomplete(x));
      FilterSame(mine, notComplete, incomplete);
    }
  }

  /** Two predicates that agree on every element filter alike. */
  lemma {:induction false} FilterSame<T(!new)>(xs: seq<T>, p: T -> bool, q: T -> bool)
    requires forall x :: x in xs ==> (p(x) <==> q(x))
    ensures Filter(xs, p) == Filter(xs, q)
  {
    if xs != [] {
      FilterSame(xs[1..], p, q);
    }
  }

  /** Reading a row back after updating it returns the updated row. */
  lemma UpdateThenGet(table: seq<TaskRow>, id: string, u: TaskUpdate, userId: string, now: int)
    requires GetTask(table, id, userId).Some?
    ensures var w := UpdateTask(table, id, u, userId, now);
      GetTask(w.table, id, userId) == w.row
  {
    var i := RowIndex(table, id, userId);
    var w := UpdateTask(table, id, u, userId, now);
    assert RowIndex(w.table, id, userId) == i by {
      assert IsRow(w.table[i], id, userId);
      assert forall j :: 0 <= j < i ==> w.table[j] == table[j];
    }
  }

  /** An update or status change by one user never alters a row that user
      does not own, and no update ever sets the reminder date. */
  lemma WritesStayWithOwner(table: seq<TaskRow>, id: string, u: TaskUpdate, status: string, userId: string, now: int)
    ensures var a := UpdateTask(table, id, u, userId, now).table;
      var b := UpdateTaskStatus(table, id, status, userId, now).table;
      && |a| == |b| == |table|
      && forall j :: 0 <= j < |table| && table[j].userId != userId ==> a[j] == table[j] && b[j] == table[j]
    ensures forall j :: 0 <= j < |table| ==>
      UpdateTask(table, id, u, userId, now).table[j].reminderDate == table[j].reminderDate
  {
  }

  /** Ids are unique, as the primary key guarantees. */
  ghost predicate UniqueIds(table: seq<TaskRow>) {
    forall i, j :: 0 <= i < j < |table| ==> table[i].id != table[j].id
  }

  /** A row created under an id no row has yet is what the next lookup by
      that id and its owner returns; no other user can fetch it, and ids
      stay unique. */
  lemma CreateThenGet(table: seq<TaskRow>, data: TaskCreate, userId: string, id: string, now: int, other: string)
    requires forall x :: x in table ==> x.id != id
    ensures var w := CreateTask(table, data, userId, id, now);
      && GetTask(w.table, id, userId) == w.row
      && (other != userId ==> GetTask(w.table, id, other).None?)
      && (UniqueIds(table) ==> UniqueIds(w.table))
  {
    var w := CreateTask(table, data, userId, id, now);
    assert w.table[|table|] == w.row.value;
    assert forall i :: 0 <= i < |table| ==> w.table[i] == table[i];
  }

  /** With unique ids, a deleted task is gone for good and every other row
      stays. */
  lemma DeleteThenGet(table: seq<TaskRow>, id: string, userId: string)
    requires UniqueIds(table) && GetTask(table, id, userId).Some?
    ensures var d := DeleteTask(table, id, userId);
      && d.deleted && GetTask(d.table, id, userId).None?
      && forall x :: x in table && x.id != id ==> x in d.table
  {
    var i := RowIndex(table, id, userId);
    var d := DeleteTask(table, id, userId);
    forall x | x in d.table ensures !IsRow(x, id, userId) {
      var k :| 0 <= k < |d.table| && d.table[k] == x;
      if k < i { assert x == table[k]; } else { assert x == table[k + 1]; }
    }
    forall x | x in table && x.id != id ensures x in d.table {
      var k :| 0 <= k < |table| && table[k] == x;
      if k < i { assert d.table[k] == x; } else { assert k != i; assert d.table[k - 1] == x; }
    }
  }

  /** Default listing order (`created_at`, descending): newest first. */
  lemma DefaultOrderNewestFirst(table: seq<TaskRow>, userId: string, status: Option<string>, limit: nat, offset: nat,
                                textLe: (string, string) -> bool, priorityLe: (Option<string>, Option<string>) -> bool)
    ensures var rows := GetTasks(table, userId, status, limit, offset, "created_at", "desc", textLe, priorityLe).rows;
      forall i, j :: 0 <= i < j < |rows| ==> rows[i].createdAt >= rows[j].createdAt
  {
    var cmp := Comparator("created_at", "desc", textLe, priorityLe);
    KeyOrderIsPreorder((x: TaskRow) => x.createdAt);
    assert forall a, b :: cmp(a, b) <==> b.createdAt <= a.createdAt;
    assert TotalPreorder(cmp);
  }
}

=== FILE: task_store.dfy ===
/**
  The in-memory task store of the console/agent backend
  (backend/app/storage.py): a dictionary from task id to task, kept in
  insertion order as Python dictionaries are. Every operation is a pure
  state transformer returning the new store together with what the Python
  method returns; ids and clock readings are parameters.
 */
module TaskStore {
  import opened Common
  import opened Seqs

  type TaskId = string
  type UserId = string

  /** Priority given to a task whose creation data has no "priority" key. */
  const DefaultPriority: string := "medium"

  /** A stored task. Timestamps are clock readings supplied by the caller. */
  datatype Task = Task(
    id: TaskId,
    title: string,
    userId: UserId,
    date: Option<string>,
    note: Option<string>,
    priority: Option<string>,
    completed: bool,
    createdAt: nat,
    updatedAt: nat)

  /** The `task_data` dictionary given to `create_task`. A missing "date" or
      "note" key reads as None; a missing "priority" key (Unset) differs from
      an explicit None. */
  datatype NewTask = NewTask(
    title: string,
    userId: UserId,
    date: Option<string>,
    note: Option<string>,
    priority: Field<Option<string>>)

  /** The `update_data` dictionary given to `update_task`. `update_task`
      treats a missing key and a key holding None alike, so one None stands
      for both. */
  datatype Patch = Patch(
    title: Option<string>,
    date: Option<string>,
    note: Option<string>,
    priority: Option<string>,
    completed: Option<bool>)

  /** Task ids in insertion order, and the tasks they map to. */
  datatype Store = Store(order: seq<TaskId>, tasks: map<TaskId, Task>)

  /** What `create_task` produces: the new store and the new task. */
  datatype Created = Created(store: Store, task: Task)

  /** What `update_task`, `delete_task` and `mark_complete` produce: the new
      store and the task dictionary they return, or None. */
  datatype Written = Written(store: Store, task: Option<Task>)

  const Empty: Store := Store([], map[])

  ghost predicate Distinct<T>(xs: seq<T>) {
    forall i, j :: 0 <= i < j < |xs| ==> xs[i] != xs[j]
  }

  /** The dictionary invariant: every key occurs once in the insertion order,
      and every task is stored under its own id. */
  ghost predicate Valid(s: Store) {
    && Distinct(s.order)
    && (forall id :: id in s.tasks <==> id in s.order)
    && (forall id :: id in s.tasks ==> s.tasks[id].id == id)
  }

  lemma EmptyValid()
    ensures Valid(Empty)
  {
  }

  lemma {:induction false} DistinctCard<T>(xs: seq<T>)
    requires Distinct(xs)
    ensures |set x | x in xs| == |xs|
  {
    if xs != [] {
      var tail := xs[1..];
      assert Distinct(tail);
      DistinctCard(tail);
      assert (set x | x in xs) == (set x | x in tail) + {xs[0]};
      assert xs[0] !in tail;
    }
  }

  /** `get_task`: the task stored under `id`, or None. */
  function GetTask(s: Store, id: TaskId): (r: Option<Task>)
    requires Valid(s)
    ensures r.Some? <==> id in s.tasks
    ensures r.Some? ==> r.value.id == id && r.value in s.tasks.Values
  {
    if id in s.tasks then Some(s.tasks[id]) else None
  }

  function Collect(order: seq<TaskId>, tasks: map<TaskId, Task>): (r: seq<Task>)
    requires forall i :: 0 <= i < |order| ==> order[i] in tasks
    ensures |r| == |order|
    ensures forall i :: 0 <= i < |r| ==> r[i] == tasks[order[i]]
  {
    if order == [] then [] else [tasks[order[0]]] + Collect(order[1..], tasks)
  }

  /** `get_all_tasks`: one entry per stored task, in insertion order. */
  function GetAllTasks(s: Store): (r: seq<Task>)
    requires Valid(s)
    ensures |r| == |s.tasks|
    ensures forall t :: t in r <==> t in s.tasks.Values
    ensures |r| == |s.order| && forall i :: 0 <= i < |s.order| ==> r[i] == s.tasks[s.order[i]]
  {
    var r := Collect(s.order, s.tasks);
    assert s.tasks.Keys == set x | x in s.order;
    DistinctCard(s.order);
    forall t | t in s.tasks.Values ensures t in r {
      var id :| id in s.tasks && s.tasks[id] == t;
      var i :| 0 <= i < |s.order| && s.order[i] == id;
      assert r[i] == t;
    }
    r
  }

  /** `get_tasks_by_user`: exactly the stored tasks owned by `user`, in
      insertion order. */
  function GetTasksByUser(s: Store, user: UserId): (r: seq<Task>)
    requires Valid(s)
    ensures forall t :: t in r <==> t in s.tasks.Values && t.userId == user
    ensures |r| <= |s.tasks|
  {
    Filter(GetAllTasks(s), (t: Task) => t.userId == user)
  }

  /** `self.tasks[t.id] = t`: overwrite in place, or append a new key. */
  function Put(s: Store, t: Task): (r: Store)
    requires Valid(s)
    ensures Valid(r)
    ensures r.tasks == s.tasks[t.id := t]
    ensures t.id in s.tasks ==> r.order == s.order
    ensures t.id !in s.tasks ==> r.order == s.order + [t.id]
  {
    if t.id in s.tasks then Store(s.order, s.tasks[t.id := t])
    else Store(s.order + [t.id], s.tasks[t.id := t])
  }

  /** Priority stored by `create_task`: the dictionary's value when the key
      is present (even None), "medium" when it is absent. */
  function PriorityOf(p: Field<Option<string>>): (r: Option<string>)
    ensures p.Unset? ==> r == Some(DefaultPriority)
    ensures p.Set? ==> r == p.value
  {
    match p
    case Unset => Some(DefaultPriority)
    case Set(v) => v
  }

  /** `create_task`: a fresh task, not completed, stored under its own id. */
  function CreateTask(s: Store, data: NewTask, id: TaskId, now: nat): (r: Created)
    requires Valid(s)
    ensures Valid(r.store)
    ensures r.task.id == id && r.task.userId == data.userId && r.task.title == data.title
    ensures r.task.date == data.date && r.task.note == data.note
    ensures !r.task.completed
    ensures r.task.priority == PriorityOf(data.priority)
    ensures r.task.createdAt == now && r.task.updatedAt == now
    ensures r.store.tasks == s.tasks[id := r.task]
  {
    var t := Task(id, data.title, data.userId, data.date, data.note,
                  PriorityOf(data.priority), false, now, now);
    Created(Put(s, t), t)
  }

  /** The task after `update_task` applied `p` at time `now`. */
  function ApplyPatch(t: Task, p: Patch, now: nat): (r: Task)
    ensures r.id == t.id && r.userId == t.userId && r.createdAt == t.createdAt
    ensures r.updatedAt == now
  {
    t.(title := if p.title.Some? then p.title.value else t.title,
       date := if p.date.Some? then p.date else t.date,
       note := if p.note.Some? then p.note else t.note,
       priority := if p.priority.Some? then p.priority else t.priority,
       completed := if p.completed.Some? then p.completed.value else t.completed,
       updatedAt := now)
  }

  /** `update_task`: on a stored id, overwrite the fields the patch carries
      and refresh `updated_at`; on a missing id, return None and change
      nothing. */
  function UpdateTask(s: Store, id: TaskId, p: Patch, now: nat): (r: Written)
    requires Valid(s)
    ensures Valid(r.store)
    ensures id !in s.tasks ==> r.store == s && r.task == None
    ensures id in s.tasks ==>
      && r.task == Some(ApplyPatch(s.tasks[id], p, now))
      && r.store.tasks == s.tasks[id := r.task.value]
      && r.store.order == s.order
  {
    if id in s.tasks then
      var t := ApplyPatch(s.tasks[id], p, now);
      Written(Put(s, t), Some(t))
    else
      Written(s, None)
  }

  function RemoveId(order: seq<TaskId>, id: TaskId): (r: seq<TaskId>)
    requires Distinct(order)
    ensures Distinct(r)
    ensures forall x :: x in r <==> x in order && x != id
  {
    if order == [] then []
    else if order[0] == id then order[1..]
    else
      var rest := RemoveId(order[1..], id);
      assert order[0] !in rest;
      [order[0]] + rest
  }

  /** `delete_task`: remove exactly `id` and return what was stored there;
      None and no change when nothing is. */
  function DeleteTask(s: Store, id: TaskId): (r: Written)
    requires Valid(s)
    ensures Valid(r.store)
    ensures id !in s.tasks ==> r.store == s && r.task == None
    ensures id in s.tasks ==> r.task == Some(s.tasks[id]) && r.store.tasks == s.tasks - {id}
  {
    if id in s.tasks then
      Written(Store(RemoveId(s.order, id), s.tasks - {id}), Some(s.tasks[id]))
    else
      Written(s, None)
  }

  /** `mark_complete`: set the completion flag and refresh `updated_at`;
      None and no change for a missing id. */
  function MarkComplete(s: Store, id: TaskId, completed: bool, now: nat): (r: Written)
    requires Valid(s)
    ensures Valid(r.store)
    ensures id !in s.tasks ==> r.store == s && r.task == None
    ensures id in s.tasks ==>
      && r.task == Some(s.tasks[id].(completed := completed, updatedAt := now))
      && r.store.tasks == s.tasks[id := r.task.value]
  {
    if id in s.tasks then
      var t := s.tasks[id].(completed := completed, updatedAt := now);
      Written(Put(s, t), Some(t))
    else
      Written(s, None)
  }

  /** Two tasks agree on everything the user edits (title, date, note,
      priority) and on the fields no operation may change (id, owner,
      creation time). */
  predicate SameContent(a: Task, b: Task) {
    a.id == b.id && a.userId == b.userId && a.createdAt == b.createdAt
    && a.title == b.title && a.date == b.date && a.note == b.note && a.priority == b.priority
  }

  // ---------------------------------------------------------------------
  // Properties relating the operations
  // ---------------------------------------------------------------------

  /** A created task can be read back under its id, as created: not
      completed, priority "medium" unless the data named one. */
  lemma CreateThenGet(s: Store, data: NewTask, id: TaskId, now: nat)
    requires Valid(s)
    ensures var c := CreateTask(s, data, id, now);
      && GetTask(c.store, id) == Some(c.task)
      && !c.task.completed
      && (data.priority.Unset? ==> c.task.priority == Some("medium"))
  {
  }

  lemma {:induction false} CollectAppend(order: seq<TaskId>, id: TaskId, tasks: map<TaskId, Task>, t: Task)
    requires forall i :: 0 <= i < |order| ==> order[i] in tasks && order[i] != id
    ensures Collect(order + [id], tasks[id := t]) == Collect(order, tasks) + [t]
  {
    var lhs := Collect(order + [id], tasks[id := t]);
    var rhs := Collect(order, tasks) + [t];
    assert |lhs| == |rhs|;
    forall i | 0 <= i < |lhs| ensures lhs[i] == rhs[i] {
      if i < |order| {
        assert (order + [id])[i] == order[i];
      }
    }
  }

  /** Creating a task under a fresh id appends it to the full listing. */
  lemma CreateAppends(s: Store, data: NewTask, id: TaskId, now: nat)
    requires Valid(s) && id !in s.tasks
    ensures var c := CreateTask(s, data, id, now);
      GetAllTasks(c.store) == GetAllTasks(s) + [c.task]
  {
    var c := CreateTask(s, data, id, now);
    CollectAppend(s.order, id, s.tasks, c.task);
  }

  /** Creating a task for one user under a fresh id leaves every other
      user's listing exactly as it was, and appends the task to the
      owner's. */
  lemma CreateIsolatesUsers(s: Store, data: NewTask, id: TaskId, now: nat, other: UserId)
    requires Valid(s) && id !in s.tasks
    ensures var c := CreateTask(s, data, id, now);
      && (other != data.userId ==> GetTasksByUser(c.store, other) == GetTasksByUser(s, other))
      && GetTasksByUser(c.store, data.userId) == GetTasksByUser(s, data.userId) + [c.task]
  {
    var c := CreateTask(s, data, id, now);
    var all := GetAllTasks(s);
    CreateAppends(s, data, id, now);
    assert GetAllTasks(c.store) == all + [c.task];
    var mine := (t: Task) => t.userId == data.userId;
    FilterAppend(all, [c.task], mine);
    assert Filter([c.task], mine) == [c.task];
    if other != data.userId {
      var theirs := (t: Task) => t.userId == other;
      FilterAppend(all, [c.task], theirs);
      assert Filter([c.task], theirs) == [];
    }
  }

  /** Updating a stored task never clears a field (None values are
      skipped), never changes id, owner or creation time, and then reading
      the task back shows every value the patch carried. */
  lemma UpdateNeverClears(s: Store, id: TaskId, p: Patch, now: nat)
    requires Valid(s) && id in s.tasks
    ensures var before := s.tasks[id];
      var r := UpdateTask(s, id, p, now);
      var t := GetTask(r.store, id).value;
      && t.id == before.id && t.userId == before.userId && t.createdAt == before.createdAt
      && (before.date.Some? ==> t.date.Some?)
      && (before.note.Some? ==> t.note.Some?)
      && (before.priority.Some? ==> t.priority.Some?)
      && (p.title.Some? ==> t.title == p.title.value)
      && (p.date.Some? ==> t.date == p.date)
      && (p.note.Some? ==> t.note == p.note)
      && (p.priority.Some? ==> t.priority == p.priority)
      && (p.completed.Some? ==> t.completed == p.completed.value)
      && (p == Patch(None, None, None, None, None) ==> SameContent(t, before) && t.completed == before.completed)
  {
  }

  /** An update of one id leaves every other task untouched. */
  lemma UpdateOnlyTouchesId(s: Store, id: TaskId, p: Patch, now: nat, other: TaskId)
    requires Valid(s) && other != id
    ensures GetTask(UpdateTask(s, id, p, now).store, other) == GetTask(s, other)
  {
  }

  /** Deleting removes exactly that id and returns its task; a second delete
      of the same id returns None and changes nothing. */
  lemma DeleteTwice(s: Store, id: TaskId)
    requires Valid(s) && id in s.tasks
    ensures var first := DeleteTask(s, id);
      var second := DeleteTask(first.store, id);
      && first.task == Some(s.tasks[id])
      && GetTask(first.store, id) == None
      && (forall other :: other != id ==> GetTask(first.store, other) == GetTask(s, other))
      && second.task == None
      && second.store == first.store
  {
  }

  /** `mark_complete` sets the flag and touches nothing but the flag and
      `updated_at`. */
  lemma MarkCompleteOnlyFlag(s: Store, id: TaskId, c: bool, now: nat)
    requires Valid(s) && id in s.tasks
    ensures var t := GetTask(MarkComplete(s, id, c, now).store, id).value;
      t.completed == c && t.updatedAt == now && SameContent(t, s.tasks[id])
  {
  }
}

=== FILE: todo_reducer.dfy ===
/**
  The client-side todo list reducer `todoReducer` of
  frontend/contexts/TodoContext.tsx: a pure function from a state and an
  action to the next state. `Date.now()` is the parameter `now` (in
  milliseconds); the new todo's id is its decimal rendering, as
  `Date.now().toString()` gives it.
 */
module TodoReducer {
  import opened Common
  import opened Seqs

  datatype Status = Complete | Incomplete

  /** The list filter; the reducer stores it and nothing else reads it here. */
  datatype ListFilter = All | Active | Done

  /** `Todo`; optional properties are None when undefined or null. */
  datatype Todo = Todo(
    id: string,
    text: string,
    description: Option<string>,
    status: Status,
    priority: Option<string>,
    dueDate: Option<int>,
    reminderDate: Option<int>,
    createdAt: int,
    updatedAt: int)

  datatype State = State(todos: seq<Todo>, filter: ListFilter)

  /** The actions the reducer handles, and any other action type. */
  datatype Action =
    | AddTodo(text: string, description: Option<string>, priority: Option<string>,
              dueDate: Option<int>, reminderDate: Option<int>)
    | ToggleTodo(id: string)
    | DeleteTodo(id: string)
    | UpdateTodo(id: string, text: string, description: Option<string>, priority: Option<string>,
                 dueDate: Option<int>, reminderDate: Option<int>)
    | ClearCompleted
    | SetFilter(filter: ListFilter)
    | ReorderTodos(activeId: string, overId: string)
    | LoadTodos(loaded: Option<seq<Todo>>)
    | OtherAction

  function Flip(s: Status): (r: Status)
    ensures r != s
  {
    if s == Complete then Incomplete else Complete
  }

  /** `a ?? b` */
  function OrElse<T>(a: Option<T>, b: Option<T>): (r: Option<T>)
    ensures a.Some? ==> r == a
    ensures a.None? ==> r == b
  {
    if a.Some? then a else b
  }

  /** `ADD_TODO`: one new incomplete todo in front; a falsy priority
      becomes "medium". */
  function Add(todos: seq<Todo>, a: Action, now: nat): (r: seq<Todo>)
    requires a.AddTodo?
    ensures |r| == |todos| + 1 && r[1..] == todos
    ensures r[0].id == NatToString(now) && r[0].text == a.text && r[0].description == a.description
    ensures r[0].status == Incomplete && r[0].createdAt == now && r[0].updatedAt == now
    ensures r[0].priority == (if SomeTruthy(a.priority) then a.priority else Some("medium"))
    ensures r[0].dueDate == a.dueDate && r[0].reminderDate == a.reminderDate
  {
    var t := Todo(NatToString(now), a.text, a.description, Incomplete,
                  Some(if SomeTruthy(a.priority) then a.priority.value else "medium"),
                  a.dueDate, a.reminderDate, now, now);
    [t] + todos
  }

  /** `TOGGLE_TODO`: every todo with the id has its status flipped and
      `updatedAt` set; the others are untouched and the order is kept. */
  function Toggle(todos: seq<Todo>, id: string, now: int): (r: seq<Todo>)
    ensures |r| == |todos|
    ensures forall i :: 0 <= i < |todos| ==>
      r[i] == (if todos[i].id == id then todos[i].(status := Flip(todos[i].status), updatedAt := now) else todos[i])
  {
    seq(|todos|, i requires 0 <= i < |todos| =>
      if todos[i].id == id then todos[i].(status := Flip(todos[i].status), updatedAt := now) else todos[i])
  }

  /** `DELETE_TODO`: the todos without that id, in order. */
  function Delete(todos: seq<Todo>, id: string): (r: seq<Todo>)
    ensures forall t :: t in r <==> t in todos && t.id != id
    ensures r == Filter(todos, (t: Todo) => t.id != id)
  {
    Filter(todos, (t: Todo) => t.id != id)
  }

  /** `UPDATE_TODO`: the text is always replaced; the other fields only by
      a payload value that is not null or undefined. */
  function Update(todos: seq<Todo>, a: Action, now: int): (r: seq<Todo>)
    requires a.UpdateTodo?
    ensures |r| == |todos|
    ensures forall i :: 0 <= i < |todos| && todos[i].id != a.id ==> r[i] == todos[i]
    ensures forall i :: 0 <= i < |todos| && todos[i].id == a.id ==>
      && r[i].id == todos[i].id && r[i].status == todos[i].status && r[i].createdAt == todos[i].createdAt
      && r[i].text == a.text && r[i].updatedAt == now
      && r[i].description == OrElse(a.description, todos[i].description)
      && r[i].priority == OrElse(a.priority, todos[i].priority)
      && r[i].dueDate == OrElse(a.dueDate, todos[i].dueDate)
      && r[i].reminderDate == OrElse(a.reminderDate, todos[i].reminderDate)
  {
    seq(|todos|, i requires 0 <= i < |todos| =>
      if todos[i].id == a.id then
        todos[i].(text := a.text,
                  description := OrElse(a.description, todos[i].description),
                  priority := OrElse(a.priority, todos[i].priority),
                  dueDate := OrElse(a.dueDate, todos[i].dueDate),
                  reminderDate := OrElse(a.reminderDate, todos[i].reminderDate),
                  updatedAt := now)
      else todos[i])
  }

  /** `CLEAR_COMPLETED`: no complete todo remains, every incomplete one
      does, in order. */
  function ClearDone(todos: seq<Todo>): (r: seq<Todo>)
    ensures forall i :: 0 <= i < |r| ==> r[i].status == Incomplete
    ensures forall t :: t in todos && t.status == Incomplete ==> t in r
    ensures r == Filter(todos, (t: Todo) => t.status != Complete)
  {
    Filter(todos, (t: Todo) => t.status != Complete)
  }

  /** Where `Array.prototype.splice` starts for a requested index `i` on an
      array of length `n`: a negative index counts from the end. */
  function SpliceStart(i: int, n: nat): (r: nat)
    ensures r <= n
    ensures 0 <= i <= n ==> r == i
    ensures i < 0 && n + i >= 0 ==> r == n + i
    ensures n + i < 0 ==> r == 0
  {
    if i < 0 then (if n + i < 0 then 0 else n + i) else Min(i, n)
  }

  /** `xs` with `x` inserted at index `k`. */
  function InsertAt<T>(xs: seq<T>, k: nat, x: T): (r: seq<T>)
    requires k <= |xs|
    ensures |r| == |xs| + 1 && r[k] == x
    ensures forall j :: 0 <= j < k ==> r[j] == xs[j]
    ensures forall j :: k < j < |r| ==> r[j] == xs[j - 1]
    ensures multiset(r) == multiset(xs) + multiset{x}
    ensures RemoveAt(r, k) == xs
  {
    assert xs == xs[..k] + xs[k..];
    xs[..k] + [x] + xs[k..]
  }

  /** `REORDER_TODOS`: nothing happens when both ids are equal; otherwise
      the todo at the active id's index is taken out and put back at the
      over id's index. An index of -1 (id not found) counts from the end, as
      `splice` reads it: a missing active id takes out the last todo, and a
      missing over id puts the moved todo back just before the last of the
      remaining ones (see `ReorderOntoMissingId`). Always a permutation, and
      the todos not moved keep their relative order. */
  function Reorder(todos: seq<Todo>, activeId: string, overId: string): (r: seq<Todo>)
    ensures activeId == overId ==> r == todos
    ensures multiset(r) == multiset(todos) && |r| == |todos|
    ensures activeId != overId && 0 <= FirstIndex(todos, (t: Todo) => t.id == activeId) ==>
      var k := SpliceStart(FirstIndex(todos, (t: Todo) => t.id == overId), |todos| - 1);
      r[k] == todos[FirstIndex(todos, (t: Todo) => t.id == activeId)]
    ensures activeId != overId && todos != [] ==>
      var from := SpliceStart(FirstIndex(todos, (t: Todo) => t.id == activeId), |todos|);
      var k := SpliceStart(FirstIndex(todos, (t: Todo) => t.id == overId), |todos| - 1);
      && r[k] == todos[from]
      && RemoveAt(r, k) == RemoveAt(todos, from)
  {
    if activeId == overId || todos == [] then todos
    else
      var oldIndex := FirstIndex(todos, (t: Todo) => t.id == activeId);
      var newIndex := FirstIndex(todos, (t: Todo) => t.id == overId);
      var from := SpliceStart(oldIndex, |todos|);
      var moved := todos[from];
      var rest := RemoveAt(todos, from);
      InsertAt(rest, SpliceStart(newIndex, |rest|), moved)
  }

  /** Dragging the first todo onto an id that is not in the list leaves it
      second to last, not last: [a, b, c] becomes [b, a, c]. */
  lemma ReorderOntoMissingId(todos: seq<Todo>, missing: string)
    requires |todos| >= 2
    requires forall i :: 0 <= i < |todos| ==> todos[i].id != missing
    ensures Reorder(todos, todos[0].id, missing) == todos[1..|todos| - 1] + [todos[0], todos[|todos| - 1]]
  {
    var n := |todos|;
    assert FirstIndex(todos, (t: Todo) => t.id == todos[0].id) == 0;
    assert FirstIndex(todos, (t: Todo) => t.id == missing) == -1;
    var rest := RemoveAt(todos, 0);
    var r := InsertAt(rest, n - 2, todos[0]);
    assert r == todos[1..n - 1] + [todos[0], todos[n - 1]] by {
      forall j | 0 <= j < n
        ensures r[j] == (todos[1..n - 1] + [todos[0], todos[n - 1]])[j]
      {
        if j < n - 2 { assert r[j] == rest[j] == todos[j + 1]; }
        else if j == n - 1 { assert r[j] == rest[j - 1] == todos[j]; }
      }
    }
  }

  /** `todoReducer`. */
  function Reduce(s: State, a: Action, now: nat): (r: State)
    ensures !a.SetFilter? ==> r.filter == s.filter
    ensures a.SetFilter? ==> r == s.(filter := a.filter)
    ensures a.OtherAction? ==> r == s
    ensures a.LoadTodos? ==> r.todos == (if a.loaded.Some? then a.loaded.value else [])
    ensures a.ReorderTodos? ==> multiset(r.todos) == multiset(s.todos)
    ensures a.ToggleTodo? || a.UpdateTodo? || a.ReorderTodos? ==> |r.todos| == |s.todos|
    ensures a.AddTodo? ==> |r.todos| == |s.todos| + 1
    ensures a.DeleteTodo? || a.ClearCompleted? ==> |r.todos| <= |s.todos|
  {
    match a
    case AddTodo(_, _, _, _, _) => s.(todos := Add(s.todos, a, now))
    case ToggleTodo(id) => s.(todos := Toggle(s.todos, id, now))
    case DeleteTodo(id) => s.(todos := Delete(s.todos, id))
    case UpdateTodo(_, _, _, _, _, _) => s.(todos := Update(s.todos, a, now))
    case ClearCompleted => s.(todos := ClearDone(s.todos))
    case SetFilter(f) => s.(filter := f)
    case ReorderTodos(activeId, overId) => s.(todos := Reorder(s.todos, activeId, overId))
    case LoadTodos(loaded) => s.(todos := if loaded.Some? then loaded.value else [])
    case OtherAction => s
  }

  // ---------------------------------------------------------------------
  // Properties relating actions
  // ---------------------------------------------------------------------

  /** Toggling the same id twice restores every status; only the toggled
      todos' `updatedAt` moves. */
  lemma ToggleTwiceRestores(s: State, id: string, t1: nat, t2: nat)
    ensures var r := Reduce(Reduce(s, ToggleTodo(id), t1), ToggleTodo(id), t2);
      && |r.todos| == |s.todos|
      && forall i :: 0 <= i < |s.todos| ==>
           r.todos[i] == (if s.todos[i].id == id then s.todos[i].(updatedAt := t2) else s.todos[i])
  {
    var once := Toggle(s.todos, id, t1);
    var twice := Toggle(once, id, t2);
    forall i | 0 <= i < |s.todos| && s.todos[i].id == id
      ensures twice[i] == s.todos[i].(updatedAt := t2)
    {
      assert Flip(Flip(s.todos[i].status)) == s.todos[i].status;
    }
  }

  /** Clearing completed todos twice is clearing them once. */
  lemma ClearIdempotent(s: State, now: nat)
    ensures Reduce(Reduce(s, ClearCompleted, now), ClearCompleted, now) == Reduce(s, ClearCompleted, now)
  {
    FilterIdempotent(s.todos, (t: Todo) => t.status != Complete);
  }

  /** Deleting an id removes every todo with it, and deleting it again
      changes nothing. */
  lemma DeleteTwice(s: State, id: string, now: nat)
    ensures var once := Reduce(s, DeleteTodo(id), now);
      && (forall t :: t in once.todos ==> t.id != id)
      && Reduce(once, DeleteTodo(id), now) == once
  {
    var once := Delete(s.todos, id);
    FilterAll(once, (t: Todo) => t.id != id);
  }

  /** An added todo is gone again once its id is deleted, provided no other
      todo had that id. */
  lemma AddThenDelete(s: State, a: Action, now: nat)
    requires a.AddTodo?
    requires forall t :: t in s.todos ==> t.id != NatToString(now)
    ensures Reduce(Reduce(s, a, now), DeleteTodo(NatToString(now)), now) == s
  {
    var added := Add(s.todos, a, now);
    assert added == [added[0]] + s.todos;
    FilterAll(s.todos, (t: Todo) => t.id != NatToString(now));
  }
}

=== FILE: update_task_agent.dfy ===
/**
  UpdateTaskAgent (backend/app/agents/update_task_agent.py): edits the
  title, date and note of an existing task the caller owns, after the same
  title validation as adding a task. The completion flag is left to
  MarkCompleteAgent.
 */
module UpdateTaskAgent {
  import opened Common
  import opened TaskStore
  import opened AgentReply
  import AddTaskAgent

  const NotFoundMessage: string := "Task not found. Cannot update a non-existent task."
  const NothingToUpdateMessage: string := "No update provided. Please specify title, date, or note to update."

  /** `validate_input`: no title is valid; a given title is checked as when
      adding a task. */
  function ValidateInput(title: Option<string>): (r: AddTaskAgent.Validation)
    ensures r.valid <==> title.None? || (!AllSpace(title.value) && |title.value| <= AddTaskAgent.MaxTitleLength)
    ensures title.Some? && AllSpace(title.value) ==> r.message == AddTaskAgent.EmptyTitleMessage
  {
    if title.None? then AddTaskAgent.Validation(true, "Valid input")
    else AddTaskAgent.ValidateInput(title.value)
  }

  /** `", ".join(parts)` */
  function Join(parts: seq<string>): (r: string)
    ensures parts == [] ==> r == []
    ensures |parts| == 1 ==> r == parts[0]
  {
    if parts == [] then []
    else if |parts| == 1 then parts[0]
    else parts[0] + ", " + Join(parts[1..])
  }

  /** The change list of the success message, for all three fields and for
      one. */
  lemma JoinChangedFields(title: string, date: string, note: string)
    ensures Join(ChangedFields(Some(title), Some(date), Some(note))) == "title, date, note"
    ensures Join(ChangedFields(None, Some(date), None)) == "date"
  {
  }

  /** The names of the fields the call supplies, in the order title, date,
      note. */
  function ChangedFields(title: Option<string>, date: Option<string>, note: Option<string>): (r: seq<string>)
    ensures |r| <= 3
    ensures "title" in r <==> title.Some?
    ensures "date" in r <==> date.Some?
    ensures "note" in r <==> note.Some?
  {
    (if title.Some? then ["title"] else [])
    + (if date.Some? then ["date"] else [])
    + (if note.Some? then ["note"] else [])
  }

  /** The patch handed to the store: the trimmed title and the date and note
      exactly as given; never a priority or completion flag. */
  function PatchOf(title: Option<string>, date: Option<string>, note: Option<string>): (r: Patch)
    ensures r.priority.None? && r.completed.None?
    ensures r.title.Some? <==> title.Some?
    ensures title.Some? ==> r.title.value == Strip(title.value)
    ensures r.date == date && r.note == note
  {
    Patch(if title.Some? then Some(Strip(title.value)) else None, date, note, None, None)
  }

  /** `execute`. The checks run in the order: task exists, caller owns it,
      title valid, something to change. Any failure leaves the store as it
      was. On success the task's title (trimmed), date and note are replaced
      by the values supplied, everything else but `updated_at` is kept, and
      the message names the task's title after the change: the task fetched
      at the start is the very object the storage then changes in place. */
  function Execute(s: Store, id: TaskId, title: Option<string>, date: Option<string>,
                   note: Option<string>, userId: Option<string>, now: nat): (r: Step<Reply>)
    requires Valid(s)
    ensures Valid(r.store)
    ensures id !in s.tasks ==> r.reply == Failure(NotFoundMessage)
    ensures id in s.tasks && Foreign(userId, s.tasks[id]) ==> r.reply == Failure(NotOwnerMessage)
    ensures id in s.tasks && !Foreign(userId, s.tasks[id]) && !ValidateInput(title).valid ==>
      r.reply == Failure(ValidateInput(title).message)
    ensures id in s.tasks && !Foreign(userId, s.tasks[id]) && ValidateInput(title).valid
            && title.None? && date.None? && note.None? ==>
      r.reply == Failure(NothingToUpdateMessage)
    ensures r.reply.success <==>
      && id in s.tasks && !Foreign(userId, s.tasks[id])
      && ValidateInput(title).valid
      && !(title.None? && date.None? && note.None?)
    ensures !r.reply.success ==> r.store == s && r.reply.task.None?
    ensures r.reply.success ==>
      && var before := s.tasks[id];
      && var t := before.(title := if title.Some? then Strip(title.value) else before.title,
                          date := if date.Some? then date else before.date,
                          note := if note.Some? then note else before.note,
                          updatedAt := now);
      && r.reply.task == Some(t)
      && r.store.tasks == s.tasks[id := t]
      && r.reply.message == "Task '" + t.title + "' has been updated! Changed: "
                            + Join(ChangedFields(title, date, note))
  {
    if id !in s.tasks then Step(s, Failure(NotFoundMessage))
    else
      var before := s.tasks[id];
      if Foreign(userId, before) then Step(s, Failure(NotOwnerMessage))
      else
        var v := ValidateInput(title);
        if !v.valid then Step(s, Failure(v.message))
        else if title.None? && date.None? && note.None? then Step(s, Failure(NothingToUpdateMessage))
        else
          var w := UpdateTask(s, id, PatchOf(title, date, note), now);
          // The task the storage hands back is the object it changed in
          // place, so its title is already the new one.
          var current := if title.Some? then Strip(title.value) else before.title;
          Step(w.store, Reply(true, "Task '" + current + "' has been updated! Changed: "
                                    + Join(ChangedFields(title, date, note)), w.task))
  }

  /** The agent never adds or removes a task and never changes a completion
      flag, a priority or an owner, whatever it is asked. */
  lemma UpdateKeepsStatusAndOwner(s: Store, id: TaskId, title: Option<string>, date: Option<string>,
                                  note: Option<string>, userId: Option<string>, now: nat)
    requires Valid(s)
    ensures var r := Execute(s, id, title, date, note, userId, now);
      && r.store.tasks.Keys == s.tasks.Keys
      && forall k :: k in s.tasks ==>
           && r.store.tasks[k].completed == s.tasks[k].completed
           && r.store.tasks[k].priority == s.tasks[k].priority
           && r.store.tasks[k].userId == s.tasks[k].userId
  {
  }

  /** A caller who does not own the task cannot change it, whatever the
      other arguments are. */
  lemma ForeignCallerChangesNothing(s: Store, id: TaskId, title: Option<string>, date: Option<string>,
                                    note: Option<string>, caller: string, now: nat)
    requires Valid(s) && id in s.tasks && caller != "" && s.tasks[id].userId != caller
    ensures Execute(s, id, title, date, note, Some(caller), now).store == s
  {
  }
}

=== FILE: user_directory.dfy ===
/**
  The in-memory user model and directory of the console/agent backend
  (backend/app/auth/models.py). The SHA-256 digest is a parameter `sha`
  from the salted password to its hex digest; the uuid, salt and clock
  readings are parameters too.
 */
module UserDirectory {
  import opened Common

  /** A registered user: the password is kept only as `sha(password + salt)`. */
  datatype User = User(
    id: string,
    email: string,
    passwordHash: string,
    salt: string,
    createdAt: nat,
    updatedAt: nat)

  /** `to_dict()`; the hash and salt are None unless requested. */
  datatype UserDict = UserDict(
    id: string,
    email: string,
    createdAt: nat,
    updatedAt: nat,
    passwordHash: Option<string>,
    salt: Option<string>)

  /** The two dictionaries: email to user and id to user. */
  datatype Directory = Directory(byEmail: map<string, User>, byId: map<string, User>)

  const EmptyDirectory: Directory := Directory(map[], map[])

  /** `User(email, password)`: stores the salted digest, never the password. */
  function NewUser(id: string, email: string, password: string, salt: string, now: nat,
                   sha: string -> string): (r: User)
    ensures r.id == id && r.email == email && r.salt == salt
    ensures r.passwordHash == sha(password + salt)
    ensures r.createdAt == now && r.updatedAt == now
  {
    User(id, email, sha(password + salt), salt, now, now)
  }

  /** `verify_password`: the candidate, salted and digested, matches the
      stored digest. */
  predicate VerifyPassword(u: User, password: string, sha: string -> string) {
    sha(password + u.salt) == u.passwordHash
  }

  /** `to_dict(include_password)` */
  function ToDict(u: User, includePassword: bool): (r: UserDict)
    ensures r.id == u.id && r.email == u.email && r.createdAt == u.createdAt && r.updatedAt == u.updatedAt
    ensures r.passwordHash.Some? <==> includePassword
    ensures r.salt.Some? <==> includePassword
    ensures includePassword ==> r.passwordHash == Some(u.passwordHash) && r.salt == Some(u.salt)
  {
    UserDict(u.id, u.email, u.createdAt, u.updatedAt,
             if includePassword then Some(u.passwordHash) else None,
             if includePassword then Some(u.salt) else None)
  }

  /** `get_user_by_email` */
  function GetByEmail(d: Directory, email: string): (r: Option<User>)
    ensures r.Some? <==> email in d.byEmail
    ensures r.Some? ==> r.value == d.byEmail[email]
  {
    if email in d.byEmail then Some(d.byEmail[email]) else None
  }

  /** `get_user_by_id` */
  function GetById(d: Directory, id: string): (r: Option<User>)
    ensures r.Some? <==> id in d.byId
    ensures r.Some? ==> r.value == d.byId[id]
  {
    if id in d.byId then Some(d.byId[id]) else None
  }

  /** `add_user`: registers under both keys, overwriting whatever was there;
      every other entry is kept. */
  function AddUser(d: Directory, u: User): (r: Directory)
    ensures r.byEmail.Keys == d.byEmail.Keys + {u.email}
    ensures r.byId.Keys == d.byId.Keys + {u.id}
    ensures r.byEmail[u.email] == u && r.byId[u.id] == u
    ensures forall e :: e in d.byEmail && e != u.email ==> r.byEmail[e] == d.byEmail[e]
    ensures forall i :: i in d.byId && i != u.id ==> r.byId[i] == d.byId[i]
  {
    Directory(d.byEmail[u.email := u], d.byId[u.id := u])
  }

  /** What `update_user` produces: the new directory and the user it
      returns, or None. */
  datatype Updated = Updated(directory: Directory, user: Option<User>)

  /** `update_user`: only a user whose email is already registered is
      stored (under both keys, with `updated_at` refreshed); otherwise None
      and no change. */
  function UpdateUser(d: Directory, u: User, now: nat): (r: Updated)
    ensures u.email !in d.byEmail ==> r.directory == d && r.user.None?
    ensures u.email in d.byEmail ==>
      && r.user == Some(u.(updatedAt := now))
      && r.directory == AddUser(d, r.user.value)
  {
    if u.email in d.byEmail then
      var v := u.(updatedAt := now);
      Updated(AddUser(d, v), Some(v))
    else
      Updated(d, None)
  }

  /** The directory's consistency: each entry is keyed by its own email or
      id, and every email entry is reachable under its id. */
  ghost predicate Consistent(d: Directory) {
    && (forall e :: e in d.byEmail ==> d.byEmail[e].email == e)
    && (forall i :: i in d.byId ==> d.byId[i].id == i)
    && (forall e :: e in d.byEmail ==> d.byEmail[e].id in d.byId && d.byId[d.byEmail[e].id] == d.byEmail[e])
  }

  /** After `add_user(u)` both lookups return `u`; with a fresh email and a
      fresh id the directory stays consistent. */
  lemma AddThenLookup(d: Directory, u: User)
    ensures GetByEmail(AddUser(d, u), u.email) == Some(u)
    ensures GetById(AddUser(d, u), u.id) == Some(u)
    ensures Consistent(d) && u.email !in d.byEmail && u.id !in d.byId ==> Consistent(AddUser(d, u))
  {
  }

  /** `add_user` does not enforce unique emails: a second user with the same
      email replaces the first in the email index, and the first stays
      reachable by its id. */
  lemma AddOverwritesEmail(d: Directory, u1: User, u2: User)
    requires u1.email == u2.email && u1.id != u2.id
    ensures var r := AddUser(AddUser(d, u1), u2);
      GetByEmail(r, u1.email) == Some(u2) && GetById(r, u1.id) == Some(u1)
  {
  }

  /** The password given at construction verifies; when the digest is
      injective, no other password does. */
  lemma OnlyOwnPasswordVerifies(id: string, email: string, password: string, other: string,
                                 salt: string, now: nat, sha: string -> string)
    ensures VerifyPassword(NewUser(id, email, password, salt, now, sha), password, sha)
    ensures (forall a, b :: sha(a) == sha(b) ==> a == b) && other != password ==>
      !VerifyPassword(NewUser(id, email, password, salt, now, sha), other, sha)
  {
    if other + salt == password + salt {
      assert other == (other + salt)[..|other|];
      assert password == (password + salt)[..|password|];
    }
  }
}

=== FILE: user_model.dfy ===
/**
  The database user record and the password validator of the web backend
  (backend/app/models/user.py).
 */
module UserModel {
  import opened Common

  /** The longest password, in UTF-8 bytes, the validator accepts. */
  const MaxPasswordBytes: nat := 72

  const TooLongMessage: string :=
    "Your password is too long. Please use a password with 72 characters or fewer."

  /** A row of the `users` table; `is_active` defaults to true. */
  datatype DbUser = DbUser(
    id: string,
    email: string,
    passwordHash: string,
    createdAt: nat,
    updatedAt: nat,
    isActive: bool)

  /** `User(email=..., password_hash=...)` with the column defaults filled
      in: a fresh id, both timestamps now, active. */
  function NewDbUser(id: string, email: string, passwordHash: string, now: nat): (r: DbUser)
    ensures r.isActive
    ensures r.id == id && r.email == email && r.passwordHash == passwordHash
    ensures r.createdAt == now && r.updatedAt == now
  {
    DbUser(id, email, passwordHash, now, now, true)
  }

  /** Bytes UTF-8 uses for one code point. */
  function Utf8Width(c: char): (r: nat)
    ensures 1 <= r <= 4
    ensures r == 1 <==> (c as int) < 0x80
  {
    var n := c as int;
    if n < 0x80 then 1 else if n < 0x800 then 2 else if n < 0x10000 then 3 else 4
  }

  /** `len(s.encode('utf-8'))`: never less than the number of characters
      and at most four bytes per character. */
  function Utf8Length(s: string): (r: nat)
    ensures |s| <= r <= 4 * |s|
  {
    if s == [] then 0 else Utf8Width(s[0]) + Utf8Length(s[1..])
  }

  /** The validator either accepts (returning the value to store) or raises
      ValueError with its message. */
  datatype Checked = Accepted(password: string) | Rejected(message: string)

  /** `validate_password_length`: more than 72 UTF-8 bytes is rejected;
      otherwise `v[:72]` is returned, which is `v` itself because an
      accepted password has at most 72 characters. */
  function ValidatePasswordLength(v: string): (r: Checked)
    ensures r.Accepted? <==> Utf8Length(v) <= MaxPasswordBytes
    ensures r.Rejected? ==> r.message == TooLongMessage
    ensures r.Accepted? ==> r.password == v && |r.password| <= MaxPasswordBytes
  {
    if Utf8Length(v) > MaxPasswordBytes then Rejected(TooLongMessage)
    else Accepted(v[..Min(MaxPasswordBytes, |v|)])
  }

  lemma {:induction false} AsciiLength(s: string)
    requires forall i :: 0 <= i < |s| ==> (s[i] as int) < 0x80
    ensures Utf8Length(s) == |s|
  {
    if s != [] {
      AsciiLength(s[1..]);
    }
  }

  lemma {:induction false} WideLength(s: string)
    requires forall i :: 0 <= i < |s| ==> 0x800 <= (s[i] as int) < 0x10000
    ensures Utf8Length(s) == 3 * |s|
  {
    if s != [] {
      WideLength(s[1..]);
    }
  }

  /** The limit is in bytes, not characters: 72 ASCII characters pass and 73
      fail, while 24 euro signs (3 bytes each) pass and 25 fail. */
  lemma ByteLimitNotCharacterLimit()
    ensures ValidatePasswordLength(seq(72, _ => 'a')).Accepted?
    ensures ValidatePasswordLength(seq(73, _ => 'a')).Rejected?
    ensures ValidatePasswordLength(seq(24, _ => '€')).Accepted?
    ensures ValidatePasswordLength(seq(25, _ => '€')).Rejected?
  {
    AsciiLength(seq(72, _ => 'a'));
    AsciiLength(seq(73, _ => 'a'));
    WideLength(seq(24, _ => '€'));
    WideLength(seq(25, _ => '€'));
  }
}

=== FILE: view_tasks_agent.dfy ===
/**
  ViewTasksAgent (backend/app/agents/view_tasks_agent.py): read-only
  listings of the task store, overall or per user, optionally narrowed to
  pending or completed tasks, and lookup of one task by id.
 */
module ViewTasksAgent {
  import opened Common
  import opened Seqs
  import opened TaskStore

  /** A listing `{success, message, tasks, count}` or a single-task reply
      `{success, message, task}` (no "task" key when not found). */
  datatype ViewReply =
    | Listing(message: string, tasks: seq<Task>, count: nat)
    | Single(success: bool, message: string, task: Option<Task>)

  predicate Pending(t: Task) { !t.completed }
  predicate Completed(t: Task) { t.completed }

  /** `get_all_tasks` */
  function ListAll(s: Store): (r: ViewReply)
    requires Valid(s)
    ensures r.Listing? && r.count == |r.tasks| == |s.tasks|
    ensures forall t :: t in r.tasks <==> t in s.tasks.Values
    ensures r.message == "Found " + NatToString(r.count) + " task(s)"
  {
    var ts := GetAllTasks(s);
    Listing("Found " + NatToString(|ts|) + " task(s)", ts, |ts|)
  }

  /** `get_tasks_by_user` */
  function ListByUser(s: Store, user: UserId): (r: ViewReply)
    requires Valid(s)
    ensures r.Listing? && r.count == |r.tasks|
    ensures forall t :: t in r.tasks <==> t in s.tasks.Values && t.userId == user
    ensures r.message == "Found " + NatToString(r.count) + " task(s) for user"
  {
    var ts := GetTasksByUser(s, user);
    Listing("Found " + NatToString(|ts|) + " task(s) for user", ts, |ts|)
  }

  /** `get_task_by_id`: the stored task, whoever owns it. */
  function GetById(s: Store, id: TaskId): (r: ViewReply)
    requires Valid(s)
    ensures r.Single?
    ensures r.success <==> id in s.tasks
    ensures r.success ==> r.task == Some(s.tasks[id]) && r.message == "Task found"
    ensures !r.success ==> r.task.None? && r.message == "Task not found"
  {
    if id in s.tasks then Single(true, "Task found", Some(s.tasks[id]))
    else Single(false, "Task not found", None)
  }

  /** The tasks a pending/completed listing starts from: the caller's when a
      non-empty user id is given, everyone's otherwise. */
  function Scope(s: Store, userId: Option<string>): (r: seq<Task>)
    requires Valid(s)
    ensures SomeTruthy(userId) ==> forall t :: t in r <==> t in s.tasks.Values && t.userId == userId.value
    ensures !SomeTruthy(userId) ==> forall t :: t in r <==> t in s.tasks.Values
  {
    if SomeTruthy(userId) then GetTasksByUser(s, userId.value) else GetAllTasks(s)
  }

  /** `get_pending_tasks` */
  function ListPending(s: Store, userId: Option<string>): (r: ViewReply)
    requires Valid(s)
    ensures r.Listing? && r.count == |r.tasks|
    ensures forall t :: t in r.tasks <==> t in Scope(s, userId) && !t.completed
    ensures r.message == "Found " + NatToString(r.count) + " pending task(s)"
  {
    var ts := Filter(Scope(s, userId), Pending);
    Listing("Found " + NatToString(|ts|) + " pending task(s)", ts, |ts|)
  }

  /** `get_completed_tasks` */
  function ListCompleted(s: Store, userId: Option<string>): (r: ViewReply)
    requires Valid(s)
    ensures r.Listing? && r.count == |r.tasks|
    ensures forall t :: t in r.tasks <==> t in Scope(s, userId) && t.completed
    ensures r.message == "Found " + NatToString(r.count) + " completed task(s)"
  {
    var ts := Filter(Scope(s, userId), Completed);
    Listing("Found " + NatToString(|ts|) + " completed task(s)", ts, |ts|)
  }

  /** `execute`: a non-empty task id wins over every other argument; then a
      non-empty user id restricts to that user's tasks; `filter_status`
      "pending" or "completed" narrows the listing, and any other value
      lists everything in scope. */
  function Execute(s: Store, taskId: Option<string>, filterStatus: Option<string>, userId: Option<string>): (r: ViewReply)
    requires Valid(s)
    ensures SomeTruthy(taskId) ==> r == GetById(s, taskId.value)
    ensures !SomeTruthy(taskId) ==> r.Listing? && r.count == |r.tasks|
    ensures !SomeTruthy(taskId) && SomeTruthy(userId) ==>
      forall t :: t in r.tasks ==> t in s.tasks.Values && t.userId == userId.value
    ensures !SomeTruthy(taskId) ==>
      (filterStatus == Some("pending") ==> forall t :: t in r.tasks ==> !t.completed)
      && (filterStatus == Some("completed") ==> forall t :: t in r.tasks ==> t.completed)
    ensures !SomeTruthy(taskId) && filterStatus == Some("pending") ==> r == ListPending(s, userId)
    ensures !SomeTruthy(taskId) && filterStatus == Some("completed") ==> r == ListCompleted(s, userId)
    ensures !SomeTruthy(taskId) && filterStatus != Some("pending") && filterStatus != Some("completed") ==>
      r.tasks == Scope(s, userId)
  {
    if SomeTruthy(taskId) then GetById(s, taskId.value)
    else if SomeTruthy(userId) then
      if filterStatus == Some("pending") then ListPending(s, userId)
      else if filterStatus == Some("completed") then ListCompleted(s, userId)
      else ListByUser(s, userId.value)
    else if filterStatus == Some("pending") then ListPending(s, userId)
    else if filterStatus == Some("completed") then ListCompleted(s, userId)
    else ListAll(s)
  }

  /** The pending and completed listings split the tasks in scope: their
      counts add up to the size of the unfiltered listing. */
  lemma PendingPlusCompleted(s: Store, userId: Option<string>)
    requires Valid(s)
    ensures ListPending(s, userId).count + ListCompleted(s, userId).count == |Scope(s, userId)|
  {
    FilterPartition(Scope(s, userId), Pending, Completed);
  }

  /** A lookup by id does not check the owner: any caller sees any task. */
  lemma LookupIgnoresOwner(s: Store, id: TaskId, filterStatus: Option<string>, caller: string)
    requires Valid(s) && id in s.tasks && id != ""
    ensures Execute(s, Some(id), filterStatus, Some(caller)).task == Some(s.tasks[id])
  {
  }
}
